=== FILE: README.md ===
# ADFS old-map volume driver, modelled in Dafny

This project models the core of an Acorn ADFS disc-image driver: the part that
stores files in an old-map (ADFS S/M/L) volume. The disc image is a byte
sequence addressed in 256-byte sectors. On it the driver keeps:

- the **free-space map** in sectors 0 and 1: 512 bytes holding a table of
  free-extent start sectors, a table of lengths, two checksums and a count byte;
- **directories**: blocks of `length` bytes with a "Hugo" header, 26-byte entries
  kept in case-folded name order, and a footer.

The model covers:

- the little-endian field accessors;
- the map checksum and loading and saving the map;
- `search` (look a name up in a directory and decode the entry);
- `find` (resolve a dotted path from the root);
- `map_free` (give an extent back to the map);
- `alloc_write` (first-fit allocation, then the data write);
- `dir_update` (encode an entry and write the block back);
- `dir_makeslot` (open a gap for a new entry);
- `save`, which strings these together;
- `DiskImgIO::sectors`, the byte-to-sector rounding.

Every buffer is an immutable `seq<byte>`, and every operation is a pure function
that returns a status together with the new disc, map and object.

Modules, one per component:

- `Bytes`: bytes, masks, get/put 24 and 32, memmove.
- `DiskImg`: the image, `sectors`, read and write.
- `AcornFS`: `afs_status` and `afs_object`.
- `FsMap`: checksum, `load_fsmap`/`save_fsmap`, the live-entry view, `map_free`, `alloc_write`.
- `Directory`: compare, scan, decode and encode, `search`, `dir_update`, `dir_makeslot`.
- `Path`: `make_root`, `find`.
- `Driver`: `save`.

The driver walks the map's tables in steps of three entry bytes while the offset
is below the count byte. The entries it visits are called the *live* entries
(`FsMap.Live`); every map property is stated about them.

The model follows the code literally where it departs from the ADFS old-map
format:

- The count byte is compared with 82 (`map_free`), but inserting or removing an
  entry moves it by one, not by three. See `FsMap.InsertDropsLastWhenUnaligned`
  and `FsMap.RemoveExposesStaleSlot`.
- Because of that, an exact fit on a count byte that is not one past a multiple of 3 brings the stale triple past the live entries into the live range. That triple can repeat the extent before it, which is then listed twice and can be allocated twice (`FsMap.ExactFitListsExtentTwice`).
- Freeing an extent only extends an extent that ends where the freed one starts.
  An extent freed just before an existing one does not merge with it
  (`FsMap.NoMergeWithFollowing`), so coalescing is not symmetric in the order of
  frees.
- Public-execute is decoded from byte 8, because the assignment from byte 7 is
  overwritten. It is encoded into both byte 7 and byte 8.

## Model

| member | source | states |
|---|---|---|
| `Bytes.Get24` | AcornADFS.cc:15-17 | the little-endian value of three bytes is below 2^24 |
| `Bytes.Get24Reads` | AcornADFS.cc:15-17 | encoding the value read as three little-endian bytes gives the three bytes back, so no two byte triples read alike |
| `Bytes.Get32Reads` | AcornADFS.cc:11-13 | the 32-bit value read is the 24-bit value of the first three bytes plus the fourth byte times 2^24 |
| `Bytes.Put24` | AcornADFS.cc:26-30 | reading back the three bytes written gives the value modulo 2^24; no other byte of the buffer changes |
| `Bytes.Put32` | AcornADFS.cc:19-24 | reading back the four bytes written gives the 32-bit value; no other byte of the buffer changes |
| `Bytes.MasksAgree` | AcornADFS.cc:83 | the arithmetic byte functions equal the C masks `& 0x80`, `& 0x7f`, `\| 0x80`, `& 0xdf` and `& 0x5f` on every byte |
| `Bytes.FoldFacts` | AcornADFS.cc:83 | the stored-byte fold ignores the attribute bit, and on a 7-bit byte the searched-name fold and the stored fold agree |
| `DiskImg.Sectors` | DiskImgIO.cc:31-33 | for a non-empty object the result is the least sector count that holds it; for zero bytes the 32-bit subtraction wraps and the count is 2^24 |
| `DiskImg.SectorsOfWholeSectors` | DiskImgIO.cc:31-33 | k whole sectors of bytes need exactly k sectors |
| `DiskImg.SectorsMonotone` | DiskImgIO.cc:31-33 | a longer non-empty object never needs fewer sectors |
| `DiskImg.Read` | DiskImgIOlinear.cc:6-18 | a read succeeds exactly when it asks for at least one byte and the bytes lie inside the image, and it then returns the `n` bytes at `sector * 256` |
| `DiskImg.Write` | DiskImgIOlinear.cc:20-26 | a write succeeds exactly when the image is writable, the data is non-empty and lies inside the image; it then replaces those bytes and keeps every other byte, the size and the writable flag |
| `DiskImg.ReadAfterWrite` | DiskImgIOlinear.cc:6-26 | data written at a sector reads back from that sector |
| `DiskImg.ReadAfterDisjointWrite` | DiskImgIOlinear.cc:6-26 | a write leaves every byte range it does not overlap reading as before |
| `AcornFS.CLen` | AcornADFS.cc:201 | the length of a C string: every byte before it is non-zero, and the byte at it, if any, is the NUL |
| `FsMap.Checksum` | AcornADFS.cc:32-44 | the checksum is congruent modulo 255 to the plain sum of bytes 0-254, or to one less than it (the final carry is dropped) |
| `FsMap.ChecksumLoop` | AcornADFS.cc:35-42 | the loop itself, with no contract of its own; `FsMap.ChecksumLoopMod` states what it computes |
| `FsMap.ChecksumLoopMod` | AcornADFS.cc:35-42 | each run of the loop from index i down keeps the 8-bit sum with its carry congruent modulo 255 to the starting sum, the carry and bytes 0 to i-1, up to the one last carry |
| `FsMap.ChecksumReadsFirst255` | AcornADFS.cc:32-44 | a half's checksum depends only on its bytes 0-254, so the byte the checksum is stored in takes no part |
| `FsMap.Stamp` | AcornADFS.cc:183-184 | after the checksums are stored, both halves pass the load check, and no byte other than 0xFF and 0x1FF changed |
| `FsMap.CorruptChecksumDetected` | AcornADFS.cc:169 | changing either stored checksum byte of a valid map makes the load check fail |
| `FsMap.ChecksumDetectsByteChange` | AcornADFS.cc:32-44 | changing one of a half's bytes 0-254 by any amount other than 0x00 <-> 0xFF changes that half's checksum |
| `FsMap.SingleBitFlipDetected` | AcornADFS.cc:32-44 | flipping any one bit of any byte of a map that passes the load check makes it fail the check |
| `FsMap.FlippedMapRejected` | AcornADFS.cc:163-177 | `load_fsmap` reading a valid map with any one bit flipped reports BAD_FSMAP and caches nothing |
| `FsMap.LoadFsmap` | AcornADFS.cc:163-177 | a cached map comes back without a read. A failed read is READ_ERR and a checksum mismatch is BAD_FSMAP, neither caching anything. AFS_OK exactly when a map is cached; a newly read map is sector 0 and passes both checks. The disc never changes |
| `FsMap.SaveFsmap` | AcornADFS.cc:179-190 | with no cached map, AFS_BUG and nothing changes. Otherwise the stamped map stays cached. On AFS_OK the disc is the old disc with it written at sector 0 and reads it back; on WRITE_ERR the disc is unchanged |
| `FsMap.SaveThenLoad` | AcornADFS.cc:163-190 | a map written by `save_fsmap` is accepted by the next `load_fsmap` that reads the disc, and is the map that was cached |
| `FsMap.FreeStop` | AcornADFS.cc:233-249 | `map_free`'s loop stops at the first live entry that ends at the freed sector or starts after it; every entry before it does neither |
| `FsMap.GrowBuf` | AcornADFS.cc:236-238 | the result is a map; growing a table entry keeps the count byte and every byte outside the tables. `FsMap.LiveAfterGrow` gives the entries |
| `FsMap.InsertBuf` | AcornADFS.cc:244-254 | the count byte goes up by one and no byte outside the tables changes. `FsMap.LiveAfterInsert` gives the entries |
| `FsMap.MapFree` | AcornADFS.cc:226-256 | the status is AFS_OK or MAP_FULL. MAP_FULL only with a count byte of 82 or more, leaving the map untouched. A count byte of at most 82 stays at most 82, and no byte outside the two tables and the count byte changes |
| `FsMap.MapFreeFull` | AcornADFS.cc:233-251 | MAP_FULL exactly when the count byte is 82 or more and the loop does not stop at an entry that ends at the freed sector; the map is then untouched |
| `FsMap.MapFreeCoalesce` | AcornADFS.cc:233-240 | when the loop stops at an entry that ends at the freed sector, `map_free` grows that entry and succeeds |
| `FsMap.LiveAfterGrow` | AcornADFS.cc:236-238 | growing entry j adds the freed sector count to its length, modulo 2^24; the count byte and every other live entry are unchanged |
| `FsMap.MapFreeInsert` | AcornADFS.cc:241-255 | otherwise, below a count byte of 82, `map_free` inserts the extent at the stop entry (or at the end) and succeeds |
| `FsMap.LiveAfterInsert` | AcornADFS.cc:244-254 | after an insert at j the live entries are the first `Slots(count + 1)` of the old live entries with the new extent inserted at j |
| `FsMap.InsertKeepsAllWhenAligned` | AcornADFS.cc:233-254 | with a count byte that is a multiple of 3, the live entries after an insert are exactly the old ones with the new extent inserted |
| `FsMap.InsertDropsLastWhenUnaligned` | AcornADFS.cc:233-254 | with any other count byte, the number of live entries stays the same, so an insert before the last entry pushes that entry out of the live range |
| `FsMap.MapFreeKeepsOrder` | AcornADFS.cc:226-256 | freeing an extent below sector 2^24 that overlaps no free extent keeps the live entries non-empty, ascending by start sector and non-overlapping, whether the extent is merged, inserted, or refused as MAP_FULL |
| `FsMap.NoMergeWithFollowing` | AcornADFS.cc:236-254 | freeing 5 sectors at 5 into a map holding only 5 sectors at 10 leaves two adjacent extents rather than one |
| `FsMap.FitStop` | AcornADFS.cc:265-267 | `alloc_write`'s loop stops at the first live entry at least n sectors long; every earlier entry is shorter |
| `FsMap.AllocMap` | AcornADFS.cc:264-284 | no placement exactly when every live entry is shorter than n. Otherwise the object starts where the first live entry that holds n starts, below 2^24, and no byte outside the tables changes |
| `FsMap.RemoveBuf` | AcornADFS.cc:271-274 | the count byte goes down by one and no byte outside the tables changes. `FsMap.LiveAfterRemove` gives the entries |
| `FsMap.ShrinkBuf` | AcornADFS.cc:276-277 | the count byte and every byte outside the tables are unchanged. `FsMap.LiveAfterShrink` gives the entries |
| `FsMap.AllocShrink` | AcornADFS.cc:275-278 | a first fit longer than n is shrunk in place and the object starts at its old start |
| `FsMap.LiveAfterShrink` | AcornADFS.cc:276-277 | shrinking entry j moves its start up by n (modulo 2^24) and shortens it by n; the count byte and every other live entry are unchanged |
| `FsMap.AllocExact` | AcornADFS.cc:270-274 | an exact first fit is removed and the count byte drops by one. The live entries become the first `Slots(count - 1)` of the remaining entries, followed by the triple just past the old live ones |
| `FsMap.LiveAfterRemove` | AcornADFS.cc:271-274 | removing entry j leaves the first `Slots(count - 1)` of the remaining live entries followed by the triple just past them |
| `FsMap.RemoveCleanWhenCountIsOneMod3` | AcornADFS.cc:265-274 | with a count byte one past a multiple of 3, removing entry j removes exactly that entry |
| `FsMap.RemoveExposesStaleSlot` | AcornADFS.cc:265-274 | with any other count byte, removing entry j keeps the number of live entries, and the stale triple past the old live entries becomes the last live entry |
| `FsMap.AllocKeepsOrder` | AcornADFS.cc:264-278 | from live entries that are non-empty, ascending and non-overlapping, shrinking the first fit keeps them so, and so does removing an exact fit when the count byte is one past a multiple of 3 |
| `FsMap.ExactFitListsExtentTwice` | AcornADFS.cc:270-274 | with count byte 6, live extents (10,1) and (20,5) and the stale triple (20,5) past them, allocating one sector leaves (20,5) live twice, so the order is lost |
| `FsMap.WriteAt` | AcornADFS.cc:264-284 | NO_SPACE exactly when nothing fits, changing nothing. Otherwise the object gets the chosen start and the map is the new map, even when the data write then fails. On AFS_OK the disc is the old disc with the data written at that start; on WRITE_ERR it is unchanged |
| `FsMap.AllocWrite` | AcornADFS.cc:258-285 | the map stays a map whose count byte is at most 82 |
| `FsMap.AllocWriteOutcome` | AcornADFS.cc:258-285 | the status is AFS_OK, WRITE_ERR or NO_SPACE. NO_SPACE exactly when every live entry is shorter than the object's sector count, and then nothing changes. Otherwise only the object's start sector changes, to the start of the first live entry that holds it, below 2^24; on AFS_OK the disc is the old disc with the data written there, and on WRITE_ERR the disc is unchanged |
| `FsMap.AllocWriteStatus` | AcornADFS.cc:258-285 | only the object's start sector ever changes; the status is AFS_OK, NO_SPACE or WRITE_ERR, NO_SPACE exactly when the first-fit search finds no entry, and then disc and object are unchanged |
| `FsMap.AllocWriteEmpty` | AcornADFS.cc:264-284 | an empty object never fits: its 2^24-sector need exceeds every 24-bit length, so the result is NO_SPACE and nothing changes |
| `Directory.CompareFrom` | AcornADFS.cc:82-92 | the entry matches exactly when every one of the name's bytes folds equal, so a longer stored name with the searched name as its folded prefix matches. It sorts after the name exactly when the first byte that folds differently is larger in the entry, and before it when that byte is smaller |
| `Directory.Compare` | AcornADFS.cc:82-92 | the whole-name comparison, with no contract of its own: it is `Directory.CompareFrom` from byte 0, which states the verdict |
| `Directory.ScanFrom` | AcornADFS.cc:76-116 | a match is an in-use entry comparing equal, and every earlier entry is in use and sorts before the name. A free slot is the first entry that is free or sorts after the name. Running into the footer means every entry before it sorts before the name |
| `Directory.LoadDir` | AcornADFS.cc:56-60 | the read of a directory's `length` bytes at its start sector, with no contract of its own; `DiskImg.Read` states when it succeeds and what it returns |
| `Directory.Search` | AcornADFS.cc:62-123 | NAME_TOO_LONG, NOT_A_DIR, READ_ERR and BROKEN_DIR in that order, before the scan: once the block is read, the search fails exactly when the block is malformed. A hit carries the decoded entry at the first matching slot; a miss carries the slot for the name, or none at the footer; both carry the well-formed block that was read |
| `Directory.SearchScans` | AcornADFS.cc:76-116 | on a well-formed block, a match from the entry loop is a hit on that entry, decoded; a free or later-sorting entry is NOT_FOUND with that slot; reaching the footer is NOT_FOUND with none |
| `Directory.SearchBroken` | AcornADFS.cc:119-120 | a block that is too short, or whose header magic, footer magic or footer sequence number fails the checks before the loop, is BROKEN_DIR |
| `Directory.SearchReadsOnlyTheBlock` | AcornADFS.cc:71-116 | two discs on which the parent's block reads the same give the same search result |
| `Directory.SearchIgnoresCase` | AcornADFS.cc:83 | names whose bytes fold alike under `& 0xdf` find the same thing |
| `Directory.HighNameNeverMatches` | AcornADFS.cc:83 | a searched name with a top-bit byte never compares equal to any entry |
| `Directory.Decode` | AcornADFS.cc:94-110 | the decoded name is the stored name's bytes followed by a NUL; the start sector is below 2^24; the child carries no contents |
| `Directory.DecodedNameFolds` | AcornADFS.cc:94-96 | every decoded name byte has the top bit clear and folds like the stored byte it came from |
| `Directory.EncodeEntry` | AcornADFS.cc:290-309 | `dir_update` changes no byte of the block outside the 26-byte entry |
| `Directory.DecodeEncodeFlags` | AcornADFS.cc:296-305 | after `dir_update` or-s the attributes into bytes 0-9, every attribute except the byte-7 copy decodes as set when the object has it, or when a stale top bit survives in a name byte after the NUL |
| `Directory.DecodeEncodeFields` | AcornADFS.cc:306-309 | after `dir_update` writes the low three bytes of each field, load, exec and length decode with their low three bytes from the object and their top byte from the old entry; the start sector decodes modulo 2^24 |
| `Directory.DecodeEncodeName` | AcornADFS.cc:290-295 | after `dir_update` copies the name up to its NUL, the decoded name has, within the object's name and its NUL (at most 10 bytes), the object's bytes with the top bit cleared, beyond that the old entry's bytes with the top bit cleared, and a NUL terminator |
| `Directory.DecodeEncodeClean` | AcornADFS.cc:290-309 | when the old entry has no attribute bits beyond the new name's span and already holds the object's top address bytes, a 7-bit name, every attribute, the three addresses and a 24-bit start sector decode exactly as written |
| `Directory.DecodeEncodeDescribes` | AcornADFS.cc:290-309 | the entry `dir_update` wrote for a 7-bit name decodes to that name, the start sector and the low 24 bits of length and both addresses, with at least every attribute the object has |
| `Directory.DecodeEncodeExact` | AcornADFS.cc:290-309 | when the old entry is clean for the object and the start sector fits 24 bits, the entry decodes to exactly the object, its name cut at the NUL and without contents |
| `Directory.StaleFlagLeaks` | AcornADFS.cc:290-298 | an entry that was locked, overwritten by an unlocked object with a one-character name, still decodes as locked |
| `Directory.EncodedEntryMatches` | AcornADFS.cc:290-305 | a 7-bit name compares equal to the entry `dir_update` wrote for it, whatever attributes were or-ed on |
| `Directory.FoundAfterRewrite` | AcornADFS.cc:73-93 | rewriting a block from entry k to just short of the footer's magic keeps the header and footer valid. If the name now matches entry k, the scan passes the same entries and stops at k |
| `Directory.DirUpdate` | AcornADFS.cc:287-313 | AFS_OK exactly when the encoded block can be written at the parent's sector, and the disc is then the old disc with it written there; WRITE_ERR leaves the disc unchanged |
| `Directory.DirMakeSlot` | AcornADFS.cc:315-319 | the bytes from `off` up to 26 before the footer move up by 26; all other bytes, including the entry at `off`, the header and the footer, are unchanged |
| `Directory.MakeSlotEntry` | AcornADFS.cc:315-319 | in a packed directory, entry k after opening a slot at entry j is the old entry k up to j and the old entry k-1 beyond it |
| `Directory.MakeSlotEntries` | AcornADFS.cc:315-319 | in a packed directory, opening a slot at entry j duplicates entry j, shifts the later entries up one and drops the last one; header and footer are untouched |
| `Directory.CompareKeys` | AcornADFS.cc:82-92 | `compare`'s verdict agrees with the order of folded ten-byte keys: an entry that sorts before the name has a smaller key, one that sorts after it a larger key, and a match shares the name's folded prefix |
| `Directory.EncodedKey` | AcornADFS.cc:290-295 | the folded key of the entry written for a 7-bit name is the name folded, then a NUL if there is room, then the old entry's folded bytes |
| `Path.MakeRoot` | AcornADFS.cc:125-130 | the root is a 1280-byte directory at sector 2 with an empty name and no data |
| `Path.FirstDot` | AcornADFS.cc:148 | `strchr`: the position of the first '.', with no '.' before it, or none when there is no '.' |
| `Path.Find` | AcornADFS.cc:132-161 | "$" is the root, found without reading the disc; any other path has one leading "$." dropped and is resolved from the root part by part, searching for each dot-separated part in turn; a failure is one of NOT_FOUND, NAME_TOO_LONG, NOT_A_DIR, READ_ERR or BROKEN_DIR |
| `Path.Walk` | AcornADFS.cc:148-158 | a walk that fails does so with NOT_FOUND, NAME_TOO_LONG, NOT_A_DIR, READ_ERR or BROKEN_DIR |
| `Path.WalkResolvesParts` | AcornADFS.cc:148-158 | `find`'s walk is the same as searching for each dot-separated part in turn, descending into each hit, and stopping at the first failure |
| `Path.JoinSplit` | AcornADFS.cc:148-156 | the parts the walk searches for, joined with dots, give the path back |
| `Path.SplitJoin` | AcornADFS.cc:148-156 | dot-free parts joined with dots split back into the same parts |
| `Path.WalkIgnoresCase` | AcornADFS.cc:148-158 | paths with the dots in the same places whose other bytes fold alike resolve alike |
| `Driver.Place` | AcornADFS.cc:205-212 | the map it leaves is a map whose count byte is at most 82; `Driver.PlaceOutcome` and `Driver.PlaceWrites` state the outcome |
| `Driver.PlaceOutcome` | AcornADFS.cc:203-212 | allocating and writing the entry changes only the object's start sector. NO_SPACE exactly when nothing fits, leaving disc and object as they were. AFS_BUG arises only where a slot is opened |
| `Driver.PlaceWrites` | AcornADFS.cc:279-310 | a successful placement wrote the data at the object's start sector, then the block with the entry encoded at the parent's sector; the start fits the 24-bit field |
| `Driver.Store` | AcornADFS.cc:201-214 | the map it leaves is a map whose count byte is at most 82; `Driver.StoreOutcome` states the outcome |
| `Driver.StoreAt` | AcornADFS.cc:202-214 | for any search outcome, the map it leaves is a map whose count byte is at most 82; `Driver.StoreOutcome` and `Driver.OverwriteFreesFirst` state the branches |
| `Driver.StoreOutcome` | AcornADFS.cc:201-214 | a failed search passes its status on; no free slot is DIR_FULL. Neither of these, nor MAP_FULL or NO_SPACE, writes anything, and only the object's start sector can change |
| `Driver.UpdatedBlockFinds` | AcornADFS.cc:287-319 | after a slot is opened (when it is) and a non-empty 7-bit name is written at entry k, the header and footer are intact. The scan for the name stops at entry k, which decodes to the name and the start sector written, the low 24 bits of length and addresses, and every attribute of the object |
| `Driver.SearchFindsUpdated` | AcornADFS.cc:62-116 | `search` in a parent whose block on the disc is that rewritten block hits entry k with the name, the start sector and the rest of what `Driver.UpdatedBlockFinds` states |
| `Driver.PlaceThenRead` | AcornADFS.cc:279-310 | after a successful placement the data reads back from the chosen start sector, given the data lies clear of the parent's block |
| `Driver.PlaceThenSearch` | AcornADFS.cc:201-212 | after a successful placement into entry k, searching the parent for the name hits entry k with the name and the chosen start sector; the entry describes the object (low 24 bits of length and addresses, every attribute) |
| `Driver.PlaceThenSearchExact` | AcornADFS.cc:201-212 | when the entry reused at k is clean for the object, the search gives back exactly the object placed |
| `Driver.PlaceLoads` | AcornADFS.cc:279-310 | after a successful placement the parent's block reads back as the old block with the slot opened (when it is) and the entry encoded at k |
| `Driver.UpdateKeepsSorted` | AcornADFS.cc:287-319 | writing a non-empty 7-bit name at the entry `search` chose (opening a slot first when the name is new) keeps a directory whose in-use entries are in strictly increasing folded order in that order |
| `Driver.PlaceKeepsSorted` | AcornADFS.cc:201-212 | a successful placement at the entry `search` chose leaves a sorted parent block on the disc sorted |
| `Driver.StoreThenSearch` | AcornADFS.cc:201-214 | after a successful store of a non-empty 7-bit name whose data lies clear of the parent's block, the data reads back and searching the parent for the name hits an entry with the name and the data's start sector, describing the object |
| `Driver.StoreThenSearchExact` | AcornADFS.cc:201-214 | when the entry `search` chose is clean for the object, the search after the store gives back exactly the object stored |
| `Driver.StoreKeepsSorted` | AcornADFS.cc:201-214 | a successful store of a non-empty 7-bit name leaves a sorted parent block sorted |
| `Driver.OverwriteFreesFirst` | AcornADFS.cc:201-204 | storing over an existing object first returns its old extent to the map, and allocates from the map that results; a full map stops the store with the map, disc and object unchanged |
| `Driver.StoreAndCommit` | AcornADFS.cc:201-221 | a map left in the cache is still a whole map, the status is one the store or `save_fsmap` can give, and only the object's start sector changes |
| `Driver.Commit` | AcornADFS.cc:215-220 | a map left in the cache is a whole map; `Driver.CommitOutcome` states the rest |
| `Driver.CommitOutcome` | AcornADFS.cc:215-220 | a failure drops the cached map and keeps the disc. A success caches the stamped map, then either writes it to sector 0 (AFS_OK) or writes nothing (WRITE_ERR) |
| `Driver.CommitKeepsRest` | AcornADFS.cc:185-216 | writing the map back leaves every byte range clear of sectors 0 and 1 reading as before |
| `Driver.SaveBeforeMap` | AcornADFS.cc:197-200 | a failed lookup, a destination that is not a directory, or a map that cannot be read or checked returns with nothing changed |
| `Driver.Save` | AcornADFS.cc:192-224 | a map left in the cache is still a whole map, and the status is one of the codes `find`, `load_fsmap`, `search`, `map_free`, `alloc_write`, `dir_update` and `save_fsmap` return |
| `Driver.SaveOutcome` | AcornADFS.cc:192-224 | after AFS_OK the map on the disc is the cached map, and its checksums are valid. Any failure but WRITE_ERR drops the cached map. Failures before a write leave the disc alone, and only the object's start sector changes |
| `Driver.SaveThenFind` | AcornADFS.cc:192-224 | after a successful save the data reads back from the start sector chosen, and searching the destination for the name finds an entry with that name and that start sector, which describes the object: the low 24 bits of its length and addresses, and every attribute it has |
| `Driver.SaveThenFindExact` | AcornADFS.cc:192-224 | when the entry `save` reuses is clean for the object, the destination's entry decodes to exactly the object saved, its name cut at the NUL and without contents |
| `Driver.SaveKeepsSorted` | AcornADFS.cc:192-224 | `save` of a non-empty 7-bit name into a destination whose entries are in strictly increasing folded order keeps them in that order |

## Left out

- Byte I/O is not modelled: `fopen`, `fseek`, `fread` and `fwrite` (DiskImgIOlinear.cc), `openImg` and `close`. A disc is a fixed-size image plus a writable flag. A read or write fails exactly when it is empty or runs past the image, or, for a write, when the image is read-only. A real `fwrite` past the end would extend the file instead.
- The byte position `sector * sect_size` is held in an `int` in the source; the model does not model its overflow for sectors at or above 2^23.
- `malloc`, `free`, `obj_free` and `dio_free` are not modelled. Buffers are values, so AFS_NO_MEMORY never arises.
- The swapping of the two scratch objects `a` and `b` in `find` is not modelled: each directory found is a value.
- AcornFS.cc (host files and `.inf` sidecars), adfscp.cc (command line), adfscp-new.c and secio.c are not part of this model.
- The block of a directory shorter than six bytes is read out of bounds by the source. `Directory.Search` reports it as BROKEN_DIR.
- A free slot found fewer than 26 bytes before the footer would make `dir_makeslot`'s unsigned length wrap. The model's `save` reports that as AFS_BUG. It cannot happen in a directory whose entries fill the space up to the footer, as the 1280-byte ones do.
- Driver.Save: a cached map whose count byte exceeds 82 is reported as AFS_BUG before the search. `map_free` and `alloc_write` never raise the count byte past 82, but a map written by other software can carry a larger one, and `load_fsmap` accepts it because it checks only the checksums. The source would go on, and its exact-fit memmove could then run past the tables.
- FsMap.AllocWrite: requires the count byte to be at most 82. Both memmoves of an exact fit then write only inside the 246-byte entry tables, though they read up to 3 bytes past the end of each table, bytes that still lie inside the map's sectors. Its own contract says only that the map stays a map; what it does is stated by `FsMap.AllocWriteOutcome`, `FsMap.AllocMap` and `FsMap.WriteAt`.
- Driver.SaveThenFind: assumes that the map sectors, the data and the destination directory occupy disjoint byte ranges of the image. The source does not check this; on a consistent disc the data goes to free space, which is disjoint from both.
- Driver.SaveThenFind: assumes a non-empty name of 7-bit bytes. A name with a top-bit byte never matches any entry (`Directory.HighNameNeverMatches`).
- Driver.SaveThenFind: the entry found matches the object's length and addresses only in their low 24 bits, and may carry extra attributes. `dir_update` writes three bytes of each 32-bit field and only ors attribute bits in, so the old entry's top bytes and stale top bits survive. Exact equality is proved only when the reused entry is clean (`Driver.SaveThenFindExact`).
- Driver.SaveKeepsSorted: the order is proved only for non-empty 7-bit names. A name with a top-bit byte folds above every stored byte (`0xC1 & 0xdf` exceeds any `& 0x5f` byte), so `search` passes every entry and the name is written at the end. Its stored bytes have the top bit cleared (`0x41`), so it can sort below the entries before it.
- FsMap.MapFreeKeepsOrder: the order is proved only for an extent that ends below sector 2^24 and overlaps no free extent, from a map whose count byte is at most 82. `map_free` checks none of this; freeing space that is already free, such as an extent named by a damaged entry, can make entries overlap.
- FsMap.AllocKeepsOrder: the order is not promised for an exact fit when the count byte is not one past a multiple of 3, because it does not hold there (`FsMap.ExactFitListsExtentTwice`).
- FsMap.ChecksumDetectsByteChange: a change of one byte between 0x00 and 0xFF is not covered, because 0xFF is 0 modulo 255 and the end-around carry can absorb it. The closed form (`FsMap.Checksum`) holds only modulo 255 and up to the one dropped carry.
- `load` is modelled only as the read of a directory's block (`Directory.LoadDir`); loading a file's contents for copying out belongs to the command-line side.

=== FILE: acornfs.dfy ===
/**
  The types the driver shares with its callers: the status codes every operation
  returns and the in-memory descriptor of a file or directory.
 */
module AcornFS {
  import opened Wrappers
  import opened Bytes

  /** `afs_status` */
  datatype Status =
    | OK
    | BadCommand
    | HostError
    | NotFound
    | NameTooLong
    | NotADir
    | ReadErr
    | WriteErr
    | BrokenDir
    | DirFull
    | MapFull
    | BadFsmap
    | NoSpace
    | NoMemory
    | BadAttr
    | Bug
    | NotImplemented

  /** `afs_object`. `name` holds the bytes of the C string (the array may also hold a NUL
      and whatever follows it); `data` is the loaded contents, when there are any. */
  datatype Object = Object(
    name: seq<byte>,
    userRead: bool,
    userWrite: bool,
    locked: bool,
    isDir: bool,
    userExec: bool,
    pubRead: bool,
    pubWrite: bool,
    pubExec: bool,
    priv: bool,
    loadAddr: u32,
    execAddr: u32,
    length: u32,
    sector: u32,
    data: Option<seq<byte>>)

  /** `strlen(name)`: the number of bytes before the first NUL. */
  function CLen(name: seq<byte>): (n: nat)
    ensures n <= |name|
    ensures forall i :: 0 <= i < n ==> name[i] != 0
    ensures n < |name| ==> name[n] == 0
  {
    if |name| == 0 || name[0] == 0 then 0 else 1 + CLen(name[1..])
  }

  /** The name as a C string. */
  function CStr(name: seq<byte>): seq<byte>
  {
    name[..CLen(name)]
  }

  /** The object holds its `length` bytes of contents. */
  predicate Loaded(o: Object) {
    o.data.Some? && |o.data.value| == o.length
  }
}

=== FILE: bytes.dfy ===
/**
  Byte-level helpers of the ADFS driver: the bit masks applied to name bytes,
  the little-endian 24- and 32-bit field accessors, and memmove on a buffer.
  Bytes are integers in [0, 256); each mask is defined arithmetically and tied
  to the corresponding 8-bit mask by `MasksAgree`.
 */
module Bytes {

  /** An `unsigned char`. */
  type byte = x: int | 0 <= x < 0x100

  /** A 32-bit `unsigned`. */
  type u32 = x: int | 0 <= x < 0x1_0000_0000

  const TWO24: nat := 0x100_0000
  const TWO32: nat := 0x1_0000_0000

  /** `(b & 0x80) == 0x80`: the attribute bit carried by a name byte. */
  predicate High(b: byte) {
    b >= 0x80
  }

  /** `b & 0x7f` */
  function Low7(b: byte): byte {
    b % 0x80
  }

  /** `b | 0x80` */
  function SetHigh(b: byte): byte {
    if b >= 0x80 then b else b + 0x80
  }

  function ClearBit5(b: byte): byte {
    if (b / 0x20) % 2 == 1 then b - 0x20 else b
  }

  /** `name[i] & 0xdf`: the fold applied to the name being searched for. */
  function FoldTarget(b: byte): byte {
    ClearBit5(b)
  }

  /** `ent[i] & 0x5f`: the fold applied to a stored name byte. */
  function FoldStored(b: byte): byte {
    ClearBit5(Low7(b))
  }

  /** The arithmetic definitions above are the source's bit masks. */
  lemma MasksAgree(b: bv8)
    ensures High(b as int) <==> (b & 0x80 == 0x80)
    ensures Low7(b as int) == (b & 0x7F) as int
    ensures SetHigh(b as int) == (b | 0x80) as int
    ensures FoldTarget(b as int) == (b & 0xDF) as int
    ensures FoldStored(b as int) == (b & 0x5F) as int
  {
  }

  /** Setting or stripping the attribute bit does not change how a stored byte folds,
      and a 7-bit byte folds the same way on both sides of the comparison. */
  lemma FoldFacts(b: byte)
    ensures FoldStored(SetHigh(b)) == FoldStored(b)
    ensures FoldStored(Low7(b)) == FoldStored(b)
    ensures b < 0x80 ==> FoldTarget(b) == FoldStored(b)
    ensures !High(Low7(b)) && High(SetHigh(b))
  {
    if b >= 0x80 {
      assert Low7(b) == b - 0x80;
      assert (b / 0x20) % 2 == ((b - 0x80) / 0x20) % 2;
    }
    assert Low7(Low7(b)) == Low7(b);
  }

  lemma SmallMod24(x: nat)
    requires x < TWO24
    ensures x % TWO24 == x
  {
  }

  /** `adfs_get24`: three bytes, least significant first. */
  function Get24(buf: seq<byte>, off: nat): (v: nat)
    requires off + 3 <= |buf|
    ensures v < TWO24
  {
    buf[off] as int + 0x100 * buf[off + 1] as int + 0x1_0000 * buf[off + 2] as int
  }

  /** `adfs_get32`: four bytes, least significant first. */
  function Get32(buf: seq<byte>, off: nat): u32
    requires off + 4 <= |buf|
  {
    Get24(buf, off) + TWO24 * buf[off + 3] as int
  }

  /** `adfs_get24` reads back exactly the three bytes at `off`: writing its value out
      little-endian reproduces them. */
  lemma Get24Reads(buf: seq<byte>, off: nat)
    requires off + 3 <= |buf|
    ensures LE24(Get24(buf, off)) == buf[off..off + 3]
  {
    var v := Get24(buf, off);
    assert v / 0x100 == buf[off + 1] as int + 0x100 * buf[off + 2] as int;
    assert v / 0x1_0000 == buf[off + 2];
  }

  /** `adfs_get32` is `adfs_get24` of the low three bytes plus 2^24 times the fourth. */
  lemma Get32Reads(buf: seq<byte>, off: nat)
    requires off + 4 <= |buf|
    ensures Get32(buf, off) % TWO24 == Get24(buf, off) && Get32(buf, off) / TWO24 == buf[off + 3]
  {
    SplitAt24(Get24(buf, off), buf[off + 3]);
  }

  /** A number below 2^24 plus a multiple of 2^24 splits back into the two. */
  lemma SplitAt24(low: nat, top: nat)
    requires low < TWO24
    ensures (low + TWO24 * top) % TWO24 == low && (low + TWO24 * top) / TWO24 == top
  {
  }

  /** The three low bytes of `v`, least significant first. */
  function LE24(v: nat): seq<byte> {
    [v % 0x100, (v / 0x100) % 0x100, (v / 0x1_0000) % 0x100]
  }

  /** `adfs_put24`: bits 24 and up of `value` are dropped. */
  function Put24(buf: seq<byte>, off: nat, value: nat): (r: seq<byte>)
    requires off + 3 <= |buf|
    ensures |r| == |buf|
    ensures Get24(r, off) == value % TWO24
    ensures forall i :: 0 <= i < |buf| && !(off <= i < off + 3) ==> r[i] == buf[i]
  {
    LE24RoundTrip(value);
    seq(|buf|, i requires 0 <= i < |buf| => if off <= i < off + 3 then LE24(value)[i - off] else buf[i])
  }

  /** `adfs_put32` */
  function Put32(buf: seq<byte>, off: nat, value: u32): (r: seq<byte>)
    requires off + 4 <= |buf|
    ensures |r| == |buf|
    ensures Get32(r, off) == value
    ensures forall i :: 0 <= i < |buf| && !(off <= i < off + 4) ==> r[i] == buf[i]
  {
    LE24RoundTrip(value);
    var top := (value / TWO24) % 0x100;
    assert value == value % TWO24 + TWO24 * top;
    buf[..off] + LE24(value) + [top] + buf[off + 4..]
  }

  lemma LE24RoundTrip(v: nat)
    ensures var b := LE24(v); b[0] as int + 0x100 * b[1] as int + 0x1_0000 * b[2] as int == v % TWO24
  {
    var q := v / 0x100;
    var q2 := v / 0x1_0000;
    var q3 := v / TWO24;
    assert q2 == q / 0x100;
    assert q3 == q2 / 0x100;
    assert q == q % 0x100 + 0x100 * q2;
    assert q2 == q2 % 0x100 + 0x100 * q3;
    assert v == v % 0x100 + 0x100 * (q % 0x100) + 0x1_0000 * (q2 % 0x100) + TWO24 * q3;
  }

  /** `memmove(buf + dst, buf + src, n)`: the n bytes at src land at dst, and every
      other byte is left as it was. */
  function Move(buf: seq<byte>, dst: nat, src: nat, n: nat): (r: seq<byte>)
    requires dst + n <= |buf| && src + n <= |buf|
    ensures |r| == |buf|
    ensures forall i :: 0 <= i < |buf| ==> r[i] == (if dst <= i < dst + n then buf[src + (i - dst)] else buf[i])
  {
    seq(|buf|, i requires 0 <= i < |buf| => if dst <= i < dst + n then buf[src + (i - dst)] else buf[i])
  }

  lemma Get24Frame(a: seq<byte>, b: seq<byte>, offA: nat, offB: nat)
    requires offA + 3 <= |a| && offB + 3 <= |b|
    requires a[offA] == b[offB] && a[offA + 1] == b[offB + 1] && a[offA + 2] == b[offB + 2]
    ensures Get24(a, offA) == Get24(b, offB)
  {
  }
}

=== FILE: directory.dfy ===
/**
  Old-format ADFS directories: a block of `parent.length` bytes with a five-byte
  header, 26-byte entries from offset 5, and a 0x35-byte footer at the end. Entries
  are kept sorted by name, case-insensitively, and an entry whose first byte is zero
  ends the list. The attribute bits of an entry ride in the top bit of its ten name
  bytes.

  This module models `search` (look a name up in a directory), the entry decoding it
  does on a match, `dir_update` (encode an object into an entry and write the block
  back) and `dir_makeslot` (open a gap for a new entry).
 */
module Directory {
  import opened Wrappers
  import opened Bytes
  import opened DiskImg
  import opened AcornFS

  const ADFS_MAX_NAME: nat := 10
  const DIR_HDR_SIZE: nat := 0x05
  const DIR_ENT_SIZE: nat := 0x1A
  const DIR_FTR_SIZE: nat := 0x35

  /** The bytes 'H', 'u', 'g', 'o' that mark both ends of a directory. */
  const HUGO: seq<byte> := [0x48, 0x75, 0x67, 0x6F]

  // ---------------------------------------------------------------------------
  // Layout

  /** Offset of the footer in a block of this length (negative for very short blocks). */
  function Ftr(block: seq<byte>): int {
    |block| - DIR_FTR_SIZE
  }

  /** Offset of entry k. */
  function SlotOff(k: nat): nat {
    DIR_HDR_SIZE + DIR_ENT_SIZE * k
  }

  /** Entry k starts before the footer, so `search` visits it. */
  predicate InDir(block: seq<byte>, k: nat) {
    SlotOff(k) < Ftr(block)
  }

  /** `hdr[1..4] == "Hugo"` */
  predicate HeaderOk(block: seq<byte>)
    requires |block| >= 6
  {
    block[1..5] == HUGO
  }

  /** `ftr[47] == hdr[0]` and `ftr[48..51] == "Hugo"`; `ftr[47]` is the sequence number
      that must agree with the header's. */
  predicate FooterOk(block: seq<byte>)
    requires |block| >= 6
  {
    block[|block| - 6] == block[0] && block[|block| - 5..|block| - 1] == HUGO
  }

  /** What `search` checks before scanning: both magic strings, and the footer's
      sequence number equal to the header's. */
  predicate WellFormed(block: seq<byte>) {
    |block| >= 6 && HeaderOk(block) && FooterOk(block)
  }

  // ---------------------------------------------------------------------------
  // Comparing a name with an entry

  datatype Order = Less | Same | Greater

  /** Name byte t and entry byte t are equal once folded: `(name[t] & 0xdf) == (ent[t] & 0x5f)`. */
  predicate Agree(name: seq<byte>, block: seq<byte>, off: nat, t: nat)
    requires t < |name| && off + |name| <= |block|
  {
    FoldTarget(name[t]) == FoldStored(block[off + t])
  }

  /** Name byte t folds below entry byte t. */
  predicate Below(name: seq<byte>, block: seq<byte>, off: nat, t: nat)
    requires t < |name| && off + |name| <= |block|
  {
    FoldTarget(name[t]) < FoldStored(block[off + t])
  }

  /** Name byte t folds above entry byte t. */
  predicate Above(name: seq<byte>, block: seq<byte>, off: nat, t: nat)
    requires t < |name| && off + |name| <= |block|
  {
    FoldTarget(name[t]) > FoldStored(block[off + t])
  }

  /** All bytes from i up to t fold equal. */
  predicate AgreeBetween(name: seq<byte>, block: seq<byte>, off: nat, i: nat, t: nat)
    requires t <= |name| && off + |name| <= |block|
  {
    forall u :: i <= u < t ==> Agree(name, block, off, u)
  }

  /** The inner loop of `search` from byte i on: the first byte that folds differently
      decides the order; if none does, the entry matches. Only `|name|` bytes are
      compared, so the entry matches a name that is a folded prefix of it. */
  function CompareFrom(name: seq<byte>, block: seq<byte>, off: nat, i: nat): (r: Order)
    requires i <= |name| && off + |name| <= |block|
    ensures r == Same <==> AgreeBetween(name, block, off, i, |name|)
    ensures r == Less <==> exists t :: i <= t < |name| && AgreeBetween(name, block, off, i, t) && Below(name, block, off, t)
    ensures r == Greater <==> exists t :: i <= t < |name| && AgreeBetween(name, block, off, i, t) && Above(name, block, off, t)
    decreases |name| - i
  {
    if i == |name| then Same
    else if Below(name, block, off, i) then
      assert !Agree(name, block, off, i);
      Less
    else if Above(name, block, off, i) then
      assert !Agree(name, block, off, i);
      Greater
    else
      var r := CompareFrom(name, block, off, i + 1);
      assert forall t :: i + 1 <= t <= |name| && AgreeBetween(name, block, off, i + 1, t) ==> AgreeBetween(name, block, off, i, t);
      r
  }

  /** `search`'s comparison of the whole name with the entry at `off`. */
  function Compare(name: seq<byte>, block: seq<byte>, off: nat): Order
    requires off + |name| <= |block|
  {
    CompareFrom(name, block, off, 0)
  }

  // ---------------------------------------------------------------------------
  // Scanning the entries

  /** `search` moves past entry k: it is in use and the name sorts after it. */
  predicate Passed(block: seq<byte>, name: seq<byte>, k: nat)
    requires |name| <= ADFS_MAX_NAME
  {
    InDir(block, k) && block[SlotOff(k)] != 0 && Compare(name, block, SlotOff(k)) == Greater
  }

  datatype Scan = ScanMatch(k: nat) | ScanSlot(k: nat) | ScanEnd

  /** The entry loop of `search` from entry k: stop at a match, at the end marker or at
      the first entry the name sorts before (the place to insert it), or run into the
      footer. */
  function ScanFrom(block: seq<byte>, name: seq<byte>, k: nat): (r: Scan)
    requires |name| <= ADFS_MAX_NAME
    ensures r.ScanMatch? ==> (k <= r.k && InDir(block, r.k) && block[SlotOff(r.k)] != 0
      && Compare(name, block, SlotOff(r.k)) == Same)
    ensures r.ScanSlot? ==> (k <= r.k && InDir(block, r.k)
      && (block[SlotOff(r.k)] == 0 || Compare(name, block, SlotOff(r.k)) == Less))
    ensures !r.ScanEnd? ==> forall i :: k <= i < r.k ==> Passed(block, name, i)
    ensures r.ScanEnd? ==> forall i :: k <= i && InDir(block, i) ==> Passed(block, name, i)
    decreases |block| - SlotOff(k)
  {
    if !InDir(block, k) then ScanEnd
    else if block[SlotOff(k)] == 0 then ScanSlot(k)
    else
      match Compare(name, block, SlotOff(k))
      case Less => ScanSlot(k)
      case Same => ScanMatch(k)
      case Greater => ScanFrom(block, name, k + 1)
  }

  // ---------------------------------------------------------------------------
  // Decoding and encoding an entry

  /** Attribute j of an object as `dir_update` stores it in name byte j: both byte 7 and
      byte 8 carry the public-execute bit. */
  function FlagBit(o: Object, j: nat): bool {
    if j == 0 then o.userRead
    else if j == 1 then o.userWrite
    else if j == 2 then o.locked
    else if j == 3 then o.isDir
    else if j == 4 then o.userExec
    else if j == 5 then o.pubRead
    else if j == 6 then o.pubWrite
    else if j == 7 || j == 8 then o.pubExec
    else if j == 9 then o.priv
    else false
  }

  /** Each byte `& 0x7f`. */
  function StripHigh(s: seq<byte>): (r: seq<byte>)
    ensures |r| == |s|
    ensures forall i :: 0 <= i < |s| ==> r[i] == Low7(s[i])
  {
    if |s| == 0 then [] else [Low7(s[0])] + StripHigh(s[1..])
  }

  /** What `search` fills in on a match: the name's `nameLen` bytes with the attribute
      bits stripped and a NUL after them, the attributes from the top bits of bytes 0-9
      (public-execute is read from byte 7 and then again from byte 8, so byte 8 wins),
      three 32-bit fields and the 24-bit start sector. */
  function Decode(block: seq<byte>, off: nat, nameLen: nat): (r: Object)
    requires off + DIR_ENT_SIZE <= |block| && nameLen <= ADFS_MAX_NAME
    ensures |r.name| == nameLen + 1 && r.name[nameLen] == 0
    ensures r.sector < TWO24 && r.data.None?
  {
    Object(
      StripHigh(block[off..off + nameLen]) + [0],
      High(block[off]), High(block[off + 1]), High(block[off + 2]), High(block[off + 3]),
      High(block[off + 4]), High(block[off + 5]), High(block[off + 6]), High(block[off + 8]),
      High(block[off + 9]),
      Get32(block, off + 0x0A), Get32(block, off + 0x0E), Get32(block, off + 0x12),
      Get24(block, off + 0x16),
      None)
  }

  /** The decoded name is 7-bit, and folds byte for byte like the entry bytes `search`
      compared the name with. */
  lemma DecodedNameFolds(block: seq<byte>, off: nat, nameLen: nat)
    requires off + DIR_ENT_SIZE <= |block| && nameLen <= ADFS_MAX_NAME
    ensures var d := Decode(block, off, nameLen);
      forall i :: 0 <= i < nameLen ==> !High(d.name[i]) && FoldStored(d.name[i]) == FoldStored(block[off + i])
  {
    var d := Decode(block, off, nameLen);
    forall i | 0 <= i < nameLen
      ensures !High(d.name[i]) && FoldStored(d.name[i]) == FoldStored(block[off + i])
    {
      assert d.name[i] == Low7(block[off + i]);
      FoldFacts(block[off + i]);
    }
  }

  /** Name byte i as the C array holds it: past the sequence the array reads as NUL. */
  function NameByte(name: seq<byte>, i: nat): byte {
    if i < |name| then name[i] else 0
  }

  /** How many name bytes `dir_update` writes: up to and including the NUL, at most ten. */
  function NameSpan(name: seq<byte>): (n: nat)
    ensures 1 <= n <= ADFS_MAX_NAME
  {
    if CLen(name) + 1 < ADFS_MAX_NAME then CLen(name) + 1 else ADFS_MAX_NAME
  }

  /** Name byte j of the entry after `dir_update`: the object's name byte with its top
      bit cleared while the copy lasts (up to and including the NUL), the old byte after
      it, and the top bit set when the object has attribute j. */
  function EncodedNameByte(block: seq<byte>, off: nat, o: Object, j: nat): byte
    requires off + ADFS_MAX_NAME <= |block| && j < ADFS_MAX_NAME
  {
    var b := if j < NameSpan(o.name) then Low7(NameByte(o.name, j)) else block[off + j];
    if FlagBit(o, j) then SetHigh(b) else b
  }

  /** The name loop and the attribute `|= 0x80`s of `dir_update`. */
  function WriteNameFlags(block: seq<byte>, off: nat, o: Object): (r: seq<byte>)
    requires off + ADFS_MAX_NAME <= |block|
    ensures |r| == |block|
    ensures forall j :: 0 <= j < ADFS_MAX_NAME ==> r[off + j] == EncodedNameByte(block, off, o, j)
    ensures forall i :: 0 <= i < |block| && !(off <= i < off + ADFS_MAX_NAME) ==> r[i] == block[i]
  {
    seq(|block|, i requires 0 <= i < |block| => NameFlagsByte(block, off, o, i))
  }

  /** Byte i of the block after the name loop and the attribute bits. */
  function NameFlagsByte(block: seq<byte>, off: nat, o: Object, i: nat): byte
    requires off + ADFS_MAX_NAME <= |block| && i < |block|
  {
    if off <= i < off + ADFS_MAX_NAME then EncodedNameByte(block, off, o, i - off) else block[i]
  }

  /** The bytes of an entry that the four `adfs_put24`s of `dir_update` write. */
  predicate FieldLow(off: nat, i: nat) {
    off + 0x0A <= i < off + 0x0D || off + 0x0E <= i < off + 0x11
      || off + 0x12 <= i < off + 0x15 || off + 0x16 <= i < off + 0x19
  }

  /** The four `adfs_put24`s of `dir_update`: the low three bytes of the load address,
      execution address, length and start sector. */
  function PutFields(block: seq<byte>, off: nat, o: Object): (r: seq<byte>)
    requires off + DIR_ENT_SIZE <= |block|
    ensures |r| == |block|
    ensures Get24(r, off + 0x0A) == o.loadAddr % TWO24
    ensures Get24(r, off + 0x0E) == o.execAddr % TWO24
    ensures Get24(r, off + 0x12) == o.length % TWO24
    ensures Get24(r, off + 0x16) == o.sector % TWO24
    ensures forall i :: 0 <= i < |block| && !FieldLow(off, i) ==> r[i] == block[i]
  {
    var a := Put24(block, off + 0x0A, o.loadAddr);
    var e := Put24(a, off + 0x0E, o.execAddr);
    var l := Put24(e, off + 0x12, o.length);
    var r := Put24(l, off + 0x16, o.sector);
    Get24Frame(r, a, off + 0x0A, off + 0x0A);
    Get24Frame(r, e, off + 0x0E, off + 0x0E);
    Get24Frame(r, l, off + 0x12, off + 0x12);
    r
  }

  /** The entry bytes `dir_update` produces at `off`: the name copied with its top bits
      cleared (bytes after the NUL keep their old values), the attribute bits or-ed onto
      the ten name bytes, and the low three bytes of the load address, execution
      address, length and start sector (the top byte of each 32-bit field is kept). */
  function EncodeEntry(block: seq<byte>, off: nat, o: Object): (r: seq<byte>)
    requires off + DIR_ENT_SIZE <= |block|
    ensures |r| == |block|
    ensures forall i :: 0 <= i < |block| && !(off <= i < off + DIR_ENT_SIZE) ==> r[i] == block[i]
  {
    PutFields(WriteNameFlags(block, off, o), off, o)
  }

  /** Decoding what `dir_update` encoded gives every attribute other than the one byte 7
      duplicates as set if the object has it or if a stale top bit survives in a name
      byte after the NUL. */
  lemma DecodeEncodeFlags(block: seq<byte>, off: nat, o: Object, nameLen: nat, j: nat)
    requires off + DIR_ENT_SIZE <= |block| && nameLen <= ADFS_MAX_NAME
    requires j < ADFS_MAX_NAME && j != 7
    ensures FlagBit(Decode(EncodeEntry(block, off, o), off, nameLen), j)
      == (FlagBit(o, j) || (NameSpan(o.name) <= j && High(block[off + j])))
  {
    var w := WriteNameFlags(block, off, o);
    assert EncodeEntry(block, off, o)[off + j] == w[off + j] == EncodedNameByte(block, off, o, j);
    FoldFacts(if j < NameSpan(o.name) then Low7(NameByte(o.name, j)) else block[off + j]);
    FoldFacts(NameByte(o.name, j));
  }

  /** The 32-bit fields come back with their low three bytes from the object and their
      top byte from the old entry; the start sector comes back modulo 2^24. */
  lemma DecodeEncodeFields(block: seq<byte>, off: nat, o: Object, nameLen: nat)
    requires off + DIR_ENT_SIZE <= |block| && nameLen <= ADFS_MAX_NAME
    ensures var d := Decode(EncodeEntry(block, off, o), off, nameLen);
      && d.loadAddr == o.loadAddr % TWO24 + TWO24 * block[off + 0x0D]
      && d.execAddr == o.execAddr % TWO24 + TWO24 * block[off + 0x11]
      && d.length == o.length % TWO24 + TWO24 * block[off + 0x15]
      && d.sector == o.sector % TWO24
  {
    var w := WriteNameFlags(block, off, o);
    var r := EncodeEntry(block, off, o);
    assert r[off + 0x0D] == w[off + 0x0D] == block[off + 0x0D];
    assert r[off + 0x11] == w[off + 0x11] == block[off + 0x11];
    assert r[off + 0x15] == w[off + 0x15] == block[off + 0x15];
  }

  /** The name comes back 7-bit: the object's bytes up to the NUL, the old entry's bytes
      after it. */
  lemma DecodeEncodeName(block: seq<byte>, off: nat, o: Object, nameLen: nat)
    requires off + DIR_ENT_SIZE <= |block| && nameLen <= ADFS_MAX_NAME
    ensures var d := Decode(EncodeEntry(block, off, o), off, nameLen);
      && |d.name| == nameLen + 1 && d.name[nameLen] == 0
      && (forall i :: 0 <= i < nameLen && i < NameSpan(o.name) ==> d.name[i] == Low7(NameByte(o.name, i)))
      && (forall i :: 0 <= i < nameLen && NameSpan(o.name) <= i ==> d.name[i] == Low7(block[off + i]))
  {
    var w := WriteNameFlags(block, off, o);
    var r := EncodeEntry(block, off, o);
    var d := Decode(r, off, nameLen);
    forall i | 0 <= i < nameLen
      ensures d.name[i] == (if i < NameSpan(o.name) then Low7(NameByte(o.name, i)) else Low7(block[off + i]))
    {
      assert r[off + i] == w[off + i] == EncodedNameByte(block, off, o, i);
      LowOfSetHigh(if i < NameSpan(o.name) then Low7(NameByte(o.name, i)) else block[off + i]);
      LowOfLow(NameByte(o.name, i));
    }
  }

  lemma LowOfSetHigh(b: byte)
    ensures Low7(SetHigh(b)) == Low7(b)
  {
  }

  lemma SmallLow7(b: byte)
    requires b < 0x80
    ensures Low7(b) == b
  {
  }

  lemma LowOfLow(b: byte)
    ensures Low7(Low7(b)) == Low7(b)
  {
  }

  /** What a decoded entry keeps of the object `dir_update` wrote into it: the name
      and a NUL, the start sector modulo 2^24, the low three bytes of the load and
      execution addresses and of the length, and every attribute the object has (a stale
      top bit can add others). */
  predicate Describes(d: Object, o: Object) {
    && d.name == CStr(o.name) + [0]
    && d.sector == o.sector % TWO24
    && d.loadAddr % TWO24 == o.loadAddr % TWO24
    && d.execAddr % TWO24 == o.execAddr % TWO24
    && d.length % TWO24 == o.length % TWO24
    && (forall j :: 0 <= j < ADFS_MAX_NAME && FlagBit(o, j) ==> FlagBit(d, j))
  }

  /** The entry bytes `dir_update` leaves alone hold nothing that could leak into the
      decode: no top bit in a name byte past the copied span, and top bytes of the three
      32-bit fields that already equal the object's. */
  predicate CleanFor(block: seq<byte>, off: nat, o: Object)
    requires off + DIR_ENT_SIZE <= |block|
  {
    && (forall i :: off + NameSpan(o.name) <= i < off + ADFS_MAX_NAME ==> !High(block[i]))
    && block[off + 0x0D] == o.loadAddr / TWO24
    && block[off + 0x11] == o.execAddr / TWO24
    && block[off + 0x15] == o.length / TWO24
  }

  /** Whatever the entry held before, decoding what `dir_update` wrote for a 7-bit name
      describes the object. */
  lemma DecodeEncodeDescribes(block: seq<byte>, off: nat, o: Object)
    requires off + DIR_ENT_SIZE <= |block| && CLen(o.name) <= ADFS_MAX_NAME
    requires forall i :: 0 <= i < CLen(o.name) ==> o.name[i] < 0x80
    ensures Describes(Decode(EncodeEntry(block, off, o), off, CLen(o.name)), o)
  {
    var n := CLen(o.name);
    var d := Decode(EncodeEntry(block, off, o), off, n);
    DecodeEncodeCleanName(block, off, o);
    DecodeEncodeFields(block, off, o, n);
    SplitAt24(o.loadAddr % TWO24, block[off + 0x0D]);
    SplitAt24(o.execAddr % TWO24, block[off + 0x11]);
    SplitAt24(o.length % TWO24, block[off + 0x15]);
    DecodeEncodeKeepsFlags(block, off, o);
  }

  lemma DecodeEncodeKeepsFlags(block: seq<byte>, off: nat, o: Object)
    requires off + DIR_ENT_SIZE <= |block| && CLen(o.name) <= ADFS_MAX_NAME
    ensures var d := Decode(EncodeEntry(block, off, o), off, CLen(o.name));
      forall j :: 0 <= j < ADFS_MAX_NAME && FlagBit(o, j) ==> FlagBit(d, j)
  {
    var n := CLen(o.name);
    var d := Decode(EncodeEntry(block, off, o), off, n);
    forall j | 0 <= j < ADFS_MAX_NAME && FlagBit(o, j)
      ensures FlagBit(d, j)
    {
      DecodeEncodeFlags(block, off, o, n, if j == 7 then 8 else j);
    }
  }

  /** When the entry's old bytes are clean (no top bit after the NUL, the old top bytes
      equal the object's) and the object's name is 7-bit, the round trip is exact. */
  lemma DecodeEncodeClean(block: seq<byte>, off: nat, o: Object)
    requires off + DIR_ENT_SIZE <= |block| && CLen(o.name) <= ADFS_MAX_NAME
    requires CleanFor(block, off, o)
    requires forall i :: 0 <= i < CLen(o.name) ==> o.name[i] < 0x80
    requires o.sector < TWO24
    ensures var d := Decode(EncodeEntry(block, off, o), off, CLen(o.name));
      && d.name == CStr(o.name) + [0]
      && (forall j :: 0 <= j < ADFS_MAX_NAME ==> FlagBit(d, j) == FlagBit(o, j))
      && d.loadAddr == o.loadAddr && d.execAddr == o.execAddr && d.length == o.length
      && d.sector == o.sector
  {
    DecodeEncodeCleanFlags(block, off, o);
    DecodeEncodeCleanName(block, off, o);
    DecodeEncodeFields(block, off, o, CLen(o.name));
  }

  /** The clean round trip as one equation: the decoded entry is the object with its
      name cut at the NUL and no contents. */
  lemma DecodeEncodeExact(block: seq<byte>, off: nat, o: Object)
    requires off + DIR_ENT_SIZE <= |block| && CLen(o.name) <= ADFS_MAX_NAME
    requires CleanFor(block, off, o)
    requires forall i :: 0 <= i < CLen(o.name) ==> o.name[i] < 0x80
    requires o.sector < TWO24
    ensures Decode(EncodeEntry(block, off, o), off, CLen(o.name)) == o.(name := CStr(o.name) + [0], data := None)
  {
    var d := Decode(EncodeEntry(block, off, o), off, CLen(o.name));
    var e := o.(name := CStr(o.name) + [0], data := None);
    DecodeEncodeClean(block, off, o);
    assert d.userRead == e.userRead && d.userWrite == e.userWrite && d.locked == e.locked by {
      assert FlagBit(d, 0) == FlagBit(o, 0) && FlagBit(d, 1) == FlagBit(o, 1) && FlagBit(d, 2) == FlagBit(o, 2);
    }
    assert d.isDir == e.isDir && d.userExec == e.userExec && d.pubRead == e.pubRead by {
      assert FlagBit(d, 3) == FlagBit(o, 3) && FlagBit(d, 4) == FlagBit(o, 4) && FlagBit(d, 5) == FlagBit(o, 5);
    }
    assert d.pubWrite == e.pubWrite && d.pubExec == e.pubExec && d.priv == e.priv by {
      assert FlagBit(d, 6) == FlagBit(o, 6) && FlagBit(d, 8) == FlagBit(o, 8) && FlagBit(d, 9) == FlagBit(o, 9);
    }
  }

  lemma DecodeEncodeCleanFlags(block: seq<byte>, off: nat, o: Object)
    requires off + DIR_ENT_SIZE <= |block| && CLen(o.name) <= ADFS_MAX_NAME
    requires forall i :: off + NameSpan(o.name) <= i < off + ADFS_MAX_NAME ==> !High(block[i])
    ensures var d := Decode(EncodeEntry(block, off, o), off, CLen(o.name));
      forall j :: 0 <= j < ADFS_MAX_NAME ==> FlagBit(d, j) == FlagBit(o, j)
  {
    var n := CLen(o.name);
    var d := Decode(EncodeEntry(block, off, o), off, n);
    forall j | 0 <= j < ADFS_MAX_NAME
      ensures FlagBit(d, j) == FlagBit(o, j)
    {
      DecodeEncodeFlags(block, off, o, n, if j == 7 then 8 else j);
    }
  }

  lemma DecodeEncodeCleanName(block: seq<byte>, off: nat, o: Object)
    requires off + DIR_ENT_SIZE <= |block| && CLen(o.name) <= ADFS_MAX_NAME
    requires forall i :: 0 <= i < CLen(o.name) ==> o.name[i] < 0x80
    ensures Decode(EncodeEntry(block, off, o), off, CLen(o.name)).name == CStr(o.name) + [0]
  {
    var n := CLen(o.name);
    var d := Decode(EncodeEntry(block, off, o), off, n);
    DecodeEncodeName(block, off, o, n);
    forall i | 0 <= i < n
      ensures d.name[i] == CStr(o.name)[i]
    {
      assert i < NameSpan(o.name);
      assert NameByte(o.name, i) == o.name[i] == CStr(o.name)[i];
      SmallLow7(o.name[i]);
    }
  }

  /** A name byte `dir_update` leaves behind the NUL keeps its old top bit, and `search`
      reads it as an attribute: an entry once locked (byte 2) and then overwritten by an
      object with a one-character name that is not locked still reads as locked. */
  lemma StaleFlagLeaks(block: seq<byte>, off: nat, o: Object)
    requires off + DIR_ENT_SIZE <= |block|
    requires CLen(o.name) == 1 && !o.locked && High(block[off + 2])
    ensures Decode(EncodeEntry(block, off, o), off, 1).locked
  {
    DecodeEncodeFlags(block, off, o, 1, 2);
  }

  // ---------------------------------------------------------------------------
  // search

  datatype SearchResult =
    | Hit(child: Object, slot: nat, block: seq<byte>)
    | Miss(at: Option<nat>, block: seq<byte>)
    | Failed(status: Status)
  {
    /** The `afs_status` the source returns. */
    function Status(): Status {
      match this
      case Hit(_, _, _) => OK
      case Miss(_, _) => NotFound
      case Failed(s) => s
    }
  }

  /** `load` of the parent directory: its `length` bytes at its start sector. */
  function LoadDir(disk: Disk, parent: Object): Option<seq<byte>> {
    Read(disk, parent.sector, parent.length)
  }

  /** `search`: look `name` up in the directory `parent`. On a match the child is decoded
      from the entry; on a miss the slot where the name belongs is reported, or none when
      the loop runs into the footer. The loaded block comes back with either, as the
      source leaves it in `parent->data`. A block shorter than six bytes is reported as
      broken. */
  function Search(disk: Disk, parent: Object, name: seq<byte>): (r: SearchResult)
    ensures |name| > ADFS_MAX_NAME ==> r == Failed(NameTooLong)
    ensures |name| <= ADFS_MAX_NAME && !parent.isDir ==> r == Failed(NotADir)
    ensures |name| <= ADFS_MAX_NAME && parent.isDir && LoadDir(disk, parent).None? ==> r == Failed(ReadErr)
    ensures |name| <= ADFS_MAX_NAME && parent.isDir && LoadDir(disk, parent).Some? ==>
      (r.Failed? <==> !WellFormed(LoadDir(disk, parent).value))
    ensures r.Failed? ==> r.status in {NameTooLong, NotADir, ReadErr, BrokenDir}
    ensures !r.Failed? ==> (|name| <= ADFS_MAX_NAME && parent.isDir && LoadDir(disk, parent) == Some(r.block)
      && WellFormed(r.block))
    ensures r.Hit? ==> (InDir(r.block, r.slot) && r.child == Decode(r.block, SlotOff(r.slot), |name|)
      && r.block[SlotOff(r.slot)] != 0 && Compare(name, r.block, SlotOff(r.slot)) == Same
      && forall i :: 0 <= i < r.slot ==> Passed(r.block, name, i))
    ensures r.Miss? && r.at.Some? ==> (InDir(r.block, r.at.value)
      && (r.block[SlotOff(r.at.value)] == 0 || Compare(name, r.block, SlotOff(r.at.value)) == Less)
      && forall i :: 0 <= i < r.at.value ==> Passed(r.block, name, i))
    ensures r.Miss? && r.at.None? ==> forall i :: InDir(r.block, i) ==> Passed(r.block, name, i)
  {
    if |name| > ADFS_MAX_NAME then Failed(NameTooLong)
    else if !parent.isDir then Failed(NotADir)
    else
      match LoadDir(disk, parent)
      case None => Failed(ReadErr)
      case Some(block) =>
        if |block| < 6 || !HeaderOk(block) || !FooterOk(block) then Failed(BrokenDir)
        else
          match ScanFrom(block, name, 0)
          case ScanMatch(k) => Hit(Decode(block, SlotOff(k), |name|), k, block)
          case ScanSlot(k) => Miss(Some(k), block)
          case ScanEnd => Miss(None, block)
  }

  /** `search` of a well-formed block reports what its entry loop finds: a match in
      entry k is a hit on that entry, decoded; an end marker or an entry the name sorts
      before is NOT_FOUND with that slot; running into the footer is NOT_FOUND with none. */
  lemma SearchScans(disk: Disk, parent: Object, name: seq<byte>, block: seq<byte>)
    requires |name| <= ADFS_MAX_NAME && parent.isDir && LoadDir(disk, parent) == Some(block)
    requires WellFormed(block)
    ensures var sc := ScanFrom(block, name, 0);
      sc.ScanMatch? ==> Search(disk, parent, name) == Hit(Decode(block, SlotOff(sc.k), |name|), sc.k, block)
    ensures var sc := ScanFrom(block, name, 0);
      sc.ScanSlot? ==> Search(disk, parent, name) == Miss(Some(sc.k), block)
    ensures ScanFrom(block, name, 0).ScanEnd? ==> Search(disk, parent, name) == Miss(None, block)
    ensures Search(disk, parent, name).Status() == (if ScanFrom(block, name, 0).ScanMatch? then OK else NotFound)
  {
  }

  /** A malformed block (too short, or a header or footer that does not check) is
      AFS_BROKEN_DIR, never NOT_FOUND. */
  lemma SearchBroken(disk: Disk, parent: Object, name: seq<byte>, block: seq<byte>)
    requires |name| <= ADFS_MAX_NAME && parent.isDir && LoadDir(disk, parent) == Some(block)
    requires !WellFormed(block)
    ensures Search(disk, parent, name) == Failed(BrokenDir)
  {
  }

  /** `search` sees the disc only through the parent's block. */
  lemma SearchReadsOnlyTheBlock(a: Disk, b: Disk, parent: Object, name: seq<byte>)
    requires LoadDir(a, parent) == LoadDir(b, parent)
    ensures Search(a, parent, name) == Search(b, parent, name)
  {
  }

  /** The name is compared only through its fold, so names that fold alike (in
      particular, that differ only in letter case) find the same entry. */
  lemma {:induction false} CompareIgnoresCase(a: seq<byte>, b: seq<byte>, block: seq<byte>, off: nat, i: nat)
    requires |a| == |b| && i <= |a| && off + |a| <= |block|
    requires forall t :: 0 <= t < |a| ==> FoldTarget(a[t]) == FoldTarget(b[t])
    ensures CompareFrom(a, block, off, i) == CompareFrom(b, block, off, i)
    decreases |a| - i
  {
    if i < |a| {
      CompareIgnoresCase(a, b, block, off, i + 1);
    }
  }

  lemma {:induction false} ScanIgnoresCase(a: seq<byte>, b: seq<byte>, block: seq<byte>, k: nat)
    requires |a| == |b| <= ADFS_MAX_NAME
    requires forall t :: 0 <= t < |a| ==> FoldTarget(a[t]) == FoldTarget(b[t])
    ensures ScanFrom(block, a, k) == ScanFrom(block, b, k)
    decreases |block| - SlotOff(k)
  {
    if InDir(block, k) {
      CompareIgnoresCase(a, b, block, SlotOff(k), 0);
      if block[SlotOff(k)] != 0 && Compare(a, block, SlotOff(k)) == Greater {
        ScanIgnoresCase(a, b, block, k + 1);
      }
    }
  }

  lemma SearchIgnoresCase(disk: Disk, parent: Object, a: seq<byte>, b: seq<byte>)
    requires |a| == |b|
    requires forall t :: 0 <= t < |a| ==> FoldTarget(a[t]) == FoldTarget(b[t])
    ensures Search(disk, parent, a) == Search(disk, parent, b)
  {
    if |a| <= ADFS_MAX_NAME && parent.isDir && LoadDir(disk, parent).Some? {
      var block := LoadDir(disk, parent).value;
      if WellFormed(block) {
        ScanIgnoresCase(a, b, block, 0);
      }
    }
  }

  /** A 7-bit name written by `dir_update` compares equal to its own entry, whatever
      attributes were or-ed onto it; so `search` for it stops there unless an earlier
      entry stops it first. */
  lemma EncodedEntryMatches(block: seq<byte>, off: nat, o: Object)
    requires off + DIR_ENT_SIZE <= |block| && CLen(o.name) <= ADFS_MAX_NAME
    requires forall i :: 0 <= i < CLen(o.name) ==> o.name[i] < 0x80
    ensures Compare(CStr(o.name), EncodeEntry(block, off, o), off) == Same
  {
    var name := CStr(o.name);
    var r := EncodeEntry(block, off, o);
    var span := NameSpan(o.name);
    forall t | 0 <= t < |name|
      ensures Agree(name, r, off, t)
    {
      assert t < span;
      assert NameByte(o.name, t) == name[t];
      var b := Low7(name[t]);
      assert r[off + t] == (if FlagBit(o, t) then SetHigh(b) else b);
      FoldFacts(name[t]);
      FoldFacts(b);
    }
  }

  /** A name with a top-bit byte never matches: the stored byte loses its top bit to
      the `0x5f` mask while the searched one keeps it under `0xdf`. */
  lemma HighNameNeverMatches(name: seq<byte>, block: seq<byte>, off: nat, t: nat)
    requires off + |name| <= |block| && t < |name| && High(name[t])
    ensures Compare(name, block, off) != Same
  {
    assert !Agree(name, block, off, t) by {
      MasksAgree(name[t] as bv8);
      MasksAgree(block[off + t] as bv8);
    }
  }

  /** The comparison reads only the entry's first |name| bytes. */
  lemma {:induction false} CompareFrame(name: seq<byte>, a: seq<byte>, b: seq<byte>, off: nat, i: nat)
    requires i <= |name| && off + |name| <= |a| && off + |name| <= |b|
    requires forall t :: off + i <= t < off + |name| ==> a[t] == b[t]
    ensures CompareFrom(name, a, off, i) == CompareFrom(name, b, off, i)
    decreases |name| - i
  {
    if i < |name| {
      assert a[off + i] == b[off + i];
      CompareFrame(name, a, b, off, i + 1);
    }
  }

  /** When every entry from j up to k is passed and entry k is in use and matches,
      `search`'s loop from entry j stops at entry k. */
  lemma {:induction false} ScanStopsAt(block: seq<byte>, name: seq<byte>, j: nat, k: nat)
    requires |name| <= ADFS_MAX_NAME && j <= k && InDir(block, k)
    requires forall i :: j <= i < k ==> Passed(block, name, i)
    requires block[SlotOff(k)] != 0 && Compare(name, block, SlotOff(k)) == Same
    ensures ScanFrom(block, name, j) == ScanMatch(k)
    decreases k - j
  {
    if j < k {
      assert Passed(block, name, j);
      assert ScanFrom(block, name, j) == ScanFrom(block, name, j + 1);
      ScanStopsAt(block, name, j + 1, k);
    }
  }

  /** Whether `search` passes entry i depends only on the block's length and that
      entry's name bytes. */
  lemma PassedFrame(a: seq<byte>, b: seq<byte>, name: seq<byte>, i: nat)
    requires |name| <= ADFS_MAX_NAME && |a| == |b| && InDir(a, i)
    requires forall t :: SlotOff(i) <= t < SlotOff(i) + |name| ==> a[t] == b[t]
    ensures Passed(a, name, i) == Passed(b, name, i)
  {
    CompareFrame(name, a, b, SlotOff(i), 0);
  }

  /** A block rewritten from entry k on (short of the footer's last six bytes), where the
      name now compares equal to entry k, still has a valid header and footer, and
      `search`'s loop passes the same entries as before to stop at entry k. */
  lemma FoundAfterRewrite(block: seq<byte>, e: seq<byte>, name: seq<byte>, k: nat)
    requires |name| <= ADFS_MAX_NAME && |e| == |block| >= 6
    requires HeaderOk(block) && FooterOk(block)
    requires InDir(block, k) && forall i :: 0 <= i < k ==> Passed(block, name, i)
    requires forall i :: 0 <= i < |block| && !(SlotOff(k) <= i < |block| - 6) ==> e[i] == block[i]
    requires e[SlotOff(k)] != 0 && Compare(name, e, SlotOff(k)) == Same
    ensures HeaderOk(e) && FooterOk(e)
    ensures ScanFrom(e, name, 0) == ScanMatch(k)
  {
    assert e[1..5] == block[1..5];
    assert e[|e| - 5..|e| - 1] == block[|block| - 5..|block| - 1];
    forall i | 0 <= i < k
      ensures Passed(e, name, i)
    {
      assert Passed(block, name, i);
      PassedFrame(block, e, name, i);
    }
    ScanStopsAt(e, name, 0, k);
  }

  /** An entry `dir_update` wrote for a non-empty 7-bit name is in use: its first byte is
      the name's first byte, perhaps with the top bit set. */
  lemma EncodedEntryInUse(block: seq<byte>, off: nat, o: Object)
    requires off + DIR_ENT_SIZE <= |block| && 1 <= CLen(o.name) && o.name[0] < 0x80
    ensures EncodeEntry(block, off, o)[off] != 0
  {
    var w := WriteNameFlags(block, off, o);
    assert EncodeEntry(block, off, o)[off] == w[off] == EncodedNameByte(block, off, o, 0);
    assert NameByte(o.name, 0) == o.name[0];
    SmallLow7(o.name[0]);
  }

  // ---------------------------------------------------------------------------
  // dir_update and dir_makeslot

  datatype Update = Update(status: Status, disk: Disk, block: seq<byte>)

  /** `dir_update`: encode the object into the entry at `off` of the parent's block and
      write the whole block back at the parent's sector. */
  function DirUpdate(disk: Disk, parent: Object, block: seq<byte>, off: nat, o: Object): (r: Update)
    requires off + DIR_ENT_SIZE <= |block|
    ensures r.block == EncodeEntry(block, off, o)
    ensures r.status == OK || r.status == WriteErr
    ensures r.status == OK <==> Write(disk, parent.sector, r.block).Some?
    ensures r.status == OK ==> Some(r.disk) == Write(disk, parent.sector, r.block)
    ensures r.status == WriteErr ==> r.disk == disk
  {
    var b := EncodeEntry(block, off, o);
    match Write(disk, parent.sector, b)
    case Some(d) => Update(OK, d, b)
    case None => Update(WriteErr, disk, b)
  }

  /** `dir_makeslot`: move the entries from `off` up to the footer up by one entry. The
      entry at `off` is left as it was (its bytes show through where `dir_update` does
      not write), and the last entry before the footer is overwritten. */
  function DirMakeSlot(block: seq<byte>, off: nat): (r: seq<byte>)
    requires off + DIR_ENT_SIZE <= Ftr(block)
    ensures |r| == |block|
    ensures forall i :: off + DIR_ENT_SIZE <= i < Ftr(block) ==> r[i] == block[i - DIR_ENT_SIZE]
    ensures forall i :: 0 <= i < |block| && !(off + DIR_ENT_SIZE <= i < Ftr(block)) ==> r[i] == block[i]
  {
    Move(block, off + DIR_ENT_SIZE, off, Ftr(block) - off - DIR_ENT_SIZE)
  }

  /** The number of whole entries between the header and the footer. */
  function EntrySlots(block: seq<byte>): nat {
    if Ftr(block) < DIR_HDR_SIZE then 0 else (Ftr(block) - DIR_HDR_SIZE) / DIR_ENT_SIZE
  }

  /** The entries between header and footer exactly fill the space, as in the 1280-byte
      directories of the old map format. */
  predicate Packed(block: seq<byte>) {
    Ftr(block) >= DIR_HDR_SIZE && (Ftr(block) - DIR_HDR_SIZE) % DIR_ENT_SIZE == 0
  }

  /** The 26 bytes of entry k. */
  function Entry(block: seq<byte>, k: nat): seq<byte>
    requires k < EntrySlots(block)
  {
    block[SlotOff(k)..SlotOff(k) + DIR_ENT_SIZE]
  }

  /** Every entry of the block, in order. */
  function Entries(block: seq<byte>): (r: seq<seq<byte>>)
    ensures |r| == EntrySlots(block)
    ensures forall k :: 0 <= k < |r| ==> r[k] == Entry(block, k)
  {
    seq(EntrySlots(block), k requires 0 <= k < EntrySlots(block) => Entry(block, k))
  }

  /** In a packed directory `dir_makeslot` at entry j duplicates entry j and shifts the
      rest up, dropping the last entry; the header and footer are untouched. */
  lemma MakeSlotEntries(block: seq<byte>, j: nat)
    requires Packed(block) && j < EntrySlots(block)
    ensures SlotOff(j) + DIR_ENT_SIZE <= Ftr(block)
    ensures var r := DirMakeSlot(block, SlotOff(j));
      && Entries(r) == Entries(block)[..j + 1] + Entries(block)[j..EntrySlots(block) - 1]
      && r[..DIR_HDR_SIZE] == block[..DIR_HDR_SIZE]
      && r[Ftr(block)..] == block[Ftr(block)..]
  {
    var n := EntrySlots(block);
    assert Ftr(block) == SlotOff(n);
    var r := DirMakeSlot(block, SlotOff(j));
    var want := Entries(block)[..j + 1] + Entries(block)[j..n - 1];
    forall k | 0 <= k < n
      ensures Entries(r)[k] == want[k]
    {
      MakeSlotEntry(block, j, k);
    }
    assert Entries(r) == want;
    assert r[..DIR_HDR_SIZE] == block[..DIR_HDR_SIZE];
    assert r[Ftr(block)..] == block[Ftr(block)..];
  }

  /** Entry k after `dir_makeslot` at entry j: the old entry k up to j, the old entry
      k - 1 after it. */
  lemma MakeSlotEntry(block: seq<byte>, j: nat, k: nat)
    requires Packed(block) && j < EntrySlots(block) && k < EntrySlots(block)
    ensures SlotOff(j) + DIR_ENT_SIZE <= Ftr(block)
    ensures Entry(DirMakeSlot(block, SlotOff(j)), k) == Entry(block, if k <= j then k else k - 1)
  {
    assert Ftr(block) == SlotOff(EntrySlots(block));
    var r := DirMakeSlot(block, SlotOff(j));
    var x := SlotOff(k);
    if k <= j {
      forall i | x <= i < x + DIR_ENT_SIZE
        ensures r[i] == block[i - x + x]
      {
      }
      SameEntry(r, block, x, x);
    } else {
      var y := SlotOff(k - 1);
      assert y == x - DIR_ENT_SIZE;
      forall i | x <= i < x + DIR_ENT_SIZE
        ensures r[i] == block[i - x + y]
      {
        assert r[i] == block[i - DIR_ENT_SIZE];
      }
      SameEntry(r, block, x, y);
    }
  }

  /** Two runs of 26 bytes that agree byte for byte are the same entry. */
  lemma SameEntry(a: seq<byte>, b: seq<byte>, x: nat, y: nat)
    requires x + DIR_ENT_SIZE <= |a| && y + DIR_ENT_SIZE <= |b|
    requires forall i :: x <= i < x + DIR_ENT_SIZE ==> a[i] == b[i - x + y]
    ensures a[x..x + DIR_ENT_SIZE] == b[y..y + DIR_ENT_SIZE]
  {
    var sa := a[x..x + DIR_ENT_SIZE];
    var sb := b[y..y + DIR_ENT_SIZE];
    forall i | 0 <= i < DIR_ENT_SIZE
      ensures sa[i] == sb[i]
    {
      assert a[x + i] == b[x + i - x + y];
    }
  }

  // ---------------------------------------------------------------------------
  // The order of the entries

  /** The ten name bytes of the entry at `off` as `search` compares them: folded with
      `& 0x5f`, which also drops the attribute bits. */
  function Key(block: seq<byte>, off: nat): (r: seq<byte>)
    requires off + ADFS_MAX_NAME <= |block|
    ensures |r| == ADFS_MAX_NAME
    ensures forall i :: 0 <= i < ADFS_MAX_NAME ==> r[i] == FoldStored(block[off + i])
  {
    seq<byte>(ADFS_MAX_NAME, i requires 0 <= i < ADFS_MAX_NAME => FoldStored(block[off + i]))
  }

  /** Key a sorts before key b, the first difference being at byte p. */
  predicate BelowAt(a: seq<byte>, b: seq<byte>, p: nat) {
    p < |a| && p < |b| && a[..p] == b[..p] && a[p] < b[p]
  }

  /** Key a sorts strictly before key b. */
  predicate KeyBelow(a: seq<byte>, b: seq<byte>) {
    exists p :: 0 <= p < |a| && BelowAt(a, b, p)
  }

  lemma BelowTrans(a: seq<byte>, b: seq<byte>, c: seq<byte>)
    requires KeyBelow(a, b) && KeyBelow(b, c)
    ensures KeyBelow(a, c)
  {
    var p :| 0 <= p < |a| && BelowAt(a, b, p);
    var q :| 0 <= q < |b| && BelowAt(b, c, q);
    if p < q {
      assert b[p] == b[..q][p] == c[..q][p] == c[p];
      assert c[..p] == c[..q][..p] && b[..p] == b[..q][..p];
      assert BelowAt(a, c, p);
    } else if q < p {
      assert a[q] == a[..p][q] == b[..p][q] == b[q];
      assert a[..q] == a[..p][..q] && b[..q] == b[..p][..q];
      assert BelowAt(a, c, q);
    } else {
      assert BelowAt(a, c, p);
    }
  }

  /** Entry k lies whole before the footer, and it and every entry before it are in
      use: the entries `search` reaches before an end marker. */
  predicate Listed(block: seq<byte>, k: nat) {
    SlotOff(k) + DIR_ENT_SIZE <= Ftr(block) && forall t :: 0 <= t <= k ==> block[SlotOff(t)] != 0
  }

  /** The entries in use are in strictly increasing order of their folded names: the
      order `search` relies on when it stops at the first entry the name sorts before. */
  predicate Sorted(block: seq<byte>) {
    forall k :: 0 < k < |block| && Listed(block, k) ==> KeyBelow(Key(block, SlotOff(k - 1)), Key(block, SlotOff(k)))
  }

  /** What `search`'s comparison of a name with an entry says about keys: for any key
      that starts with the folded name, Greater puts the entry's key below it, Less puts
      it above, and Same means the two start alike. */
  lemma CompareKeys(name: seq<byte>, block: seq<byte>, off: nat, key: seq<byte>)
    requires |name| <= ADFS_MAX_NAME && off + ADFS_MAX_NAME <= |block| && |key| == ADFS_MAX_NAME
    requires forall i :: 0 <= i < |name| ==> key[i] == FoldTarget(name[i])
    ensures Compare(name, block, off) == Greater ==> KeyBelow(Key(block, off), key)
    ensures Compare(name, block, off) == Less ==> KeyBelow(key, Key(block, off))
    ensures Compare(name, block, off) == Same ==> Key(block, off)[..|name|] == key[..|name|]
  {
    var k := Key(block, off);
    match Compare(name, block, off)
    case Greater =>
      var t :| 0 <= t < |name| && AgreeBetween(name, block, off, 0, t) && Above(name, block, off, t);
      AgreeKeys(name, block, off, key, t);
      assert BelowAt(k, key, t);
    case Less =>
      var t :| 0 <= t < |name| && AgreeBetween(name, block, off, 0, t) && Below(name, block, off, t);
      AgreeKeys(name, block, off, key, t);
      assert BelowAt(key, k, t);
    case Same =>
      AgreeKeys(name, block, off, key, |name|);
  }

  /** Where the name and the entry agree, so do their keys. */
  lemma AgreeKeys(name: seq<byte>, block: seq<byte>, off: nat, key: seq<byte>, t: nat)
    requires |name| <= ADFS_MAX_NAME && off + ADFS_MAX_NAME <= |block| && |key| == ADFS_MAX_NAME
    requires forall i :: 0 <= i < |name| ==> key[i] == FoldTarget(name[i])
    requires t <= |name| && AgreeBetween(name, block, off, 0, t)
    ensures Key(block, off)[..t] == key[..t]
  {
    var k := Key(block, off);
    forall u | 0 <= u < t
      ensures k[u] == key[u]
    {
      assert Agree(name, block, off, u);
      assert k[u] == FoldStored(block[off + u]);
    }
  }

  /** The key of an entry `dir_update` wrote for a 7-bit name: the name folded, then a
      NUL when the name is shorter than ten bytes, then the old entry's folded bytes. */
  lemma EncodedKey(block: seq<byte>, off: nat, o: Object)
    requires off + DIR_ENT_SIZE <= |block| && CLen(o.name) <= ADFS_MAX_NAME
    requires forall i :: 0 <= i < CLen(o.name) ==> o.name[i] < 0x80
    ensures var key := Key(EncodeEntry(block, off, o), off); var n := CLen(o.name);
      && (forall i :: 0 <= i < n ==> key[i] == FoldTarget(o.name[i]))
      && (n < ADFS_MAX_NAME ==> key[n] == 0)
      && (forall i :: n < i < ADFS_MAX_NAME ==> key[i] == Key(block, off)[i])
  {
    var key := Key(EncodeEntry(block, off, o), off);
    var n := CLen(o.name);
    forall i | 0 <= i < n
      ensures key[i] == FoldTarget(o.name[i])
    {
      EncodedKeyByte(block, off, o, i);
    }
    if n < ADFS_MAX_NAME {
      EncodedKeyByte(block, off, o, n);
    }
    forall i | n < i < ADFS_MAX_NAME
      ensures key[i] == Key(block, off)[i]
    {
      EncodedKeyByte(block, off, o, i);
    }
  }

  /** Byte i of the key in `EncodedKey`. */
  lemma EncodedKeyByte(block: seq<byte>, off: nat, o: Object, i: nat)
    requires off + DIR_ENT_SIZE <= |block| && CLen(o.name) <= ADFS_MAX_NAME && i < ADFS_MAX_NAME
    requires forall i :: 0 <= i < CLen(o.name) ==> o.name[i] < 0x80
    ensures var n := CLen(o.name); var v := FoldStored(EncodeEntry(block, off, o)[off + i]);
      && (i < n ==> v == FoldTarget(o.name[i]))
      && (i == n ==> v == 0)
      && (n < i ==> v == FoldStored(block[off + i]))
  {
    var w := WriteNameFlags(block, off, o);
    assert !FieldLow(off, off + i);
    assert EncodeEntry(block, off, o)[off + i] == w[off + i] == EncodedNameByte(block, off, o, i);
    var b := if i < NameSpan(o.name) then Low7(NameByte(o.name, i)) else block[off + i];
    FoldFacts(b);
    FoldFacts(NameByte(o.name, i));
  }

  /** Entries with the same ten name bytes have the same key. */
  lemma KeysAgree(a: seq<byte>, x: nat, b: seq<byte>, y: nat)
    requires x + ADFS_MAX_NAME <= |a| && y + ADFS_MAX_NAME <= |b|
    requires forall i :: x <= i < x + ADFS_MAX_NAME ==> a[i] == b[i - x + y]
    ensures Key(a, x) == Key(b, y)
  {
    forall i | 0 <= i < ADFS_MAX_NAME
      ensures Key(a, x)[i] == Key(b, y)[i]
    {
      assert a[x + i] == b[x + i - x + y];
    }
  }
}

=== FILE: diskimg.dfy ===
/**
  The block store the driver sits on: a disc image addressed in 256-byte sectors.
  Reading or writing `n` bytes at a sector either succeeds as a slice or splice of
  the image, or fails (nothing is read, nothing is changed).
 */
module DiskImg {
  import opened Wrappers
  import opened Bytes

  /** `sect_size`, set once by the constructor; every sector count derives from it. */
  const SECT_SIZE: nat := 256

  /** An open disc image. `writable` is the mode the image was opened in. */
  datatype Disk = Disk(image: seq<byte>, writable: bool)

  /** `DiskImgIO::sectors`: `((bytes-1) / sect_size) + 1` in 32-bit unsigned arithmetic.
      For a non-empty object this is the least number of sectors that holds it; for an
      empty one `bytes-1` wraps and the count is 0x1000000. */
  function Sectors(bytes: u32): (r: u32)
    ensures bytes >= 1 ==> r * SECT_SIZE >= bytes
    ensures bytes >= 1 ==> (r - 1) * SECT_SIZE < bytes
    ensures bytes == 0 ==> r == TWO24
    ensures 1 <= r <= TWO24
  {
    ((bytes + TWO32 - 1) % TWO32) / SECT_SIZE + 1
  }

  /** Whole sectors take exactly their own count. */
  lemma SectorsOfWholeSectors(k: nat)
    requires 1 <= k && k * SECT_SIZE < TWO32
    ensures Sectors(k * SECT_SIZE) == k
  {
    var b := k * SECT_SIZE;
    assert (b + TWO32 - 1) % TWO32 == b - 1;
    assert (b - 1) / SECT_SIZE == k - 1;
  }

  /** A longer object never needs fewer sectors. */
  lemma SectorsMonotone(a: u32, b: u32)
    requires 1 <= a <= b
    ensures Sectors(a) <= Sectors(b)
  {
    assert (a + TWO32 - 1) % TWO32 == a - 1;
    assert (b + TWO32 - 1) % TWO32 == b - 1;
  }

  /** `read(sector, bytes)`: the `n` bytes at `sector * sect_size`, or None when they
      cannot all be read (a zero-length read also fails: fread of zero items). */
  function Read(d: Disk, sector: nat, n: nat): (r: Option<seq<byte>>)
    ensures r.Some? <==> 0 < n && sector * SECT_SIZE + n <= |d.image|
    ensures r.Some? ==> |r.value| == n
    ensures r.Some? ==> forall i :: 0 <= i < n ==> r.value[i] == d.image[sector * SECT_SIZE + i]
  {
    var pos := sector * SECT_SIZE;
    if 0 < n && pos + n <= |d.image| then Some(d.image[pos..pos + n]) else None
  }

  /** `write(sector, bytes, data)`: splices `data` into the image at `sector * sect_size`.
      Fails, changing nothing, on an image opened read-only, on an empty write, or when
      the data would run past the end of the image. */
  function Write(d: Disk, sector: nat, data: seq<byte>): (r: Option<Disk>)
    ensures r.Some? <==> d.writable && 0 < |data| && sector * SECT_SIZE + |data| <= |d.image|
    ensures r.Some? ==> r.value.writable == d.writable && |r.value.image| == |d.image|
    ensures r.Some? ==> forall i :: 0 <= i < |d.image| ==>
      r.value.image[i] == (if sector * SECT_SIZE <= i < sector * SECT_SIZE + |data| then data[i - sector * SECT_SIZE] else d.image[i])
  {
    var pos := sector * SECT_SIZE;
    if d.writable && 0 < |data| && pos + |data| <= |d.image| then
      Some(Disk(seq(|d.image|, i requires 0 <= i < |d.image| =>
        if pos <= i < pos + |data| then data[i - pos] else d.image[i]), d.writable))
    else
      None
  }

  /** The n bytes at sector a and the m bytes at sector b do not overlap. */
  predicate Apart(a: nat, n: nat, b: nat, m: nat) {
    a * SECT_SIZE + n <= b * SECT_SIZE || b * SECT_SIZE + m <= a * SECT_SIZE
  }

  /** What was written reads back. */
  lemma ReadAfterWrite(d: Disk, sector: nat, data: seq<byte>)
    requires Write(d, sector, data).Some?
    ensures Read(Write(d, sector, data).value, sector, |data|) == Some(data)
  {
    var r := Read(Write(d, sector, data).value, sector, |data|);
    assert r.value == data;
  }

  /** A write leaves every byte range it does not touch reading as before. */
  lemma ReadAfterDisjointWrite(d: Disk, ws: nat, data: seq<byte>, rs: nat, n: nat)
    requires Write(d, ws, data).Some?
    requires Apart(rs, n, ws, |data|)
    ensures Read(Write(d, ws, data).value, rs, n) == Read(d, rs, n)
  {
    var d' := Write(d, ws, data).value;
    if Read(d, rs, n).Some? {
      assert Read(d', rs, n).value == Read(d, rs, n).value;
    }
  }
}

=== FILE: driver.dfy ===
/**
  `save`: store an object in a directory of the image. The destination is looked up,
  the free-space map loaded, and the object's name searched for in the directory. An
  existing object of that name has its space returned to the map first; a new one gets
  a slot opened at its sorted place. The object's data goes to the first free extent
  that holds it, the directory entry is written, and on success the map is written
  back. On any failure after the map was loaded the cached map is dropped.
 */
module Driver {
  import opened Wrappers
  import opened Bytes
  import opened DiskImg
  import opened AcornFS
  import opened FsMap
  import opened Directory
  import opened Path

  /** Where a save got to: its status, the disc, the map buffer and the object (whose
      start sector `alloc_write` fills in). */
  datatype Stage = Stage(status: Status, disk: Disk, buf: seq<byte>, obj: Object)

  /** The block `dir_update` writes the entry into: the loaded block, with a slot first
      opened at `off` by `dir_makeslot` when the name was not found. */
  function Opened(block: seq<byte>, off: nat, opening: bool): (r: seq<byte>)
    requires opening ==> off + DIR_ENT_SIZE <= Ftr(block)
    ensures |r| == |block|
    ensures forall i :: 0 <= i < |block| && !(off + DIR_ENT_SIZE <= i < Ftr(block)) ==> r[i] == block[i]
  {
    if opening then DirMakeSlot(block, off) else block
  }

  /** Opening a slot at `off` leaves the entry already there in place. */
  lemma OpenedKeepsEntry(block: seq<byte>, off: nat, opening: bool)
    requires off + DIR_ENT_SIZE <= |block|
    requires opening ==> off + DIR_ENT_SIZE <= Ftr(block)
    ensures Opened(block, off, opening)[off..off + DIR_ENT_SIZE] == block[off..off + DIR_ENT_SIZE]
  {
    var r := Opened(block, off, opening);
    assert forall i :: off <= i < off + DIR_ENT_SIZE ==> r[i] == block[i];
  }

  // ---------------------------------------------------------------------------
  // alloc_write, then dir_update

  /** `alloc_write` followed by `dir_update` of the entry at `off`, with `dir_makeslot`
      in between when `opening`. An offset that leaves no room for a whole entry before
      the footer would make the length `dir_makeslot` moves wrap around; the model
      reports that as AFS_BUG. */
  function Place(disk: Disk, m: seq<byte>, parent: Object, obj: Object, block: seq<byte>, off: nat, opening: bool): (r: Stage)
    requires IsMap(m) && Count(m) <= FSMAP_MAX_ENT && Loaded(obj)
    requires !opening ==> off + DIR_ENT_SIZE <= |block|
    ensures IsMap(r.buf) && Count(r.buf) <= FSMAP_MAX_ENT
  {
    var a := AllocWrite(disk, m, obj);
    if a.status != OK then Stage(a.status, a.disk, a.buf, a.obj)
    else if opening && off + DIR_ENT_SIZE > Ftr(block) then Stage(Bug, a.disk, a.buf, a.obj)
    else
      var u := DirUpdate(a.disk, parent, Opened(block, off, opening), off, a.obj);
      Stage(u.status, u.disk, a.buf, a.obj)
  }

  /** The outcomes of `Place`: only the start sector of the object changes; running out
      of space changes nothing; AFS_BUG only where a slot was to be opened. */
  lemma PlaceOutcome(disk: Disk, m: seq<byte>, parent: Object, obj: Object, block: seq<byte>, off: nat, opening: bool)
    requires IsMap(m) && Count(m) <= FSMAP_MAX_ENT && Loaded(obj)
    requires !opening ==> off + DIR_ENT_SIZE <= |block|
    ensures var r := Place(disk, m, parent, obj, block, off, opening);
      && r.obj == obj.(sector := r.obj.sector)
      && r.status in {OK, NoSpace, WriteErr, Bug}
      && (!opening ==> r.status != Bug)
      && (r.status == NoSpace <==> AllocMap(m, Sectors(obj.length)).None?)
      && (r.status == NoSpace ==> r.disk == disk && r.obj == obj)
  {
    PlaceCases(disk, m, parent, obj, block, off, opening);
    AllocWriteStatus(disk, m, obj);
    PlaceStatus(obj, AllocMap(m, Sectors(obj.length)), disk, AllocWrite(disk, m, obj), Place(disk, m, parent, obj, block, off, opening), opening);
  }

  /** `PlaceOutcome`'s conclusion from the facts about `alloc_write` and `Place`, over
      results given as values. */
  lemma PlaceStatus(obj: Object, p: Option<Placement>, disk: Disk, a: AllocResult, r: Stage, opening: bool)
    requires a.obj == obj.(sector := a.obj.sector) && a.status in {OK, NoSpace, WriteErr}
    requires (a.status == NoSpace <==> p.None?) && (a.status == NoSpace ==> a.disk == disk && a.obj == obj)
    requires r.obj == a.obj && (a.status != OK ==> r.status == a.status && r.disk == a.disk)
    requires a.status == OK ==> r.status in {OK, WriteErr, Bug} && (!opening ==> r.status != Bug)
    ensures r.obj == obj.(sector := r.obj.sector) && r.status in {OK, NoSpace, WriteErr, Bug}
    ensures (!opening ==> r.status != Bug) && (r.status == NoSpace <==> p.None?)
    ensures r.status == NoSpace ==> r.disk == disk && r.obj == obj
  {
  }

  /** What `Place` returns in terms of the `alloc_write` result. */
  lemma PlaceCases(disk: Disk, m: seq<byte>, parent: Object, obj: Object, block: seq<byte>, off: nat, opening: bool)
    requires IsMap(m) && Count(m) <= FSMAP_MAX_ENT && Loaded(obj)
    requires !opening ==> off + DIR_ENT_SIZE <= |block|
    ensures var a := AllocWrite(disk, m, obj); var r := Place(disk, m, parent, obj, block, off, opening);
      && r.obj == a.obj
      && (a.status != OK ==> r.status == a.status && r.disk == a.disk)
      && (a.status == OK ==> r.status in {OK, WriteErr, Bug} && (!opening ==> r.status != Bug))
  {
  }

  /** The two writes of a successful save: the data at the object's start sector, then
      the directory block, with the entry at `off` encoded, at the parent's sector. */
  predicate Wrote(disk: Disk, r: Stage, parent: Object, block: seq<byte>, off: nat, data: seq<byte>)
    requires off + DIR_ENT_SIZE <= |block|
  {
    && Write(disk, r.obj.sector, data).Some?
    && Write(Write(disk, r.obj.sector, data).value, parent.sector, EncodeEntry(block, off, r.obj)) == Some(r.disk)
  }

  /** A successful `Place` wrote the data and then the directory block, and the start
      sector it chose fits the entry's 24-bit field. */
  lemma PlaceWrites(disk: Disk, m: seq<byte>, parent: Object, obj: Object, block: seq<byte>, off: nat, opening: bool)
    requires IsMap(m) && Count(m) <= FSMAP_MAX_ENT && Loaded(obj)
    requires !opening ==> off + DIR_ENT_SIZE <= |block|
    requires Place(disk, m, parent, obj, block, off, opening).status == OK
    ensures opening ==> off + DIR_ENT_SIZE <= Ftr(block)
    ensures off + DIR_ENT_SIZE <= |block|
    ensures Wrote(disk, Place(disk, m, parent, obj, block, off, opening), parent, Opened(block, off, opening), off, obj.data.value)
    ensures Place(disk, m, parent, obj, block, off, opening).obj.sector < TWO24
  {
    var p := AllocMap(m, Sectors(obj.length)).value;
    var j: nat :| FirstFit(m, Sectors(obj.length), j) && Live(m)[j].start == p.start;
    assert Live(m)[j] == EntryAt(m, j);
  }

  // ---------------------------------------------------------------------------
  // The part of save between load_fsmap and save_fsmap

  /** Search the directory for the object's name and store the object there. */
  function Store(disk: Disk, m: seq<byte>, parent: Object, obj: Object): (r: Stage)
    requires IsMap(m) && Count(m) <= FSMAP_MAX_ENT && Loaded(obj)
    ensures IsMap(r.buf) && Count(r.buf) <= FSMAP_MAX_ENT
  {
    StoreAt(disk, m, parent, obj, Search(disk, parent, CStr(obj.name)))
  }

  /** An outcome `search` can report: a hit or a free slot lies before the footer. */
  predicate Searched(sr: SearchResult) {
    && (sr.Hit? ==> InDir(sr.block, sr.slot))
    && (sr.Miss? && sr.at.Some? ==> InDir(sr.block, sr.at.value))
  }

  /** What `save` does with the outcome of the search: pass a failure on, report a full
      directory, or store over the entry found (after `map_free` of the old object's
      space) or into the free slot offered. */
  function StoreAt(disk: Disk, m: seq<byte>, parent: Object, obj: Object, sr: SearchResult): (r: Stage)
    requires IsMap(m) && Count(m) <= FSMAP_MAX_ENT && Loaded(obj) && Searched(sr)
    ensures IsMap(r.buf) && Count(r.buf) <= FSMAP_MAX_ENT
  {
    match sr
    case Failed(st) => Stage(st, disk, m, obj)
    case Miss(None, _) => Stage(DirFull, disk, m, obj)
    case Miss(Some(k), block) => Place(disk, m, parent, obj, block, SlotOff(k), true)
    case Hit(child, k, block) =>
      var f := MapFree(m, child.sector, child.length);
      if f.status != OK then Stage(f.status, disk, f.buf, obj)
      else Place(disk, f.buf, parent, obj, block, SlotOff(k), false)
  }

  /** The outcomes of the store step: a failed search is passed on; a full directory is
      AFS_DIR_FULL; neither, nor a full map or a full disc, writes anything. */
  lemma StoreOutcome(disk: Disk, m: seq<byte>, parent: Object, obj: Object, sr: SearchResult)
    requires IsMap(m) && Count(m) <= FSMAP_MAX_ENT && Loaded(obj) && Searched(sr)
    requires sr.Failed? ==> sr.status in {NameTooLong, NotADir, ReadErr, BrokenDir}
    ensures var r := StoreAt(disk, m, parent, obj, sr);
      && r.obj == obj.(sector := r.obj.sector)
      && r.status in {OK, NameTooLong, NotADir, ReadErr, BrokenDir, DirFull, MapFull, NoSpace, WriteErr, Bug}
      && (r.status in {NameTooLong, NotADir, ReadErr, BrokenDir, DirFull, MapFull, NoSpace} ==> r.disk == disk)
      && (r.status in {DirFull, MapFull, NoSpace} ==> r.obj == obj)
      && (sr.Failed? ==> r == Stage(sr.status, disk, m, obj))
      && (sr.Miss? && sr.at.None? ==> r == Stage(DirFull, disk, m, obj))
  {
    match sr
    case Failed(_) =>
    case Miss(None, _) =>
    case Miss(Some(k), block) =>
      PlaceOutcome(disk, m, parent, obj, block, SlotOff(k), true);
    case Hit(child, k, block) =>
      var f := MapFree(m, child.sector, child.length);
      if f.status == OK {
        PlaceOutcome(disk, f.buf, parent, obj, block, SlotOff(k), false);
      }
  }

  /** Storing over an existing object frees its old extent before allocating: the
      allocation runs on the map `map_free` left, in place at the entry found, and a full
      map stops the store with the map, the disc and the object as they were. */
  lemma OverwriteFreesFirst(disk: Disk, m: seq<byte>, parent: Object, obj: Object, child: Object, k: nat, block: seq<byte>)
    requires IsMap(m) && Count(m) <= FSMAP_MAX_ENT && Loaded(obj) && InDir(block, k)
    ensures var f := MapFree(m, child.sector, child.length);
      var r := StoreAt(disk, m, parent, obj, Hit(child, k, block));
      && IsMap(f.buf) && Count(f.buf) <= FSMAP_MAX_ENT
      && (f.status == MapFull ==> r == Stage(MapFull, disk, m, obj))
      && (f.status == OK ==> r == Place(disk, f.buf, parent, obj, block, SlotOff(k), false))
  {
  }

  /** What a directory block looks like after `dir_update` (and, when `opening`,
      `dir_makeslot`) put a non-empty 7-bit name at entry k: header and footer are
      intact, `search`'s loop passes the same entries as before to stop at entry k, and
      the entry decodes to something that describes the object written. */
  lemma UpdatedBlockFinds(block: seq<byte>, k: nat, opening: bool, o: Object)
    requires WellFormed(block) && InDir(block, k)
    requires opening ==> SlotOff(k) + DIR_ENT_SIZE <= Ftr(block)
    requires 1 <= CLen(o.name) <= ADFS_MAX_NAME
    requires forall i :: 0 <= i < CLen(o.name) ==> o.name[i] < 0x80
    requires forall i :: 0 <= i < k ==> Passed(block, CStr(o.name), i)
    ensures var e := EncodeEntry(Opened(block, SlotOff(k), opening), SlotOff(k), o);
      && |e| == |block| && HeaderOk(e) && FooterOk(e)
      && ScanFrom(e, CStr(o.name), 0) == ScanMatch(k)
      && Describes(Decode(e, SlotOff(k), CLen(o.name)), o)
  {
    var off := SlotOff(k);
    var b := Opened(block, off, opening);
    var e := EncodeEntry(b, off, o);
    forall i | 0 <= i < |block| && !(off <= i < |block| - 6)
      ensures e[i] == block[i]
    {
      assert e[i] == b[i];
    }
    EncodedEntryInUse(b, off, o);
    EncodedEntryMatches(b, off, o);
    FoundAfterRewrite(block, e, CStr(o.name), k);
    DecodeEncodeDescribes(b, off, o);
  }

  /** `search` in a parent whose block on the disc is the rewritten block of
      `UpdatedBlockFinds` hits entry k, and the child it decodes describes the object. */
  lemma SearchFindsUpdated(disk: Disk, parent: Object, block: seq<byte>, k: nat, opening: bool, o: Object)
    requires WellFormed(block) && InDir(block, k)
    requires opening ==> SlotOff(k) + DIR_ENT_SIZE <= Ftr(block)
    requires 1 <= CLen(o.name) <= ADFS_MAX_NAME
    requires forall i :: 0 <= i < CLen(o.name) ==> o.name[i] < 0x80
    requires forall i :: 0 <= i < k ==> Passed(block, CStr(o.name), i)
    requires parent.isDir && LoadDir(disk, parent) == Some(EncodeEntry(Opened(block, SlotOff(k), opening), SlotOff(k), o))
    ensures var sr := Search(disk, parent, CStr(o.name));
      && sr.Hit? && sr.slot == k
      && sr.child == Decode(EncodeEntry(Opened(block, SlotOff(k), opening), SlotOff(k), o), SlotOff(k), CLen(o.name))
      && Describes(sr.child, o)
  {
    var e := EncodeEntry(Opened(block, SlotOff(k), opening), SlotOff(k), o);
    UpdatedBlockFinds(block, k, opening, o);
    SearchScans(disk, parent, CStr(o.name), e);
  }

  /** The entry of the old block that entry t of the updated block holds: the same one,
      except past a slot opened at k, where every entry moved up by one. */
  function Source(k: nat, t: nat, opening: bool): nat {
    if opening && t > k then t - 1 else t
  }

  /** Every whole entry t of the updated block other than k is the entry `Source`
      names, with the same first byte and the same key. */
  lemma UpdatedSlot(block: seq<byte>, k: nat, opening: bool, o: Object, t: nat)
    requires InDir(block, k)
    requires opening ==> SlotOff(k) + DIR_ENT_SIZE <= Ftr(block)
    requires t != k && SlotOff(t) + DIR_ENT_SIZE <= Ftr(block)
    ensures var e := EncodeEntry(Opened(block, SlotOff(k), opening), SlotOff(k), o);
      && e[SlotOff(t)] == block[SlotOff(Source(k, t, opening))]
      && Key(e, SlotOff(t)) == Key(block, SlotOff(Source(k, t, opening)))
  {
    if opening && t > k {
      ShiftedSlot(block, k, o, t);
    } else {
      KeptSlot(block, k, opening, o, t);
    }
  }

  /** Past a slot opened at k, entry t holds the old entry t - 1. */
  lemma ShiftedSlot(block: seq<byte>, k: nat, o: Object, t: nat)
    requires SlotOff(k) + DIR_ENT_SIZE <= Ftr(block)
    requires k < t && SlotOff(t) + DIR_ENT_SIZE <= Ftr(block)
    ensures var e := EncodeEntry(Opened(block, SlotOff(k), true), SlotOff(k), o);
      e[SlotOff(t)] == block[SlotOff(t - 1)] && Key(e, SlotOff(t)) == Key(block, SlotOff(t - 1))
  {
    var b := Opened(block, SlotOff(k), true);
    var e := EncodeEntry(b, SlotOff(k), o);
    assert b == DirMakeSlot(block, SlotOff(k));
    ShiftedBytes(block, b, e, SlotOff(k), SlotOff(t), SlotOff(t - 1));
    KeysAgree(e, SlotOff(t), block, SlotOff(t - 1));
  }

  /** An entry past the slot opened at `off` holds the bytes one entry earlier in the old
      block, for blocks given as values. */
  lemma ShiftedBytes(block: seq<byte>, b: seq<byte>, e: seq<byte>, off: nat, x: nat, y: nat)
    requires |b| == |block| == |e| && Ftr(block) <= |block|
    requires off + DIR_ENT_SIZE <= x && y + DIR_ENT_SIZE == x && x + DIR_ENT_SIZE <= Ftr(block)
    requires forall i :: off + DIR_ENT_SIZE <= i < Ftr(block) ==> b[i] == block[i - DIR_ENT_SIZE]
    requires forall i :: 0 <= i < |b| && !(off <= i < off + DIR_ENT_SIZE) ==> e[i] == b[i]
    ensures e[x] == block[y]
    ensures forall i :: x <= i < x + DIR_ENT_SIZE ==> e[i] == block[i - x + y]
  {
    forall i | x <= i < x + DIR_ENT_SIZE
      ensures e[i] == block[i - x + y]
    {
      assert e[i] == b[i];
    }
  }

  /** Before k, and everywhere when no slot was opened, entry t is the old entry t. */
  lemma KeptSlot(block: seq<byte>, k: nat, opening: bool, o: Object, t: nat)
    requires InDir(block, k)
    requires opening ==> SlotOff(k) + DIR_ENT_SIZE <= Ftr(block)
    requires t != k && (opening ==> t < k) && SlotOff(t) + DIR_ENT_SIZE <= Ftr(block)
    ensures var e := EncodeEntry(Opened(block, SlotOff(k), opening), SlotOff(k), o);
      e[SlotOff(t)] == block[SlotOff(t)] && Key(e, SlotOff(t)) == Key(block, SlotOff(t))
  {
    var e := EncodeEntry(Opened(block, SlotOff(k), opening), SlotOff(k), o);
    assert forall i :: SlotOff(t) <= i < SlotOff(t) + DIR_ENT_SIZE ==> e[i] == block[i - SlotOff(t) + SlotOff(t)];
    KeysAgree(e, SlotOff(t), block, SlotOff(t));
  }

  /** The block `dir_update` writes back when it puts `o` at entry k (after
      `dir_makeslot` when `opening`). */
  function Updated(block: seq<byte>, k: nat, opening: bool, o: Object): (r: seq<byte>)
    requires InDir(block, k)
    requires opening ==> SlotOff(k) + DIR_ENT_SIZE <= Ftr(block)
    ensures |r| == |block|
  {
    EncodeEntry(Opened(block, SlotOff(k), opening), SlotOff(k), o)
  }

  /** `dir_update` (after `dir_makeslot` when `opening`) at the entry `search` chose for
      a non-empty 7-bit name keeps a sorted directory sorted: the entries passed sort
      below the name, the entry it stops at sorts above it (or is the end marker), and
      an entry overwritten keeps its place. */
  lemma UpdateKeepsSorted(block: seq<byte>, k: nat, opening: bool, o: Object)
    requires InDir(block, k)
    requires opening ==> SlotOff(k) + DIR_ENT_SIZE <= Ftr(block)
    requires 1 <= CLen(o.name) <= ADFS_MAX_NAME
    requires forall i :: 0 <= i < CLen(o.name) ==> o.name[i] < 0x80
    requires forall i :: 0 <= i < k ==> Passed(block, CStr(o.name), i)
    requires opening ==> block[SlotOff(k)] == 0 || Compare(CStr(o.name), block, SlotOff(k)) == Less
    requires !opening ==> block[SlotOff(k)] != 0 && Compare(CStr(o.name), block, SlotOff(k)) == Same
    requires Sorted(block)
    ensures Sorted(Updated(block, k, opening, o))
  {
    UpdatedMoves(block, k, opening, o);
    UpdatedNewKey(block, k, opening, o);
    SortedAfter(block, Updated(block, k, opening, o), k, opening, CStr(o.name));
  }

  lemma UpdatedMoves(block: seq<byte>, k: nat, opening: bool, o: Object)
    requires InDir(block, k)
    requires opening ==> SlotOff(k) + DIR_ENT_SIZE <= Ftr(block)
    ensures Moved(block, Updated(block, k, opening, o), k, opening)
  {
    var e := Updated(block, k, opening, o);
    forall t | t != k && SlotOff(t) + DIR_ENT_SIZE <= Ftr(block)
      ensures e[SlotOff(t)] == block[SlotOff(Source(k, t, opening))]
      ensures Key(e, SlotOff(t)) == Key(block, SlotOff(Source(k, t, opening)))
    {
      UpdatedSlot(block, k, opening, o, t);
    }
  }

  lemma UpdatedNewKey(block: seq<byte>, k: nat, opening: bool, o: Object)
    requires InDir(block, k)
    requires opening ==> SlotOff(k) + DIR_ENT_SIZE <= Ftr(block)
    requires 1 <= CLen(o.name) <= ADFS_MAX_NAME
    requires forall i :: 0 <= i < CLen(o.name) ==> o.name[i] < 0x80
    ensures NewKey(block, Updated(block, k, opening, o), k, CStr(o.name))
  {
    var off := SlotOff(k);
    var b := Opened(block, off, opening);
    OpenedKeepsEntry(block, off, opening);
    KeysAgree(b, off, block, off);
    EncodedKey(b, off, o);
    EncodedEntryInUse(b, off, o);
    KeyFacts(block, Updated(block, k, opening, o), k, o.name);
  }

  /** `NewKey` from the facts `EncodedKey` gives, with the old key already the one of
      the block before the update. */
  lemma KeyFacts(block: seq<byte>, e: seq<byte>, k: nat, name: seq<byte>)
    requires |e| == |block| && InDir(block, k) && CLen(name) <= ADFS_MAX_NAME
    requires e[SlotOff(k)] != 0
    requires var key := Key(e, SlotOff(k)); var n := CLen(name);
      && (forall i :: 0 <= i < n ==> key[i] == FoldTarget(name[i]))
      && (n < ADFS_MAX_NAME ==> key[n] == 0)
      && (forall i :: n < i < ADFS_MAX_NAME ==> key[i] == Key(block, SlotOff(k))[i])
    ensures NewKey(block, e, k, CStr(name))
  {
    var n := CLen(name);
    if n < ADFS_MAX_NAME {
      assert Key(e, SlotOff(k))[n + 1..] == Key(block, SlotOff(k))[n + 1..];
    }
  }

  /** Every whole entry of e other than k is the entry of `block` that `Source` names,
      with the same first byte and the same key. */
  ghost predicate Moved(block: seq<byte>, e: seq<byte>, k: nat, opening: bool)
    requires |e| == |block|
  {
    forall t {:trigger Source(k, t, opening)} :: t != k && SlotOff(t) + DIR_ENT_SIZE <= Ftr(block) ==>
      && e[SlotOff(t)] == block[SlotOff(Source(k, t, opening))]
      && Key(e, SlotOff(t)) == Key(block, SlotOff(Source(k, t, opening)))
  }

  /** Entry k of e is in use and its key is the folded name, then a NUL when the name
      is shorter than ten bytes, then the old entry k's key. */
  predicate NewKey(block: seq<byte>, e: seq<byte>, k: nat, name: seq<byte>)
    requires |e| == |block| && InDir(block, k) && |name| <= ADFS_MAX_NAME
  {
    var key := Key(e, SlotOff(k));
    var n := |name|;
    && e[SlotOff(k)] != 0
    && (forall i :: 0 <= i < n ==> key[i] == FoldTarget(name[i]))
    && (n < ADFS_MAX_NAME ==> key[n] == 0 && key[n + 1..] == Key(block, SlotOff(k))[n + 1..])
  }

  /** Any block that relates to a sorted block as `dir_update` leaves it, with the entry
      at k being the one `search` chose for the name, is sorted. */
  lemma SortedAfter(block: seq<byte>, e: seq<byte>, k: nat, opening: bool, name: seq<byte>)
    requires |e| == |block| && InDir(block, k) && |name| <= ADFS_MAX_NAME
    requires Moved(block, e, k, opening) && NewKey(block, e, k, name)
    requires forall i :: 0 <= i < k ==> Passed(block, name, i)
    requires opening ==> block[SlotOff(k)] == 0 || Compare(name, block, SlotOff(k)) == Less
    requires !opening ==> block[SlotOff(k)] != 0 && Compare(name, block, SlotOff(k)) == Same
    requires Sorted(block)
    ensures Sorted(e)
  {
    forall j | 0 < j < |e| && Listed(e, j)
      ensures KeyBelow(Key(e, SlotOff(j - 1)), Key(e, SlotOff(j)))
    {
      if j < k {
        PairBefore(block, e, k, opening, j);
      } else if j == k {
        assert Passed(block, name, k - 1);
        PairAt(block, e, k, opening, name);
      } else if j == k + 1 && opening {
        PairAfterOpened(block, e, k, name);
      } else if j == k + 1 {
        CompareKeys(name, block, SlotOff(k), Key(e, SlotOff(k)));
        PairAfterOverwrite(block, e, k, name);
      } else {
        PairPast(block, e, k, opening, j);
      }
    }
  }

  /** Entries in use before k are those of the old block, in the same order. */
  lemma PairBefore(block: seq<byte>, e: seq<byte>, k: nat, opening: bool, j: nat)
    requires |e| == |block| && InDir(block, k) && Moved(block, e, k, opening)
    requires Sorted(block)
    requires 0 < j < k && Listed(e, j)
    ensures KeyBelow(Key(e, SlotOff(j - 1)), Key(e, SlotOff(j)))
  {
    ListedSource(block, e, k, opening, j);
    assert Source(k, j, opening) == j && Source(k, j - 1, opening) == j - 1;
  }

  /** The entry before k was passed, so its key sorts below the new entry's. */
  lemma PairAt(block: seq<byte>, e: seq<byte>, k: nat, opening: bool, name: seq<byte>)
    requires |e| == |block| && InDir(block, k) && |name| <= ADFS_MAX_NAME
    requires Moved(block, e, k, opening) && NewKey(block, e, k, name)
    requires 0 < k && Passed(block, name, k - 1)
    ensures KeyBelow(Key(e, SlotOff(k - 1)), Key(e, SlotOff(k)))
  {
    CompareKeys(name, block, SlotOff(k - 1), Key(e, SlotOff(k)));
    assert Source(k, k - 1, opening) == k - 1;
  }

  /** The entry after an opened slot k is the one `search` stopped at, which the name
      sorts below. */
  lemma PairAfterOpened(block: seq<byte>, e: seq<byte>, k: nat, name: seq<byte>)
    requires |e| == |block| && InDir(block, k) && |name| <= ADFS_MAX_NAME
    requires Moved(block, e, k, true) && NewKey(block, e, k, name)
    requires block[SlotOff(k)] == 0 || Compare(name, block, SlotOff(k)) == Less
    requires Listed(e, k + 1)
    ensures KeyBelow(Key(e, SlotOff(k)), Key(e, SlotOff(k + 1)))
  {
    assert Source(k, k + 1, true) == k;
    assert e[SlotOff(k + 1)] == block[SlotOff(k)];
    CompareKeys(name, block, SlotOff(k), Key(e, SlotOff(k)));
  }

  /** The entry after an overwritten entry k is the old entry k + 1, which the old key,
      and so the new key, sorts below: the new key starts like the old one, because
      `search` matched the name there. */
  lemma PairAfterOverwrite(block: seq<byte>, e: seq<byte>, k: nat, name: seq<byte>)
    requires |e| == |block| && InDir(block, k) && |name| <= ADFS_MAX_NAME
    requires Moved(block, e, k, false) && NewKey(block, e, k, name)
    requires block[SlotOff(k)] != 0 && Key(block, SlotOff(k))[..|name|] == Key(e, SlotOff(k))[..|name|]
    requires Listed(block, k + 1) ==> KeyBelow(Key(block, SlotOff(k)), Key(block, SlotOff(k + 1)))
    requires Listed(e, k + 1)
    ensures KeyBelow(Key(e, SlotOff(k)), Key(e, SlotOff(k + 1)))
  {
    var key := Key(e, SlotOff(k));
    var was := Key(block, SlotOff(k));
    ListedSource(block, e, k, false, k + 1);
    assert Source(k, k + 1, false) == k + 1;
    OverwriteKeyBelow(key, was, Key(block, SlotOff(k + 1)), |name|);
  }

  /** Past k + 1 the entries are the old ones (moved up by one when a slot was
      opened), in the same order. */
  lemma PairPast(block: seq<byte>, e: seq<byte>, k: nat, opening: bool, j: nat)
    requires |e| == |block| && InDir(block, k) && Moved(block, e, k, opening)
    requires !opening ==> block[SlotOff(k)] != 0
    requires Sorted(block)
    requires k + 1 < j && Listed(e, j)
    ensures KeyBelow(Key(e, SlotOff(j - 1)), Key(e, SlotOff(j)))
  {
    var s := Source(k, j, opening);
    ListedSource(block, e, k, opening, j);
    assert Source(k, j - 1, opening) == s - 1;
  }

  /** The old entries that the entries in use up to j came from were in use too. */
  lemma ListedSource(block: seq<byte>, e: seq<byte>, k: nat, opening: bool, j: nat)
    requires |e| == |block| && InDir(block, k) && Moved(block, e, k, opening)
    requires !opening && k <= j ==> block[SlotOff(k)] != 0
    requires Listed(e, j) && (opening ==> j != k)
    ensures Listed(block, Source(k, j, opening))
  {
    var s := Source(k, j, opening);
    forall t | 0 <= t <= s
      ensures block[SlotOff(t)] != 0
    {
      if opening && t >= k {
        assert Source(k, t + 1, opening) == t;
        assert e[SlotOff(t + 1)] != 0;
      } else if t != k {
        assert Source(k, t, opening) == t;
        assert e[SlotOff(t)] != 0;
      }
    }
  }

  /** The key `dir_update` leaves in an overwritten entry starts like the old one and
      has a NUL where the old one may have had more, so it still sorts below the key
      the old one sorted below. */
  lemma OverwriteKeyBelow(key: seq<byte>, was: seq<byte>, next: seq<byte>, n: nat)
    requires |key| == |was| == ADFS_MAX_NAME && n <= ADFS_MAX_NAME
    requires key[..n] == was[..n]
    requires n < ADFS_MAX_NAME ==> key[n] == 0 && key[n + 1..] == was[n + 1..]
    requires KeyBelow(was, next)
    ensures KeyBelow(key, next)
  {
    if n == ADFS_MAX_NAME {
      assert key == key[..n] && was == was[..n];
    } else if key != was {
      assert key[..n] + [key[n]] + key[n + 1..] == key;
      assert was[..n] + [was[n]] + was[n + 1..] == was;
      assert 0 < was[n];
      assert BelowAt(key, was, n);
      BelowTrans(key, was, next);
    }
  }

  /** After a successful `Place`, with the data clear of the parent's block on the
      disc, the data reads back from the start sector chosen. */
  lemma PlaceThenRead(disk: Disk, m: seq<byte>, parent: Object, obj: Object, block: seq<byte>, off: nat, opening: bool)
    requires IsMap(m) && Count(m) <= FSMAP_MAX_ENT && Loaded(obj)
    requires !opening ==> off + DIR_ENT_SIZE <= |block|
    requires |block| == parent.length
    requires Place(disk, m, parent, obj, block, off, opening).status == OK
    requires Apart(Place(disk, m, parent, obj, block, off, opening).obj.sector, obj.length, parent.sector, parent.length)
    ensures var r := Place(disk, m, parent, obj, block, off, opening);
      Read(r.disk, r.obj.sector, obj.length) == obj.data
  {
    var r := Place(disk, m, parent, obj, block, off, opening);
    PlaceWrites(disk, m, parent, obj, block, off, opening);
    var data := obj.data.value;
    var e := EncodeEntry(Opened(block, off, opening), off, r.obj);
    ReadAfterWrite(disk, r.obj.sector, data);
    ReadAfterDisjointWrite(Write(disk, r.obj.sector, data).value, parent.sector, e, r.obj.sector, obj.length);
  }

  /** After a successful `Place` into entry k of the parent's block, searching the
      parent for the name finds entry k, which describes the object placed and carries
      its start sector. */
  lemma PlaceThenSearch(disk: Disk, m: seq<byte>, parent: Object, obj: Object, block: seq<byte>, k: nat, opening: bool)
    requires IsMap(m) && Count(m) <= FSMAP_MAX_ENT && Loaded(obj)
    requires parent.isDir && |block| == parent.length
    requires WellFormed(block) && InDir(block, k)
    requires 1 <= CLen(obj.name) <= ADFS_MAX_NAME
    requires forall i :: 0 <= i < CLen(obj.name) ==> obj.name[i] < 0x80
    requires forall i :: 0 <= i < k ==> Passed(block, CStr(obj.name), i)
    requires Place(disk, m, parent, obj, block, SlotOff(k), opening).status == OK
    ensures var r := Place(disk, m, parent, obj, block, SlotOff(k), opening);
      && Search(r.disk, parent, CStr(obj.name)).Hit?
      && Search(r.disk, parent, CStr(obj.name)).slot == k
      && Search(r.disk, parent, CStr(obj.name)).child.sector == r.obj.sector
      && Describes(Search(r.disk, parent, CStr(obj.name)).child, r.obj)
  {
    var off := SlotOff(k);
    var r := Place(disk, m, parent, obj, block, off, opening);
    PlaceWrites(disk, m, parent, obj, block, off, opening);
    PlaceOutcome(disk, m, parent, obj, block, off, opening);
    var e := EncodeEntry(Opened(block, off, opening), off, r.obj);
    ReadAfterWrite(Write(disk, r.obj.sector, obj.data.value).value, parent.sector, e);
    SearchFindsUpdated(r.disk, parent, block, k, opening, r.obj);
    SmallMod24(r.obj.sector);
  }

  /** When the entry reused at k holds nothing that could leak into the decode, the
      search after a successful `Place` gives back exactly the object placed, with its
      name cut at the NUL and no contents. */
  lemma PlaceThenSearchExact(disk: Disk, m: seq<byte>, parent: Object, obj: Object, block: seq<byte>, k: nat, opening: bool)
    requires IsMap(m) && Count(m) <= FSMAP_MAX_ENT && Loaded(obj)
    requires parent.isDir && |block| == parent.length
    requires WellFormed(block) && InDir(block, k)
    requires 1 <= CLen(obj.name) <= ADFS_MAX_NAME
    requires forall i :: 0 <= i < CLen(obj.name) ==> obj.name[i] < 0x80
    requires forall i :: 0 <= i < k ==> Passed(block, CStr(obj.name), i)
    requires Place(disk, m, parent, obj, block, SlotOff(k), opening).status == OK
    requires CleanFor(block, SlotOff(k), obj)
    ensures var r := Place(disk, m, parent, obj, block, SlotOff(k), opening);
      && Search(r.disk, parent, CStr(obj.name)).Hit?
      && Search(r.disk, parent, CStr(obj.name)).child == r.obj.(name := CStr(obj.name) + [0], data := None)
  {
    var off := SlotOff(k);
    var r := Place(disk, m, parent, obj, block, off, opening);
    PlaceWrites(disk, m, parent, obj, block, off, opening);
    PlaceOutcome(disk, m, parent, obj, block, off, opening);
    var b := Opened(block, off, opening);
    var e := EncodeEntry(b, off, r.obj);
    ReadAfterWrite(Write(disk, r.obj.sector, obj.data.value).value, parent.sector, e);
    SearchFindsUpdated(r.disk, parent, block, k, opening, r.obj);
    OpenedKeepsEntry(block, off, opening);
    CleanForCarries(block, b, off, obj, r.obj);
    DecodeEncodeExact(b, off, r.obj);
  }

  /** Cleanliness of an entry depends only on its own 26 bytes and on the object's name
      and addresses, none of which `dir_makeslot` or the choice of start sector change. */
  lemma CleanForCarries(block: seq<byte>, b: seq<byte>, off: nat, o: Object, o2: Object)
    requires off + DIR_ENT_SIZE <= |block| == |b|
    requires b[off..off + DIR_ENT_SIZE] == block[off..off + DIR_ENT_SIZE]
    requires o2 == o.(sector := o2.sector)
    requires CleanFor(block, off, o)
    ensures CleanFor(b, off, o2)
  {
    assert forall i :: off <= i < off + DIR_ENT_SIZE ==> b[i] == b[off..off + DIR_ENT_SIZE][i - off];
  }

  /** A successful `Place` at the entry `search` chose for a non-empty 7-bit name leaves
      a sorted parent directory sorted on the disc. */
  lemma PlaceKeepsSorted(disk: Disk, m: seq<byte>, parent: Object, obj: Object, block: seq<byte>, k: nat, opening: bool)
    requires IsMap(m) && Count(m) <= FSMAP_MAX_ENT && Loaded(obj)
    requires |block| == parent.length && InDir(block, k)
    requires 1 <= CLen(obj.name) <= ADFS_MAX_NAME
    requires forall i :: 0 <= i < CLen(obj.name) ==> obj.name[i] < 0x80
    requires forall i :: 0 <= i < k ==> Passed(block, CStr(obj.name), i)
    requires opening ==> block[SlotOff(k)] == 0 || Compare(CStr(obj.name), block, SlotOff(k)) == Less
    requires !opening ==> block[SlotOff(k)] != 0 && Compare(CStr(obj.name), block, SlotOff(k)) == Same
    requires Place(disk, m, parent, obj, block, SlotOff(k), opening).status == OK
    requires Sorted(block)
    ensures var r := Place(disk, m, parent, obj, block, SlotOff(k), opening);
      LoadDir(r.disk, parent).Some? && Sorted(LoadDir(r.disk, parent).value)
  {
    var r := Place(disk, m, parent, obj, block, SlotOff(k), opening);
    PlaceLoads(disk, m, parent, obj, block, k, opening);
    UpdateKeepsSorted(block, k, opening, r.obj);
  }

  /** After a successful `Place` the parent's block reads back as the updated block. */
  lemma PlaceLoads(disk: Disk, m: seq<byte>, parent: Object, obj: Object, block: seq<byte>, k: nat, opening: bool)
    requires IsMap(m) && Count(m) <= FSMAP_MAX_ENT && Loaded(obj)
    requires |block| == parent.length && InDir(block, k)
    requires Place(disk, m, parent, obj, block, SlotOff(k), opening).status == OK
    ensures var r := Place(disk, m, parent, obj, block, SlotOff(k), opening);
      && r.obj.name == obj.name
      && LoadDir(r.disk, parent) == Some(Updated(block, k, opening, r.obj))
  {
    var off := SlotOff(k);
    var r := Place(disk, m, parent, obj, block, off, opening);
    PlaceWrites(disk, m, parent, obj, block, off, opening);
    PlaceOutcome(disk, m, parent, obj, block, off, opening);
    ReadAfterWrite(Write(disk, r.obj.sector, obj.data.value).value, parent.sector, Updated(block, k, opening, r.obj));
  }

  /** The entry `search` offers a new object: the one found, or the free slot. */
  function Target(sr: SearchResult): nat {
    if sr.Hit? then sr.slot else if sr.Miss? && sr.at.Some? then sr.at.value else 0
  }

  /** After a successful `Store`, with the data clear of the parent's block on the disc:
      the data reads back, and searching the parent for the (non-empty, 7-bit) name
      finds an entry that describes the object stored and carries the data's start
      sector. */
  lemma StoreThenSearch(disk: Disk, m: seq<byte>, parent: Object, obj: Object)
    requires IsMap(m) && Count(m) <= FSMAP_MAX_ENT && Loaded(obj)
    requires Store(disk, m, parent, obj).status == OK
    requires 1 <= CLen(obj.name) && forall i :: 0 <= i < CLen(obj.name) ==> obj.name[i] < 0x80
    requires Apart(Store(disk, m, parent, obj).obj.sector, obj.length, parent.sector, parent.length)
    ensures var r := Store(disk, m, parent, obj);
      && Read(r.disk, r.obj.sector, obj.length) == obj.data
      && Search(r.disk, parent, CStr(obj.name)).Hit?
      && Search(r.disk, parent, CStr(obj.name)).child.sector == r.obj.sector
      && Describes(Search(r.disk, parent, CStr(obj.name)).child, r.obj)
  {
    match Search(disk, parent, CStr(obj.name))
    case Miss(Some(k), block) =>
      PlaceThenRead(disk, m, parent, obj, block, SlotOff(k), true);
      PlaceThenSearch(disk, m, parent, obj, block, k, true);
    case Hit(child, k, block) =>
      var f := MapFree(m, child.sector, child.length);
      PlaceThenRead(disk, f.buf, parent, obj, block, SlotOff(k), false);
      PlaceThenSearch(disk, f.buf, parent, obj, block, k, false);
  }

  /** `StoreThenSearch` for a clean target entry: the search gives back exactly the
      object stored. */
  lemma StoreThenSearchExact(disk: Disk, m: seq<byte>, parent: Object, obj: Object)
    requires IsMap(m) && Count(m) <= FSMAP_MAX_ENT && Loaded(obj)
    requires Store(disk, m, parent, obj).status == OK
    requires 1 <= CLen(obj.name) && forall i :: 0 <= i < CLen(obj.name) ==> obj.name[i] < 0x80
    requires var sr := Search(disk, parent, CStr(obj.name));
      !sr.Failed? && InDir(sr.block, Target(sr)) && CleanFor(sr.block, SlotOff(Target(sr)), obj)
    ensures var r := Store(disk, m, parent, obj);
      && Search(r.disk, parent, CStr(obj.name)).Hit?
      && Search(r.disk, parent, CStr(obj.name)).child == r.obj.(name := CStr(obj.name) + [0], data := None)
  {
    match Search(disk, parent, CStr(obj.name))
    case Miss(Some(k), block) =>
      PlaceThenSearchExact(disk, m, parent, obj, block, k, true);
    case Hit(child, k, block) =>
      var f := MapFree(m, child.sector, child.length);
      PlaceThenSearchExact(disk, f.buf, parent, obj, block, k, false);
  }

  /** A successful `Store` of a non-empty 7-bit name leaves a sorted parent directory
      sorted on the disc. */
  lemma StoreKeepsSorted(disk: Disk, m: seq<byte>, parent: Object, obj: Object)
    requires IsMap(m) && Count(m) <= FSMAP_MAX_ENT && Loaded(obj)
    requires Store(disk, m, parent, obj).status == OK
    requires 1 <= CLen(obj.name) && forall i :: 0 <= i < CLen(obj.name) ==> obj.name[i] < 0x80
    requires LoadDir(disk, parent).Some? && Sorted(LoadDir(disk, parent).value)
    ensures var r := Store(disk, m, parent, obj);
      LoadDir(r.disk, parent).Some? && Sorted(LoadDir(r.disk, parent).value)
  {
    match Search(disk, parent, CStr(obj.name))
    case Miss(Some(k), block) =>
      PlaceKeepsSorted(disk, m, parent, obj, block, k, true);
    case Hit(child, k, block) =>
      var f := MapFree(m, child.sector, child.length);
      PlaceKeepsSorted(disk, f.buf, parent, obj, block, k, false);
  }

  // ---------------------------------------------------------------------------
  // save

  datatype SaveResult = SaveResult(status: Status, session: Session, obj: Object)

  /** The end of `save`: after a successful store the map is written back with
      `save_fsmap`; after a failure the cached map is dropped. */
  function Commit(st: Stage): (r: SaveResult)
    requires IsMap(st.buf)
    ensures CacheOk(r.session)
  {
    if st.status == OK then
      var w := SaveFsmap(Session(st.disk, Some(st.buf)));
      SaveResult(w.status, w.session, st.obj)
    else
      SaveResult(st.status, Session(st.disk, None), st.obj)
  }

  /** A failure is returned with the map dropped and the disc as the store step left it;
      after a success the stamped map is cached, and either it was written to sector 0
      (AFS_OK) or nothing was (AFS_WRITE_ERR). */
  lemma CommitOutcome(st: Stage)
    requires IsMap(st.buf)
    ensures Commit(st).obj == st.obj
    ensures st.status != OK ==> Commit(st) == SaveResult(st.status, Session(st.disk, None), st.obj)
    ensures st.status == OK ==> Commit(st).status in {OK, WriteErr}
    ensures st.status == OK ==> Commit(st).session.fsmap == Some(Stamp(st.buf))
    ensures st.status == OK && Commit(st).status == OK ==> Write(st.disk, 0, Stamp(st.buf)) == Some(Commit(st).session.disk)
    ensures st.status == OK && Commit(st).status == OK ==> Read(Commit(st).session.disk, 0, MAP_BYTES) == Some(Stamp(st.buf))
    ensures st.status == OK && Commit(st).status != OK ==> Commit(st).session.disk == st.disk
  {
  }

  /** Writing the map back disturbs nothing outside sector 0 and 1. */
  lemma CommitKeepsRest(st: Stage, sector: nat, n: nat)
    requires IsMap(st.buf) && st.status == OK && Commit(st).status == OK
    requires Apart(0, MAP_BYTES, sector, n)
    ensures Read(Commit(st).session.disk, sector, n) == Read(st.disk, sector, n)
  {
    CommitOutcome(st);
    ReadAfterDisjointWrite(st.disk, 0, Stamp(st.buf), sector, n);
  }

  /** The store step followed by `save_fsmap` (or dropping the map): the statuses it
      can end with, and the one field of the object it changes. */
  function StoreAndCommit(disk: Disk, m: seq<byte>, parent: Object, obj: Object): (r: SaveResult)
    requires IsMap(m) && Count(m) <= FSMAP_MAX_ENT && Loaded(obj)
    ensures CacheOk(r.session)
    ensures r.status in {OK, NameTooLong, NotADir, ReadErr, BrokenDir, DirFull, MapFull, NoSpace, WriteErr, Bug}
    ensures r.obj == obj.(sector := r.obj.sector)
  {
    StoreOutcome(disk, m, parent, obj, Search(disk, parent, CStr(obj.name)));
    CommitOutcome(Store(disk, m, parent, obj));
    Commit(Store(disk, m, parent, obj))
  }

  /** `save`: store the loaded object `obj` under its name in the directory `dest`. A
      cached map with a count byte above 82, which `map_free` and `alloc_write` never
      produce, is reported as AFS_BUG rather than walked past the end of the tables. */
  function Save(s: Session, obj: Object, dest: seq<byte>): (r: SaveResult)
    requires CacheOk(s) && Loaded(obj) && CString(dest)
    ensures CacheOk(r.session)
    ensures r.status in {OK, NotFound, NameTooLong, NotADir, ReadErr, BrokenDir, BadFsmap, DirFull, MapFull, NoSpace, WriteErr, Bug}
  {
    match Find(s.disk, dest)
    case Lost(st) => SaveResult(st, s, obj)
    case Found(parent) =>
      if !parent.isDir then SaveResult(NotADir, s, obj)
      else
        var l := LoadFsmap(s);
        if l.status != OK then SaveResult(l.status, l.session, obj)
        else if Count(l.session.fsmap.value) > FSMAP_MAX_ENT then SaveResult(Bug, Session(s.disk, None), obj)
        else
          StoreAndCommit(s.disk, l.session.fsmap.value, parent, obj)
  }

  /** Before the map: a failed lookup or a destination that is not a directory is
      returned with nothing changed, and so is a failure to read or check the map. */
  lemma SaveBeforeMap(s: Session, obj: Object, dest: seq<byte>)
    requires CacheOk(s) && Loaded(obj) && CString(dest)
    ensures Find(s.disk, dest).Lost? ==> Save(s, obj, dest) == SaveResult(Find(s.disk, dest).status, s, obj)
    ensures Find(s.disk, dest).Found? && !Find(s.disk, dest).obj.isDir ==> Save(s, obj, dest) == SaveResult(NotADir, s, obj)
    ensures Find(s.disk, dest).Found? && Find(s.disk, dest).obj.isDir && LoadFsmap(s).status != OK ==>
      Save(s, obj, dest) == SaveResult(LoadFsmap(s).status, s, obj)
  {
  }

  /** The outcomes of `save` once the map is loaded: after a success the map on the disc
      is the cached map, with valid checksums; a failure drops the cached map, and the
      failures that come before any write leave the disc as it was. Only the object's
      start sector changes. */
  lemma SaveOutcome(s: Session, obj: Object, dest: seq<byte>)
    requires CacheOk(s) && Loaded(obj) && CString(dest)
    requires Find(s.disk, dest).Found? && Find(s.disk, dest).obj.isDir && LoadFsmap(s).status == OK
    ensures var r := Save(s, obj, dest);
      && r.obj == obj.(sector := r.obj.sector)
      && (r.status == OK ==> r.session.fsmap.Some? && ChecksumsOk(r.session.fsmap.value))
      && (r.status == OK ==> Read(r.session.disk, 0, MAP_BYTES) == r.session.fsmap)
      && (r.status != OK && r.status != WriteErr ==> r.session.fsmap.None?)
      && (r.status in {NameTooLong, NotADir, ReadErr, BrokenDir, DirFull, MapFull, NoSpace} ==> r.session.disk == s.disk)
      && (r.status in {DirFull, MapFull, NoSpace} ==> r.obj == obj)
  {
    var parent := Find(s.disk, dest).obj;
    var m := LoadFsmap(s).session.fsmap.value;
    if Count(m) <= FSMAP_MAX_ENT {
      var sr := Search(s.disk, parent, CStr(obj.name));
      StoreOutcome(s.disk, m, parent, obj, sr);
      var st := Store(s.disk, m, parent, obj);
      assert st == StoreAt(s.disk, m, parent, obj, sr);
      CommitOutcome(st);
      assert Save(s, obj, dest) == Commit(st);
    }
  }

  /** The round trip of `save`: after a success, with the data, the destination
      directory and the map in sector 0 all clear of each other on the disc, the data
      reads back from the start sector `save` chose, and searching the destination for
      the object's (non-empty, 7-bit) name finds an entry that carries that start sector
      and describes the object saved: its name, the low 24 bits of its length and
      addresses, and all its attributes. */
  lemma SaveThenFind(s: Session, obj: Object, dest: seq<byte>)
    requires CacheOk(s) && Loaded(obj) && CString(dest)
    requires Save(s, obj, dest).status == OK
    requires 1 <= CLen(obj.name) && forall i :: 0 <= i < CLen(obj.name) ==> obj.name[i] < 0x80
    requires Find(s.disk, dest).Found?
    requires var p := Find(s.disk, dest).obj; var r := Save(s, obj, dest);
      && Apart(0, MAP_BYTES, p.sector, p.length)
      && Apart(0, MAP_BYTES, r.obj.sector, obj.length)
      && Apart(r.obj.sector, obj.length, p.sector, p.length)
    ensures var p := Find(s.disk, dest).obj; var r := Save(s, obj, dest);
      && Read(r.session.disk, r.obj.sector, obj.length) == obj.data
      && Search(r.session.disk, p, CStr(obj.name)).Hit?
      && Search(r.session.disk, p, CStr(obj.name)).child.sector == r.obj.sector
      && Describes(Search(r.session.disk, p, CStr(obj.name)).child, r.obj)
  {
    var parent := Find(s.disk, dest).obj;
    var m := LoadFsmap(s).session.fsmap.value;
    var st := Store(s.disk, m, parent, obj);
    assert Save(s, obj, dest) == Commit(st);
    CommitOutcome(st);
    StoreThenSearch(s.disk, m, parent, obj);
    CommitKeepsRest(st, st.obj.sector, obj.length);
    CommitKeepsRest(st, parent.sector, parent.length);
    SearchReadsOnlyTheBlock(Commit(st).session.disk, st.disk, parent, CStr(obj.name));
  }

  /** The round trip of `save` when the entry it reuses is clean (no top bit in a name
      byte past the new name's NUL, and the top bytes of the three 32-bit fields already
      the object's): the destination's entry for the name decodes to exactly the object
      saved, with its name cut at the NUL and no contents. */
  lemma SaveThenFindExact(s: Session, obj: Object, dest: seq<byte>)
    requires CacheOk(s) && Loaded(obj) && CString(dest)
    requires Save(s, obj, dest).status == OK
    requires 1 <= CLen(obj.name) && forall i :: 0 <= i < CLen(obj.name) ==> obj.name[i] < 0x80
    requires Find(s.disk, dest).Found?
    requires var p := Find(s.disk, dest).obj; var r := Save(s, obj, dest);
      && Apart(0, MAP_BYTES, p.sector, p.length)
      && Apart(0, MAP_BYTES, r.obj.sector, obj.length)
      && Apart(r.obj.sector, obj.length, p.sector, p.length)
    requires var sr := Search(s.disk, Find(s.disk, dest).obj, CStr(obj.name));
      !sr.Failed? && InDir(sr.block, Target(sr)) && CleanFor(sr.block, SlotOff(Target(sr)), obj)
    ensures var p := Find(s.disk, dest).obj; var r := Save(s, obj, dest);
      && Search(r.session.disk, p, CStr(obj.name)).Hit?
      && Search(r.session.disk, p, CStr(obj.name)).child == r.obj.(name := CStr(obj.name) + [0], data := None)
  {
    var parent := Find(s.disk, dest).obj;
    var m := LoadFsmap(s).session.fsmap.value;
    var st := Store(s.disk, m, parent, obj);
    assert Save(s, obj, dest) == Commit(st);
    CommitOutcome(st);
    StoreThenSearchExact(s.disk, m, parent, obj);
    CommitKeepsRest(st, parent.sector, parent.length);
    SearchReadsOnlyTheBlock(Commit(st).session.disk, st.disk, parent, CStr(obj.name));
  }

  /** `save` of a non-empty 7-bit name into a sorted directory (whose block the map
      write does not touch) leaves it sorted: `dir_makeslot` and `dir_update` put the
      entry where `search` stopped, which keeps the entries in `search`'s order. */
  lemma SaveKeepsSorted(s: Session, obj: Object, dest: seq<byte>)
    requires CacheOk(s) && Loaded(obj) && CString(dest)
    requires Save(s, obj, dest).status == OK
    requires 1 <= CLen(obj.name) && forall i :: 0 <= i < CLen(obj.name) ==> obj.name[i] < 0x80
    requires Find(s.disk, dest).Found?
    requires var p := Find(s.disk, dest).obj;
      Apart(0, MAP_BYTES, p.sector, p.length) && LoadDir(s.disk, p).Some? && Sorted(LoadDir(s.disk, p).value)
    ensures var p := Find(s.disk, dest).obj; var r := Save(s, obj, dest);
      LoadDir(r.session.disk, p).Some? && Sorted(LoadDir(r.session.disk, p).value)
  {
    var parent := Find(s.disk, dest).obj;
    var m := LoadFsmap(s).session.fsmap.value;
    var st := Store(s.disk, m, parent, obj);
    assert Save(s, obj, dest) == Commit(st);
    CommitOutcome(st);
    StoreKeepsSorted(s.disk, m, parent, obj);
    CommitKeepsRest(st, parent.sector, parent.length);
  }
}

=== FILE: fsmap.dfy ===
/**
  The old-map free-space map: sector 0 of the volume, 512 bytes in two halves.
  The first half holds the start sector of each free extent (3 bytes each, from 0x00),
  the second half the length in sectors of each (3 bytes each, from 0x100). Byte 0x1FE
  is the count byte that bounds the table, and bytes 0xFF and 0x1FF are the checksums
  of the two halves.

  The driver walks the table in steps of 3 while the offset is below the count byte,
  so the entries it sees ("live" entries) are the first `Slots(count)` triples; insert
  and remove change the count byte by one, not by three.
 */
module FsMap {
  import opened Wrappers
  import opened Bytes
  import opened DiskImg
  import opened AcornFS

  const FSMAP_MAX_ENT: nat := 82
  const MAP_BYTES: nat := 512
  /** Offset of the lengths half. */
  const SIZES: nat := 0x100
  /** The two checksum bytes. */
  const CHECK0: nat := 0xFF
  const CHECK1: nat := 0x1FF
  /** The count byte. */
  const END: nat := 0x1FE
  /** Bytes taken by 82 three-byte entries in each half. */
  const TABLE_BYTES: nat := 0xF6

  predicate IsMap(m: seq<byte>) {
    |m| == MAP_BYTES
  }

  function Count(m: seq<byte>): byte
    requires IsMap(m)
  {
    m[END]
  }

  // ---------------------------------------------------------------------------
  // Checksums

  /** The body of `checksum`'s loop: add bytes `h[i-1]`, ..., `h[0]` to `sum`, each with
      the carry out of the previous addition, keeping the sum to 8 bits. */
  function ChecksumLoop(h: seq<byte>, i: nat, sum: byte, carry: nat): byte
    requires i <= |h| && carry <= 1
    decreases i
  {
    if i == 0 then sum
    else
      var t := sum + h[i - 1] + carry;
      if t >= 0x100 then ChecksumLoop(h, i - 1, t - 0x100, 1) else ChecksumLoop(h, i - 1, t, 0)
  }

  /** `h[0] + ... + h[i-1]` as a plain integer. */
  function SumTo(h: seq<byte>, i: nat): nat
    requires i <= |h|
  {
    if i == 0 then 0 else SumTo(h, i - 1) + h[i - 1]
  }

  /** `checksum`: starts at 255 and runs from index 254 down to 0; the last carry is
      dropped. Since a carry out of bit 7 is worth 256, which is 1 modulo 255, the sum is
      the end-around-carry sum of bytes 0-254 modulo 255, short of that last carry. */
  function Checksum(h: seq<byte>): (r: byte)
    requires |h| >= 255
    ensures r % 255 == SumTo(h, 255) % 255 || (r + 1) % 255 == SumTo(h, 255) % 255
  {
    ChecksumFromFull(h, 255, 255);
    ChecksumLoop(h, 255, 255, 0)
  }

  /** A run that starts with a sum of 255 and no carry. */
  lemma ChecksumFromFull(h: seq<byte>, i: nat, sum: byte)
    requires i <= |h| && sum == 255
    ensures var r := ChecksumLoop(h, i, sum, 0);
      r % 255 == SumTo(h, i) % 255 || (r + 1) % 255 == SumTo(h, i) % 255
  {
    ChecksumLoopMod(h, i, sum, 0);
    ModPlus255(SumTo(h, i));
  }

  lemma ModPlus255(x: nat)
    ensures (255 + x) % 255 == x % 255
  {
  }

  /** Each step of the loop keeps `sum + carry` modulo 255, because a carry out of bit 7
      is worth 256; at the end only the last carry is missing. */
  lemma {:induction false} ChecksumLoopMod(h: seq<byte>, i: nat, sum: byte, carry: nat)
    requires i <= |h| && carry <= 1
    ensures var r := ChecksumLoop(h, i, sum, carry);
      r % 255 == (sum + carry + SumTo(h, i)) % 255 || (r + 1) % 255 == (sum + carry + SumTo(h, i)) % 255
    decreases i
  {
    if i > 0 {
      var t := sum + h[i - 1] + carry;
      var whole := sum + carry + SumTo(h, i);
      if t >= 0x100 {
        assert ChecksumLoop(h, i, sum, carry) == ChecksumLoop(h, i - 1, t - 0x100, 1);
        ChecksumLoopMod(h, i - 1, t - 0x100, 1);
        assert 255 + ((t - 0x100) + 1 + SumTo(h, i - 1)) == whole;
        ModPlus255((t - 0x100) + 1 + SumTo(h, i - 1));
      } else {
        assert ChecksumLoop(h, i, sum, carry) == ChecksumLoop(h, i - 1, t, 0);
        ChecksumLoopMod(h, i - 1, t, 0);
        assert t + 0 + SumTo(h, i - 1) == whole;
      }
    }
  }

  lemma {:induction false} ChecksumLoopFrame(h: seq<byte>, g: seq<byte>, i: nat, sum: byte, carry: nat)
    requires i <= |h| && i <= |g| && carry <= 1
    requires h[..i] == g[..i]
    ensures ChecksumLoop(h, i, sum, carry) == ChecksumLoop(g, i, sum, carry)
    decreases i
  {
    if i > 0 {
      assert h[i - 1] == h[..i][i - 1] == g[..i][i - 1] == g[i - 1];
      assert h[..i - 1] == h[..i][..i - 1];
      assert g[..i - 1] == g[..i][..i - 1];
      var t := sum + h[i - 1] + carry;
      if t >= 0x100 {
        ChecksumLoopFrame(h, g, i - 1, t - 0x100, 1);
      } else {
        ChecksumLoopFrame(h, g, i - 1, t, 0);
      }
    }
  }

  /** The checksum of a half reads only bytes 0-254, so the byte it is stored in does not
      take part in it. */
  lemma ChecksumReadsFirst255(h: seq<byte>, g: seq<byte>)
    requires |h| >= 255 && |g| >= 255
    requires h[..255] == g[..255]
    ensures Checksum(h) == Checksum(g)
  {
    ChecksumLoopFrame(h, g, 255, 255, 0);
  }

  /** The check `load_fsmap` makes on each half. */
  predicate ChecksumsOk(m: seq<byte>)
    requires IsMap(m)
  {
    Checksum(m[..SIZES]) == m[CHECK0] && Checksum(m[SIZES..]) == m[CHECK1]
  }

  /** What `save_fsmap` does to the buffer before writing it: store each half's checksum
      in its last byte. The result passes `load_fsmap`'s check, and only the two
      checksum bytes change. */
  function Stamp(m: seq<byte>): (r: seq<byte>)
    requires IsMap(m)
    ensures IsMap(r)
    ensures ChecksumsOk(r)
    ensures forall i :: 0 <= i < MAP_BYTES && i != CHECK0 && i != CHECK1 ==> r[i] == m[i]
  {
    var m1 := m[CHECK0 := Checksum(m[..SIZES])];
    var m2 := m1[CHECK1 := Checksum(m1[SIZES..])];
    assert m2[..SIZES][..255] == m[..SIZES][..255];
    ChecksumReadsFirst255(m2[..SIZES], m[..SIZES]);
    assert m2[SIZES..][..255] == m1[SIZES..][..255];
    ChecksumReadsFirst255(m2[SIZES..], m1[SIZES..]);
    m2
  }

  /** Any change to a stored checksum byte makes the map fail the check. */
  lemma CorruptChecksumDetected(m: seq<byte>, v: byte, half: nat)
    requires IsMap(m) && ChecksumsOk(m)
    requires half == CHECK0 || half == CHECK1
    requires v != m[half]
    ensures !ChecksumsOk(m[half := v])
  {
    var m' := m[half := v];
    if half == CHECK0 {
      assert m'[..SIZES][..255] == m[..SIZES][..255];
      ChecksumReadsFirst255(m'[..SIZES], m[..SIZES]);
    } else {
      assert m'[SIZES..][..255] == m[SIZES..][..255];
      ChecksumReadsFirst255(m'[SIZES..], m[SIZES..]);
    }
  }

  /** Two runs of `checksum`'s loop over the same remaining bytes, whose states
      `sum + 256 * carry` differ by d or by d - 255, end with different sums. Each step
      keeps the difference in that pair. */
  lemma {:induction false} ChecksumRunsApart(h: seq<byte>, i: nat, s1: byte, c1: nat, s2: byte, c2: nat, d: int)
    requires i <= |h| && c1 <= 1 && c2 <= 1
    requires 1 <= d <= 254
    requires var e := (s2 + 256 * c2) - (s1 + 256 * c1); e == d || e == d - 255
    ensures ChecksumLoop(h, i, s1, c1) != ChecksumLoop(h, i, s2, c2)
    decreases i
  {
    if i > 0 {
      var t1 := s1 + h[i - 1] + c1;
      var t2 := s2 + h[i - 1] + c2;
      var n1 := if t1 >= 0x100 then 1 else 0;
      var n2 := if t2 >= 0x100 then 1 else 0;
      ChecksumRunsApart(h, i - 1, t1 - 0x100 * n1, n1, t2 - 0x100 * n2, n2, d);
    }
  }

  /** Until the loop reaches byte k, two halves that agree everywhere but at k run in
      step; at k their sums part by the change in that byte. */
  lemma {:induction false} ChecksumPartsAt(h: seq<byte>, g: seq<byte>, i: nat, sum: byte, carry: nat, k: nat)
    requires |h| == |g| && k < i <= |h| && carry <= 1
    requires forall j :: 0 <= j < |h| && j != k ==> h[j] == g[j]
    requires 1 <= g[k] as int - h[k] as int <= 254
    ensures ChecksumLoop(h, i, sum, carry) != ChecksumLoop(g, i, sum, carry)
    decreases i
  {
    var t1 := sum + h[i - 1] + carry;
    var t2 := sum + g[i - 1] + carry;
    var n1 := if t1 >= 0x100 then 1 else 0;
    var n2 := if t2 >= 0x100 then 1 else 0;
    if i - 1 == k {
      ChecksumLoopFrame(g, h, k, t2 - 0x100 * n2, n2);
      assert g[..k] == h[..k];
      ChecksumRunsApart(h, k, t1 - 0x100 * n1, n1, t2 - 0x100 * n2, n2, g[k] as int - h[k] as int);
    } else {
      ChecksumPartsAt(h, g, i - 1, t1 - 0x100 * n1, n1, k);
    }
  }

  /** Changing one of bytes 0-254 of a half by anything other than 0x00 <-> 0xFF changes
      its checksum. */
  lemma ChecksumDetectsByteChange(h: seq<byte>, g: seq<byte>, k: nat)
    requires |h| == |g| >= 255 && k < 255
    requires forall j :: 0 <= j < |h| && j != k ==> h[j] == g[j]
    requires 1 <= g[k] as int - h[k] as int <= 254 || 1 <= h[k] as int - g[k] as int <= 254
    ensures Checksum(h) != Checksum(g)
  {
    if g[k] > h[k] {
      ChecksumPartsAt(h, g, 255, 255, 0, k);
    } else {
      ChecksumPartsAt(g, h, 255, 255, 0, k);
    }
  }

  /** 2^j for a bit number j. */
  function Bit(j: nat): byte
    requires j < 8
  {
    [1, 2, 4, 8, 16, 32, 64, 128][j]
  }

  /** `b ^ (1 << j)`: byte b with bit j flipped. */
  function FlipBit(b: byte, j: nat): (r: byte)
    requires j < 8
    ensures r == b + Bit(j) || r == b - Bit(j)
    ensures r != b
  {
    if (b / Bit(j)) % 2 == 1 then b - Bit(j) else b + Bit(j)
  }

  /** Flipping any one bit anywhere in a map that passes the load check makes it fail
      the check: in bytes 0-254 of a half it changes that half's checksum, and in a
      checksum byte it no longer matches. */
  lemma SingleBitFlipDetected(m: seq<byte>, pos: nat, j: nat)
    requires IsMap(m) && ChecksumsOk(m)
    requires pos < MAP_BYTES && j < 8
    ensures !ChecksumsOk(m[pos := FlipBit(m[pos], j)])
  {
    var m' := m[pos := FlipBit(m[pos], j)];
    if pos == CHECK0 || pos == CHECK1 {
      CorruptChecksumDetected(m, FlipBit(m[pos], j), pos);
    } else if pos < SIZES {
      assert m'[SIZES..] == m[SIZES..];
      ChecksumDetectsByteChange(m[..SIZES], m'[..SIZES], pos);
    } else {
      assert m'[..SIZES] == m[..SIZES];
      ChecksumDetectsByteChange(m[SIZES..], m'[SIZES..], pos - SIZES);
    }
  }

  // ---------------------------------------------------------------------------
  // The cached map

  /** The driver's state: the disc image and the cached map (`fsmap`, NULL when None). */
  datatype Session = Session(disk: Disk, fsmap: Option<seq<byte>>)

  datatype Step = Step(status: Status, session: Session)

  /** The cached map, when there is one, is a 512-byte buffer. */
  predicate CacheOk(s: Session) {
    s.fsmap.Some? ==> IsMap(s.fsmap.value)
  }

  /** `load_fsmap`: a cached map is kept without reading; otherwise sector 0 is read and
      cached only when both halves pass their checksum. */
  function LoadFsmap(s: Session): (r: Step)
    requires CacheOk(s)
    ensures CacheOk(r.session)
    ensures s.fsmap.Some? ==> r == Step(OK, s)
    ensures r.session.disk == s.disk
    ensures r.status == OK <==> r.session.fsmap.Some?
    ensures r.status == OK || r.status == ReadErr || r.status == BadFsmap
    ensures s.fsmap.None? && r.status == OK ==>
      r.session.fsmap == Read(s.disk, 0, MAP_BYTES) && ChecksumsOk(r.session.fsmap.value)
    ensures s.fsmap.None? && Read(s.disk, 0, MAP_BYTES).None? ==> r == Step(ReadErr, s)
    ensures s.fsmap.None? && Read(s.disk, 0, MAP_BYTES).Some? && !ChecksumsOk(Read(s.disk, 0, MAP_BYTES).value) ==>
      r == Step(BadFsmap, s)
  {
    if s.fsmap.Some? then Step(OK, s)
    else
      match Read(s.disk, 0, MAP_BYTES)
      case None => Step(ReadErr, s)
      case Some(m) =>
        if ChecksumsOk(m) then Step(OK, s.(fsmap := Some(m))) else Step(BadFsmap, s)
  }

  /** `save_fsmap`: stamp both checksums into the cached map and write it to sector 0.
      The stamped map stays cached whether or not the write succeeds. */
  function SaveFsmap(s: Session): (r: Step)
    requires CacheOk(s)
    ensures CacheOk(r.session)
    ensures s.fsmap.None? ==> r == Step(Bug, s)
    ensures s.fsmap.Some? ==> r.session.fsmap == Some(Stamp(s.fsmap.value))
    ensures r.status == OK || r.status == WriteErr || r.status == Bug
    ensures r.status == OK ==> Read(r.session.disk, 0, MAP_BYTES) == r.session.fsmap
    ensures r.status == OK ==> Write(s.disk, 0, r.session.fsmap.value) == Some(r.session.disk)
    ensures r.status != OK ==> r.session.disk == s.disk
  {
    if s.fsmap.None? then Step(Bug, s)
    else
      var m := Stamp(s.fsmap.value);
      match Write(s.disk, 0, m)
      case None => Step(WriteErr, s.(fsmap := Some(m)))
      case Some(d) =>
        ReadAfterWrite(s.disk, 0, m);
        Step(OK, Session(d, Some(m)))
  }

  /** A map that `save_fsmap` wrote is accepted by the next `load_fsmap` that has to read
      it from the disc, and is the map that was cached. */
  lemma SaveThenLoad(s: Session)
    requires CacheOk(s)
    requires SaveFsmap(s).status == OK
    ensures var r := SaveFsmap(s);
      LoadFsmap(Session(r.session.disk, None)) == Step(OK, r.session)
  {
    var r := SaveFsmap(s);
    assert r.session.fsmap == Some(Stamp(s.fsmap.value));
  }

  /** A map written with valid checksums that then has one bit flipped on the disc is
      refused by the next `load_fsmap` that reads it: AFS_BAD_FSMAP, nothing cached. */
  lemma FlippedMapRejected(s: Session, m: seq<byte>, pos: nat, j: nat)
    requires s.fsmap.None? && IsMap(m) && ChecksumsOk(m)
    requires pos < MAP_BYTES && j < 8
    requires Read(s.disk, 0, MAP_BYTES) == Some(m[pos := FlipBit(m[pos], j)])
    ensures LoadFsmap(s) == Step(BadFsmap, s)
  {
    SingleBitFlipDetected(m, pos, j);
  }

  // ---------------------------------------------------------------------------
  // The live entries

  datatype Extent = Extent(start: nat, len: nat)

  /** How many entries `for (ent = 0; ent < end; ent += 3)` visits. */
  function Slots(end: nat): nat {
    (end + 2) / 3
  }

  /** The k-th triple of each half, live or not. */
  function EntryAt(m: seq<byte>, k: nat): Extent
    requires IsMap(m) && k < 85
  {
    Extent(Get24(m, 3 * k), Get24(m, SIZES + 3 * k))
  }

  /** The entries the driver walks. */
  function Live(m: seq<byte>): (r: seq<Extent>)
    requires IsMap(m)
    ensures |r| == Slots(Count(m)) <= 85
    ensures forall k :: 0 <= k < |r| ==> r[k] == EntryAt(m, k)
  {
    var n := Slots(Count(m));
    seq(n, k requires 0 <= k < n => EntryAt(m, k))
  }

  /** Bytes of the map outside both entry tables and the count byte. */
  predicate OutsideTables(i: nat) {
    TABLE_BYTES <= i < SIZES || SIZES + TABLE_BYTES <= i < END || i == CHECK1
  }

  predicate SameTriple(a: seq<byte>, oa: nat, b: seq<byte>, ob: nat)
    requires oa + 3 <= |a| && ob + 3 <= |b|
  {
    a[oa] == b[ob] && a[oa + 1] == b[ob + 1] && a[oa + 2] == b[ob + 2]
  }

  lemma EntryAtFrame(a: seq<byte>, ka: nat, b: seq<byte>, kb: nat)
    requires IsMap(a) && IsMap(b) && ka < 85 && kb < 85
    requires SameTriple(a, 3 * ka, b, 3 * kb) && SameTriple(a, SIZES + 3 * ka, b, SIZES + 3 * kb)
    ensures EntryAt(a, ka) == EntryAt(b, kb)
  {
  }

  /** Writing the count byte leaves every triple the driver can walk in place. */
  lemma EntryAtIgnoresCount(m: seq<byte>, v: byte, k: nat)
    requires IsMap(m) && k < 84
    ensures EntryAt(m[END := v], k) == EntryAt(m, k)
  {
    EntryAtFrame(m[END := v], k, m, k);
  }

  function Insert<T>(s: seq<T>, j: nat, x: T): (r: seq<T>)
    requires j <= |s|
  {
    s[..j] + [x] + s[j..]
  }

  lemma InsertAt<T>(s: seq<T>, j: nat, x: T, k: nat)
    requires j <= |s| && k <= |s|
    ensures k < j ==> Insert(s, j, x)[k] == s[k]
    ensures k == j ==> Insert(s, j, x)[k] == x
    ensures j < k ==> Insert(s, j, x)[k] == s[k - 1]
  {
  }

  function Remove<T>(s: seq<T>, j: nat): (r: seq<T>)
    requires j < |s|
  {
    s[..j] + s[j + 1..]
  }

  lemma RemoveAt<T>(s: seq<T>, j: nat, x: T, k: nat)
    requires j < |s| && k < |s|
    ensures k < j ==> (Remove(s, j) + [x])[k] == s[k]
    ensures j <= k < |s| - 1 ==> (Remove(s, j) + [x])[k] == s[k + 1]
    ensures k == |s| - 1 ==> (Remove(s, j) + [x])[k] == x
  {
  }

  /** `adfs_put24` of a start and a length into the triples at `ent` of both halves. */
  function PutEntry(m: seq<byte>, ent: nat, start: nat, len: nat): (r: seq<byte>)
    requires IsMap(m) && ent + 3 <= TABLE_BYTES
    ensures IsMap(r)
    ensures forall i :: 0 <= i < MAP_BYTES && !(ent <= i < ent + 3) && !(SIZES + ent <= i < SIZES + ent + 3) ==> r[i] == m[i]
  {
    Put24(Put24(m, ent, start), SIZES + ent, len)
  }

  lemma PutEntryAt(m: seq<byte>, j: nat, start: nat, len: nat, k: nat)
    requires IsMap(m) && 3 * j + 3 <= TABLE_BYTES && k < 85
    ensures k == j ==> EntryAt(PutEntry(m, 3 * j, start, len), k) == Extent(start % TWO24, len % TWO24)
    ensures k != j ==> EntryAt(PutEntry(m, 3 * j, start, len), k) == EntryAt(m, k)
  {
    var m1 := Put24(m, 3 * j, start);
    var r := PutEntry(m, 3 * j, start, len);
    if k == j {
      assert SameTriple(r, 3 * k, m1, 3 * k);
      assert Get24(r, 3 * k) == Get24(m1, 3 * k);
    } else {
      EntryAtFrame(r, k, m, k);
    }
  }

  /** `map_free`'s two memmoves: `bytes` bytes of each half move up one triple from `ent`. */
  function ShiftUp(m: seq<byte>, ent: nat, bytes: nat): (r: seq<byte>)
    requires IsMap(m) && ent + 3 + bytes <= TABLE_BYTES
    ensures IsMap(r)
    ensures forall i :: ent + 3 <= i < ent + 3 + bytes ==> r[i] == m[i - 3]
    ensures forall i :: SIZES + ent + 3 <= i < SIZES + ent + 3 + bytes ==> r[i] == m[i - 3]
    ensures forall i :: 0 <= i < MAP_BYTES && !(ent + 3 <= i < ent + 3 + bytes) && !(SIZES + ent + 3 <= i < SIZES + ent + 3 + bytes) ==> r[i] == m[i]
  {
    Move(Move(m, ent + 3, ent, bytes), SIZES + ent + 3, SIZES + ent, bytes)
  }

  lemma ShiftUpAt(m: seq<byte>, ent: nat, bytes: nat, k: nat)
    requires IsMap(m) && ent + 3 + bytes <= TABLE_BYTES && k < 85
    ensures 3 * k + 3 <= ent + 3 ==> EntryAt(ShiftUp(m, ent, bytes), k) == EntryAt(m, k)
    ensures ent + 3 <= 3 * k && 3 * k + 3 <= ent + 3 + bytes ==> EntryAt(ShiftUp(m, ent, bytes), k) == EntryAt(m, k - 1)
  {
    var r := ShiftUp(m, ent, bytes);
    if 3 * k + 3 <= ent + 3 {
      EntryAtFrame(r, k, m, k);
    } else if ent + 3 <= 3 * k && 3 * k + 3 <= ent + 3 + bytes {
      EntryAtFrame(r, k, m, k - 1);
    }
  }

  /** `alloc_write`'s two memmoves: `bytes` bytes of each half move down one triple to `ent`. */
  function ShiftDown(m: seq<byte>, ent: nat, bytes: nat): (r: seq<byte>)
    requires IsMap(m) && ent + 3 + bytes <= SIZES
    ensures IsMap(r)
    ensures forall i :: ent <= i < ent + bytes ==> r[i] == m[i + 3]
    ensures forall i :: SIZES + ent <= i < SIZES + ent + bytes ==> r[i] == m[i + 3]
    ensures forall i :: 0 <= i < MAP_BYTES && !(ent <= i < ent + bytes) && !(SIZES + ent <= i < SIZES + ent + bytes) ==> r[i] == m[i]
  {
    Move(Move(m, ent, ent + 3, bytes), SIZES + ent, SIZES + ent + 3, bytes)
  }

  lemma ShiftDownAt(m: seq<byte>, ent: nat, bytes: nat, k: nat)
    requires IsMap(m) && ent + 3 + bytes <= SIZES && k < 84
    ensures 3 * k + 3 <= ent ==> EntryAt(ShiftDown(m, ent, bytes), k) == EntryAt(m, k)
    ensures ent <= 3 * k && 3 * k + 3 <= ent + bytes ==> EntryAt(ShiftDown(m, ent, bytes), k) == EntryAt(m, k + 1)
  {
    var r := ShiftDown(m, ent, bytes);
    if 3 * k + 3 <= ent {
      EntryAtFrame(r, k, m, k);
    } else if ent <= 3 * k && 3 * k + 3 <= ent + bytes {
      EntryAtFrame(r, k, m, k + 1);
    }
  }

  // ---------------------------------------------------------------------------
  // map_free

  /** The freed extent can be added to the end of this one. */
  predicate Coalesces(e: Extent, sector: nat) {
    e.start + e.len == sector
  }

  /** `map_free`'s loop stops at entry k: it coalesces, or it starts after the sector. */
  predicate FreeStopsAt(m: seq<byte>, sector: nat, k: nat)
    requires IsMap(m) && k < 85
  {
    Coalesces(EntryAt(m, k), sector) || EntryAt(m, k).start > sector
  }

  /** Where `map_free`'s loop stops, scanning from entry k: the first live entry at which
      it stops, or the number of live entries. */
  function FreeStop(m: seq<byte>, sector: nat, k: nat): (j: nat)
    requires IsMap(m) && k <= Slots(Count(m))
    ensures k <= j <= Slots(Count(m))
    ensures forall i :: k <= i < j ==> !FreeStopsAt(m, sector, i)
    ensures j < Slots(Count(m)) ==> FreeStopsAt(m, sector, j)
    decreases Slots(Count(m)) - k
  {
    if k == Slots(Count(m)) || FreeStopsAt(m, sector, k) then k else FreeStop(m, sector, k + 1)
  }

  datatype MapResult = MapResult(status: Status, buf: seq<byte>)

  /** The map `map_free` builds when the freed extent follows entry j: its length goes up
      by n. */
  function GrowBuf(m: seq<byte>, j: nat, n: nat): (r: seq<byte>)
    requires IsMap(m) && j < 85
    ensures IsMap(r)
    ensures j < 84 ==> Count(r) == Count(m)
    ensures 3 * j + 3 <= TABLE_BYTES ==> forall i :: 0 <= i < MAP_BYTES && OutsideTables(i) ==> r[i] == m[i]
  {
    Put24(m, SIZES + 3 * j, EntryAt(m, j).len + n)
  }

  /** Entry k of the map `map_free` builds by growing entry j. */
  lemma GrowBufAt(m: seq<byte>, j: nat, n: nat, k: nat)
    requires IsMap(m) && j < 85 && k < 85
    ensures k == j ==> EntryAt(GrowBuf(m, j, n), k) == Extent(EntryAt(m, j).start, (EntryAt(m, j).len + n) % TWO24)
    ensures k != j ==> EntryAt(GrowBuf(m, j, n), k) == EntryAt(m, k)
  {
    if k != j {
      EntryAtFrame(GrowBuf(m, j, n), k, m, k);
    } else {
      assert SameTriple(GrowBuf(m, j, n), 3 * k, m, 3 * k);
    }
  }

  /** The map `map_free` builds when it inserts an extent as entry j: both halves shift
      up from j, the extent goes in at j, and the count byte goes up by one. */
  function InsertBuf(m: seq<byte>, j: nat, sector: nat, n: nat): (r: seq<byte>)
    requires IsMap(m) && Count(m) < FSMAP_MAX_ENT && j <= Slots(Count(m))
    ensures IsMap(r) && Count(r) == Count(m) + 1
    ensures forall i :: 0 <= i < MAP_BYTES && OutsideTables(i) ==> r[i] == m[i]
  {
    PutEntry(OpenSlot(m, j), 3 * j, sector, n)[END := Count(m) + 1]
  }

  /** The first half of an insert: when j is a live entry, both halves move up one triple
      from j; otherwise nothing moves. */
  function OpenSlot(m: seq<byte>, j: nat): (r: seq<byte>)
    requires IsMap(m) && Count(m) < FSMAP_MAX_ENT && j <= Slots(Count(m))
    ensures IsMap(r)
    ensures forall i :: 0 <= i < MAP_BYTES && OutsideTables(i) ==> r[i] == m[i]
  {
    if j < Slots(Count(m)) then ShiftUp(m, 3 * j, (Count(m) - 3 * j) * 3) else m
  }

  /** `map_free`: give the extent of `length` bytes at `sector` back to the map. */
  function MapFree(m: seq<byte>, sector: u32, length: u32): (r: MapResult)
    requires IsMap(m)
    ensures IsMap(r.buf)
    ensures r.status == OK || r.status == MapFull
    ensures r.status == MapFull ==> r.buf == m && Count(m) >= FSMAP_MAX_ENT
    ensures Count(m) <= FSMAP_MAX_ENT ==> Count(r.buf) <= FSMAP_MAX_ENT
    ensures Count(m) <= FSMAP_MAX_ENT ==> forall i :: 0 <= i < MAP_BYTES && OutsideTables(i) ==> r.buf[i] == m[i]
  {
    var end := Count(m) as nat;
    var n := Sectors(length);
    var j := FreeStop(m, sector, 0);
    if j < Slots(end) && Coalesces(EntryAt(m, j), sector) then
      MapResult(OK, GrowBuf(m, j, n))
    else if end >= FSMAP_MAX_ENT then
      MapResult(MapFull, m)
    else
      MapResult(OK, InsertBuf(m, j, sector, n))
  }

  /** When `map_free` stops at an entry the freed extent follows, it grows that entry
      (see `LiveAfterGrow`) and succeeds. */
  lemma MapFreeCoalesce(m: seq<byte>, sector: u32, length: u32)
    requires IsMap(m) && Count(m) <= FSMAP_MAX_ENT
    requires FreeStop(m, sector, 0) < |Live(m)|
    requires Coalesces(Live(m)[FreeStop(m, sector, 0)], sector)
    ensures MapFree(m, sector, length) == MapResult(OK, GrowBuf(m, FreeStop(m, sector, 0), Sectors(length)))
  {
    var j := FreeStop(m, sector, 0);
    assert Live(m)[j] == EntryAt(m, j);
  }

  /** Growing entry j by n sectors adds n to its length (to 24 bits); the count byte and
      every other live entry stay as they were. */
  lemma LiveAfterGrow(m: seq<byte>, j: nat, n: nat)
    requires IsMap(m) && Count(m) <= FSMAP_MAX_ENT && j < Slots(Count(m))
    ensures Count(GrowBuf(m, j, n)) == Count(m)
    ensures Live(GrowBuf(m, j, n)) == Live(m)[j := Extent(EntryAt(m, j).start, (EntryAt(m, j).len + n) % TWO24)]
  {
    var want := Live(m)[j := Extent(EntryAt(m, j).start, (EntryAt(m, j).len + n) % TWO24)];
    forall k | 0 <= k < |want|
      ensures Live(GrowBuf(m, j, n))[k] == want[k]
    {
      GrowBufAt(m, j, n, k);
    }
  }

  /** Otherwise, when the count byte is below 82, `map_free` inserts the extent as entry
      j, the first entry starting after the sector or the end of the table (see
      `LiveAfterInsert`), and succeeds. */
  lemma MapFreeInsert(m: seq<byte>, sector: u32, length: u32)
    requires IsMap(m) && Count(m) < FSMAP_MAX_ENT
    requires var j := FreeStop(m, sector, 0); !(j < |Live(m)| && Coalesces(Live(m)[j], sector))
    ensures MapFree(m, sector, length) == MapResult(OK, InsertBuf(m, FreeStop(m, sector, 0), sector, Sectors(length)))
  {
    var j := FreeStop(m, sector, 0);
    if j < |Live(m)| {
      assert Live(m)[j] == EntryAt(m, j);
    }
  }

  /** `map_free` reports a full map exactly when the count byte is 82 or more and the
      freed extent does not follow the entry the loop stops at, whether the loop stopped
      at an entry that starts after the sector or ran off the end; the map is then left
      as it was. */
  lemma MapFreeFull(m: seq<byte>, sector: u32, length: u32)
    requires IsMap(m)
    ensures var j := FreeStop(m, sector, 0);
      (MapFree(m, sector, length).status == MapFull) <==>
      (Count(m) >= FSMAP_MAX_ENT && !(j < |Live(m)| && Coalesces(Live(m)[j], sector)))
    ensures MapFree(m, sector, length).status == MapFull ==> MapFree(m, sector, length) == MapResult(MapFull, m)
  {
    var j := FreeStop(m, sector, 0);
    if j < |Live(m)| {
      assert Live(m)[j] == EntryAt(m, j);
    }
  }

  /** Inserting the extent as entry j shifts the later entries up one slot and adds one
      to the count byte. The live entries afterwards are the first `Slots(count + 1)` of
      the inserted sequence. */
  lemma LiveAfterInsert(m: seq<byte>, j: nat, sector: nat, n: nat)
    requires IsMap(m) && Count(m) < FSMAP_MAX_ENT && j <= Slots(Count(m))
    ensures Slots(Count(m) + 1) <= |Live(m)| + 1
    ensures Live(InsertBuf(m, j, sector, n)) == Insert(Live(m), j, Extent(sector % TWO24, n % TWO24))[..Slots(Count(m) + 1)]
  {
    var x := Extent(sector % TWO24, n % TWO24);
    forall k | 0 <= k < Slots(Count(m) + 1)
      ensures EntryAt(InsertBuf(m, j, sector, n), k) == Inserted(m, j, x, k)
    {
      InsertBufAt(m, j, sector, n, k);
    }
    LiveInserted(m, InsertBuf(m, j, sector, n), j, x);
  }

  /** Entry k of the table after inserting x as entry j. */
  function Inserted(m: seq<byte>, j: nat, x: Extent, k: nat): Extent
    requires IsMap(m) && k < 85
  {
    if k < j then EntryAt(m, k) else if k == j then x else EntryAt(m, k - 1)
  }

  lemma LiveInserted(m: seq<byte>, r: seq<byte>, j: nat, x: Extent)
    requires IsMap(m) && IsMap(r) && Count(m) < FSMAP_MAX_ENT && Count(r) == Count(m) + 1
    requires j <= Slots(Count(m))
    requires forall k :: 0 <= k < Slots(Count(m) + 1) ==> EntryAt(r, k) == Inserted(m, j, x, k)
    ensures Slots(Count(m) + 1) <= |Live(m)| + 1
    ensures Live(r) == Insert(Live(m), j, x)[..Slots(Count(m) + 1)]
  {
    SlotsStep(Count(m));
    forall k | 0 <= k < Slots(Count(m) + 1)
      ensures Live(r)[k] == Insert(Live(m), j, x)[k]
    {
      InsertAt(Live(m), j, x, k);
      assert Live(r)[k] == EntryAt(r, k);
      if k < j {
        assert Live(m)[k] == EntryAt(m, k);
      } else if j < k {
        assert Live(m)[k - 1] == EntryAt(m, k - 1);
      }
    }
  }


  lemma SlotsStep(end: nat)
    ensures Slots(end) <= Slots(end + 1) <= Slots(end) + 1
    ensures end > 0 ==> Slots(end - 1) <= Slots(end)
  {
  }

  /** The entries a later entry of the shifted region lands in stay inside the moved bytes. */
  lemma ShiftRange(end: nat, j: nat, k: nat)
    requires j < Slots(end) && k <= Slots(end)
    ensures 3 * k <= 3 * j + (end - 3 * j) * 3
  {
  }

  /** Entry k of the map `map_free` builds by inserting at j. */
  lemma InsertBufAt(m: seq<byte>, j: nat, sector: nat, n: nat, k: nat)
    requires IsMap(m) && Count(m) < FSMAP_MAX_ENT && j <= Slots(Count(m))
    requires k < Slots(Count(m) + 1)
    ensures k < 84
    ensures k < j ==> EntryAt(InsertBuf(m, j, sector, n), k) == EntryAt(m, k)
    ensures k == j ==> EntryAt(InsertBuf(m, j, sector, n), k) == Extent(sector % TWO24, n % TWO24)
    ensures j < k ==> EntryAt(InsertBuf(m, j, sector, n), k) == EntryAt(m, k - 1)
  {
    SlotsStep(Count(m));
    EntryAtIgnoresCount(PutEntry(OpenSlot(m, j), 3 * j, sector, n), Count(m) + 1, k);
    PutEntryAt(OpenSlot(m, j), j, sector, n, k);
    if k != j {
      OpenSlotAt(m, j, k);
    }
  }

  lemma OpenSlotAt(m: seq<byte>, j: nat, k: nat)
    requires IsMap(m) && Count(m) < FSMAP_MAX_ENT && j <= Slots(Count(m))
    requires k < Slots(Count(m) + 1) && k != j
    ensures k < 84
    ensures k < j ==> EntryAt(OpenSlot(m, j), k) == EntryAt(m, k)
    ensures j < k ==> EntryAt(OpenSlot(m, j), k) == EntryAt(m, k - 1)
  {
    SlotsStep(Count(m));
    if j < Slots(Count(m)) {
      ShiftRange(Count(m), j, k);
      ShiftUpAt(m, 3 * j, (Count(m) - 3 * j) * 3, k);
    }
  }

  // ---------------------------------------------------------------------------
  // alloc_write

  /** The entry is at least n sectors long. */
  predicate Fits(m: seq<byte>, n: nat, k: nat)
    requires IsMap(m) && k < 85
  {
    EntryAt(m, k).len >= n
  }

  /** The first live entry from k on that holds n sectors, or the number of live entries. */
  function FitStop(m: seq<byte>, n: nat, k: nat): (j: nat)
    requires IsMap(m) && k <= Slots(Count(m))
    ensures k <= j <= Slots(Count(m))
    ensures forall i :: k <= i < j ==> !Fits(m, n, i)
    ensures j < Slots(Count(m)) ==> Fits(m, n, j)
    decreases Slots(Count(m)) - k
  {
    if k == Slots(Count(m)) || Fits(m, n, k) then k else FitStop(m, n, k + 1)
  }

  /** The map `alloc_write` builds when entry j fits exactly: both halves shift down over
      it and the count byte goes down by one. */
  function RemoveBuf(m: seq<byte>, j: nat): (r: seq<byte>)
    requires IsMap(m) && 0 < Count(m) <= FSMAP_MAX_ENT && j < Slots(Count(m))
    ensures IsMap(r) && Count(r) == Count(m) - 1
    ensures forall i :: 0 <= i < MAP_BYTES && OutsideTables(i) ==> r[i] == m[i]
  {
    ShiftDown(m, 3 * j, (Count(m) - 3 * j) * 3)[END := Count(m) - 1]
  }

  /** The map `alloc_write` builds when entry j is longer than the n sectors it gives
      out: the start moves up by n and the length drops by n. */
  function ShrinkBuf(m: seq<byte>, j: nat, n: nat): (r: seq<byte>)
    requires IsMap(m) && j < Slots(Count(m)) && Count(m) <= FSMAP_MAX_ENT && EntryAt(m, j).len >= n
    ensures IsMap(r) && Count(r) == Count(m)
    ensures forall i :: 0 <= i < MAP_BYTES && OutsideTables(i) ==> r[i] == m[i]
  {
    PutEntry(m, 3 * j, EntryAt(m, j).start + n, EntryAt(m, j).len - n)
  }

  /** The map after entry j gives out n sectors. */
  function TakeBuf(m: seq<byte>, j: nat, n: nat): (r: seq<byte>)
    requires IsMap(m) && j < Slots(Count(m)) && Count(m) <= FSMAP_MAX_ENT && EntryAt(m, j).len >= n
    ensures IsMap(r) && Count(r) <= FSMAP_MAX_ENT
    ensures forall i :: 0 <= i < MAP_BYTES && OutsideTables(i) ==> r[i] == m[i]
  {
    if EntryAt(m, j).len == n then RemoveBuf(m, j) else ShrinkBuf(m, j, n)
  }

  /** Entry j of the live entries is the first to hold n sectors. */
  predicate FirstFit(m: seq<byte>, n: nat, j: nat)
    requires IsMap(m)
  {
    j < |Live(m)| && Live(m)[j].len >= n && forall k :: 0 <= k < j ==> Live(m)[k].len < n
  }

  /** Where the object goes and the map that results. */
  datatype Placement = Placement(start: nat, buf: seq<byte>)

  /** The map half of `alloc_write`: take the first live entry holding at least n
      sectors. An exact fit is removed; a longer one is shrunk from the front. */
  function AllocMap(m: seq<byte>, n: nat): (r: Option<Placement>)
    requires IsMap(m) && Count(m) <= FSMAP_MAX_ENT
    ensures r.None? <==> forall k :: 0 <= k < |Live(m)| ==> Live(m)[k].len < n
    ensures r.Some? ==> IsMap(r.value.buf) && Count(r.value.buf) <= FSMAP_MAX_ENT
    ensures r.Some? ==> r.value.start < TWO24
    ensures r.Some? ==> exists j: nat :: FirstFit(m, n, j) && Live(m)[j].start == r.value.start
    ensures r.Some? ==> forall i :: 0 <= i < MAP_BYTES && OutsideTables(i) ==> r.value.buf[i] == m[i]
  {
    var j := FitStop(m, n, 0);
    if j == Slots(Count(m)) then
      assert forall k :: 0 <= k < |Live(m)| ==> Live(m)[k].len < n by {
        forall k | 0 <= k < |Live(m)|
          ensures Live(m)[k].len < n
        {
          assert !Fits(m, n, k);
        }
      }
      None
    else
      assert FirstFit(m, n, j) by {
        forall k | 0 <= k < j
          ensures Live(m)[k].len < n
        {
          assert !Fits(m, n, k);
        }
      }
      Some(Placement(EntryAt(m, j).start, TakeBuf(m, j, n)))
  }

  datatype AllocResult = AllocResult(status: Status, disk: Disk, buf: seq<byte>, obj: Object)

  /** `alloc_write`: place the object by `AllocMap` and write its contents at the chosen
      sector. */
  function AllocWrite(disk: Disk, m: seq<byte>, obj: Object): (r: AllocResult)
    requires IsMap(m) && Count(m) <= FSMAP_MAX_ENT
    requires Loaded(obj)
    ensures IsMap(r.buf) && Count(r.buf) <= FSMAP_MAX_ENT
  {
    WriteAt(disk, m, obj, AllocMap(m, Sectors(obj.length)))
  }

  /** What `alloc_write` does, end to end: NO_SPACE, changing nothing, exactly when no
      live entry holds the object; otherwise the object starts where the first entry
      that holds it starts, and only a successful write changes the disc. */
  lemma AllocWriteOutcome(disk: Disk, m: seq<byte>, obj: Object)
    requires IsMap(m) && Count(m) <= FSMAP_MAX_ENT
    requires Loaded(obj)
    ensures var r := AllocWrite(disk, m, obj);
      && r.status in {OK, WriteErr, NoSpace}
      && (r.status == NoSpace <==> forall k :: 0 <= k < |Live(m)| ==> Live(m)[k].len < Sectors(obj.length))
      && (r.status == NoSpace ==> r == AllocResult(NoSpace, disk, m, obj))
      && (r.status != NoSpace ==> r.obj == obj.(sector := r.obj.sector) && r.obj.sector < TWO24)
      && (r.status != NoSpace ==> exists j: nat :: FirstFit(m, Sectors(obj.length), j) && Live(m)[j].start == r.obj.sector)
      && (r.status == OK ==> Write(disk, r.obj.sector, obj.data.value) == Some(r.disk))
      && (r.status != OK ==> r.disk == disk)
  {
    var a := AllocMap(m, Sectors(obj.length));
    var r := WriteAt(disk, m, obj, a);
    assert a.Some? ==> r.obj.sector == a.value.start;
  }

  /** The status part of `AllocWriteOutcome`, stated through `AllocMap`: NO_SPACE exactly
      when nothing fits, leaving the disc and the object alone; the object only ever gets
      a new start sector. */
  lemma AllocWriteStatus(disk: Disk, m: seq<byte>, obj: Object)
    requires IsMap(m) && Count(m) <= FSMAP_MAX_ENT && Loaded(obj)
    ensures AllocWrite(disk, m, obj).obj == obj.(sector := AllocWrite(disk, m, obj).obj.sector)
    ensures AllocWrite(disk, m, obj).status in {OK, NoSpace, WriteErr}
    ensures AllocWrite(disk, m, obj).status == NoSpace <==> AllocMap(m, Sectors(obj.length)).None?
    ensures AllocWrite(disk, m, obj).status == NoSpace ==> AllocWrite(disk, m, obj).disk == disk && AllocWrite(disk, m, obj).obj == obj
  {
    var p := AllocMap(m, Sectors(obj.length));
    assert AllocWrite(disk, m, obj) == WriteAt(disk, m, obj, p);
    WriteAtStatus(disk, m, obj, p, AllocWrite(disk, m, obj));
  }

  /** `WriteAt`'s status, for a placement and result given as values. */
  lemma WriteAtStatus(disk: Disk, m: seq<byte>, obj: Object, p: Option<Placement>, a: AllocResult)
    requires IsMap(m) && Count(m) <= FSMAP_MAX_ENT && Loaded(obj)
    requires p.Some? ==> IsMap(p.value.buf) && Count(p.value.buf) <= FSMAP_MAX_ENT && p.value.start < TWO24
    requires a == WriteAt(disk, m, obj, p)
    ensures a.obj == obj.(sector := a.obj.sector)
    ensures a.status in {OK, NoSpace, WriteErr}
    ensures a.status == NoSpace <==> p.None?
    ensures a.status == NoSpace ==> a.disk == disk && a.obj == obj
  {
  }

  /** The write half of `alloc_write`, given the placement the map half chose (`None`
      when no entry fits). The map is changed before the write, so a failed write leaves
      the allocation in the map. Nothing changes when no entry fits. */
  function WriteAt(disk: Disk, m: seq<byte>, obj: Object, a: Option<Placement>): (r: AllocResult)
    requires IsMap(m) && Count(m) <= FSMAP_MAX_ENT
    requires Loaded(obj)
    requires a.Some? ==> IsMap(a.value.buf) && Count(a.value.buf) <= FSMAP_MAX_ENT && a.value.start < TWO24
    ensures IsMap(r.buf) && Count(r.buf) <= FSMAP_MAX_ENT
    ensures r.status == OK || r.status == WriteErr || r.status == NoSpace
    ensures r.status == NoSpace <==> a.None?
    ensures a.None? ==> r == AllocResult(NoSpace, disk, m, obj)
    ensures a.Some? ==> r.buf == a.value.buf && r.obj == obj.(sector := a.value.start)
    ensures r.status == OK ==> Write(disk, a.value.start, obj.data.value) == Some(r.disk)
    ensures r.status == WriteErr ==> r.disk == disk && Write(disk, a.value.start, obj.data.value).None?
  {
    match a
    case None => AllocResult(NoSpace, disk, m, obj)
    case Some(p) =>
      var obj' := obj.(sector := p.start);
      match Write(disk, p.start, obj.data.value)
      case Some(d) => AllocResult(OK, d, p.buf, obj')
      case None => AllocResult(WriteErr, disk, p.buf, obj')
  }

  /** An empty object never fits: `sectors(0)` wraps to 2^24 sectors, more than a 24-bit
      length can hold, so saving an empty file reports no space. */
  lemma AllocWriteEmpty(disk: Disk, m: seq<byte>, obj: Object)
    requires IsMap(m) && Count(m) <= FSMAP_MAX_ENT
    requires Loaded(obj) && obj.length == 0
    ensures AllocWrite(disk, m, obj) == AllocResult(NoSpace, disk, m, obj)
  {
    forall k | 0 <= k < |Live(m)|
      ensures Live(m)[k].len < Sectors(obj.length)
    {
      assert Live(m)[k] == EntryAt(m, k);
    }
  }

  /** A fit longer than the object is shrunk in place (see `LiveAfterShrink`): the
      object starts where the first fit started. */
  lemma AllocShrink(m: seq<byte>, n: nat)
    requires IsMap(m) && Count(m) <= FSMAP_MAX_ENT
    requires var j := FitStop(m, n, 0); j < |Live(m)| && Live(m)[j].len > n
    ensures var j := FitStop(m, n, 0);
      AllocMap(m, n) == Some(Placement(Live(m)[j].start, ShrinkBuf(m, j, n)))
  {
    var j := FitStop(m, n, 0);
    assert Live(m)[j] == EntryAt(m, j);
  }

  /** Shrinking entry j by n sectors advances its start by n (to 24 bits) and drops its
      length by n; the count byte and every other live entry stay as they were. */
  lemma LiveAfterShrink(m: seq<byte>, j: nat, n: nat)
    requires IsMap(m) && j < Slots(Count(m)) && Count(m) <= FSMAP_MAX_ENT && EntryAt(m, j).len >= n
    ensures Count(ShrinkBuf(m, j, n)) == Count(m)
    ensures Live(ShrinkBuf(m, j, n)) == Live(m)[j := Extent((Live(m)[j].start + n) % TWO24, Live(m)[j].len - n)]
  {
    assert Live(m)[j] == EntryAt(m, j);
    var want := Live(m)[j := Extent((EntryAt(m, j).start + n) % TWO24, EntryAt(m, j).len - n)];
    forall k | 0 <= k < |want|
      ensures Live(ShrinkBuf(m, j, n))[k] == want[k]
    {
      ShrinkBufAt(m, j, n, k);
    }
  }

  /** Entry k of the map `alloc_write` builds by shrinking entry j. */
  lemma ShrinkBufAt(m: seq<byte>, j: nat, n: nat, k: nat)
    requires IsMap(m) && j < Slots(Count(m)) && Count(m) <= FSMAP_MAX_ENT && EntryAt(m, j).len >= n
    requires k < 85
    ensures k == j ==> EntryAt(ShrinkBuf(m, j, n), k) == Extent((EntryAt(m, j).start + n) % TWO24, EntryAt(m, j).len - n)
    ensures k != j ==> EntryAt(ShrinkBuf(m, j, n), k) == EntryAt(m, k)
  {
    var e := EntryAt(m, j);
    PutEntryAt(m, j, e.start + n, e.len - n, k);
    if k == j {
      SmallMod24(e.len - n);
    }
  }

  /** An exact fit is removed by shifting the later triples down one slot and taking one
      from the count byte. The live entries afterwards are the first `Slots(count - 1)` of
      the remaining entries followed by the triple that sat just past the live ones. */
  lemma AllocExact(m: seq<byte>, n: nat)
    requires IsMap(m) && Count(m) <= FSMAP_MAX_ENT
    requires var j := FitStop(m, n, 0); j < |Live(m)| && Live(m)[j].len == n
    ensures var j := FitStop(m, n, 0); var r := AllocMap(m, n);
      && r.Some? && r.value.start == Live(m)[j].start
      && Count(r.value.buf) == Count(m) - 1
      && Slots(Count(m) - 1) <= |Live(m)|
      && Live(r.value.buf) == (Remove(Live(m), j) + [EntryAt(m, |Live(m)|)])[..Slots(Count(m) - 1)]
  {
    var j := FitStop(m, n, 0);
    assert AllocMap(m, n).value.buf == RemoveBuf(m, j);
    LiveAfterRemove(m, j);
  }

  lemma LiveAfterRemove(m: seq<byte>, j: nat)
    requires IsMap(m) && 0 < Count(m) <= FSMAP_MAX_ENT && j < Slots(Count(m))
    ensures Slots(Count(m) - 1) <= |Live(m)|
    ensures Live(RemoveBuf(m, j)) == (Remove(Live(m), j) + [EntryAt(m, |Live(m)|)])[..Slots(Count(m) - 1)]
  {
    SlotsStep(Count(m) - 1);
    forall k | 0 <= k < Slots(Count(m) - 1)
      ensures Live(RemoveBuf(m, j))[k] == (Remove(Live(m), j) + [EntryAt(m, |Live(m)|)])[k]
    {
      RemoveBufAt(m, j, k);
      RemoveAt(Live(m), j, EntryAt(m, |Live(m)|), k);
    }
  }

  /** Entry k of the map `alloc_write` builds by removing entry j. */
  lemma RemoveBufAt(m: seq<byte>, j: nat, k: nat)
    requires IsMap(m) && 0 < Count(m) <= FSMAP_MAX_ENT && j < Slots(Count(m))
    requires k < Slots(Count(m) - 1)
    ensures k < 84
    ensures k < j ==> EntryAt(RemoveBuf(m, j), k) == EntryAt(m, k)
    ensures j <= k ==> EntryAt(RemoveBuf(m, j), k) == EntryAt(m, k + 1)
  {
    SlotsStep(Count(m));
    EntryAtIgnoresCount(ShiftDown(m, 3 * j, (Count(m) - 3 * j) * 3), Count(m) - 1, k);
    if k >= j {
      RemoveRange(Count(m), j, k);
    }
    ShiftDownAt(m, 3 * j, (Count(m) - 3 * j) * 3, k);
  }

  /** Every entry that moves down in an exact-fit removal comes from inside the moved bytes. */
  lemma RemoveRange(end: nat, j: nat, k: nat)
    requires 0 < end && j < Slots(end) && k < Slots(end - 1)
    ensures 3 * k + 3 <= 3 * j + (end - 3 * j) * 3
  {
  }

  // ---------------------------------------------------------------------------
  // What the count byte's unit means for the live entries

  /** The count byte is walked in steps of three but moved by one. When it is a multiple
      of three, an insert keeps every live entry. */
  lemma InsertKeepsAllWhenAligned(m: seq<byte>, j: nat, sector: nat, n: nat)
    requires IsMap(m) && Count(m) < FSMAP_MAX_ENT && j <= Slots(Count(m))
    requires Count(m) % 3 == 0
    ensures Live(InsertBuf(m, j, sector, n)) == Insert(Live(m), j, Extent(sector % TWO24, n % TWO24))
  {
    LiveAfterInsert(m, j, sector, n);
    SlotsDrop(Count(m) + 1);
    WholeTake(Insert(Live(m), j, Extent(sector % TWO24, n % TWO24)), Slots(Count(m) + 1));
  }

  /** Otherwise the count of live entries does not grow, so the entry inserted before
      the last one pushes the last one out of the live range. */
  lemma InsertDropsLastWhenUnaligned(m: seq<byte>, j: nat, sector: nat, n: nat)
    requires IsMap(m) && Count(m) < FSMAP_MAX_ENT && j < Slots(Count(m))
    requires Count(m) % 3 != 0
    ensures var x := Extent(sector % TWO24, n % TWO24);
      && |Live(InsertBuf(m, j, sector, n))| == |Live(m)|
      && Live(InsertBuf(m, j, sector, n)) == Insert(Live(m), j, x)[..|Live(m)|]
      && Insert(Live(m), j, x)[|Live(m)|] == Live(m)[|Live(m)| - 1]
  {
    LiveAfterInsert(m, j, sector, n);
    SlotsKeep(Count(m) + 1);
    InsertTakesAll(Live(m), Live(InsertBuf(m, j, sector, n)), j, Extent(sector % TWO24, n % TWO24));
  }

  /** Keeping `|s|` elements of `s` with `x` inserted before its end drops its last element. */
  lemma InsertTakesAll<T>(s: seq<T>, t: seq<T>, j: nat, x: T)
    requires j < |s| && t == Insert(s, j, x)[..|s|]
    ensures |t| == |s| && Insert(s, j, x)[|s|] == s[|s| - 1]
  {
    InsertAt(s, j, x, |s|);
  }

  /** Removing an exact fit from a map whose count byte is one more than a multiple of
      three removes just that entry. */
  lemma RemoveCleanWhenCountIsOneMod3(m: seq<byte>, j: nat)
    requires IsMap(m) && 0 < Count(m) <= FSMAP_MAX_ENT && j < Slots(Count(m))
    requires Count(m) % 3 == 1
    ensures Live(RemoveBuf(m, j)) == Remove(Live(m), j)
  {
    LiveAfterRemove(m, j);
    SlotsDrop(Count(m));
    TakeFront(Remove(Live(m), j), EntryAt(m, |Live(m)|));
  }

  /** Dropping a count byte that is 1 past a whole entry loses that entry. */
  lemma SlotsDrop(end: nat)
    requires end % 3 == 1
    ensures Slots(end - 1) + 1 == Slots(end)
  {
  }

  lemma TakeFront<T>(s: seq<T>, x: T)
    ensures (s + [x])[..|s|] == s
  {
  }

  /** Otherwise the number of live entries does not shrink, and the stale triple just past
      the old live entries becomes the last live entry. */
  lemma RemoveExposesStaleSlot(m: seq<byte>, j: nat)
    requires IsMap(m) && 0 < Count(m) <= FSMAP_MAX_ENT && j < Slots(Count(m))
    requires Count(m) % 3 != 1
    ensures Live(RemoveBuf(m, j)) == Remove(Live(m), j) + [EntryAt(m, |Live(m)|)]
  {
    LiveAfterRemove(m, j);
    SlotsKeep(Count(m));
    WholeTake(Remove(Live(m), j) + [EntryAt(m, |Live(m)|)], Slots(Count(m) - 1));
  }

  /** Dropping a count byte that is not 1 past a whole entry keeps the number of entries. */
  lemma SlotsKeep(end: nat)
    requires end > 0 && end % 3 != 1
    ensures Slots(end - 1) == Slots(end)
  {
  }

  lemma WholeTake<T>(s: seq<T>, n: nat)
    requires n == |s|
    ensures s[..n] == s
  {
  }

  /** A map with the single free extent of 5 sectors at sector 10 (count byte 3). */
  function OneExtentMap(): (m: seq<byte>)
    ensures IsMap(m) && Count(m) == 3 && Live(m) == [Extent(10, 5)]
  {
    var m := seq(MAP_BYTES, i => if i == 0 then 10 else if i == SIZES then 5 else if i == END then 3 else 0);
    assert Live(m)[0] == EntryAt(m, 0);
    m
  }

  /** Freeing the 5 sectors just before that extent does not merge with it: `map_free`
      only extends an extent that ends where the freed one starts, so the map ends up with
      two adjacent extents. */
  lemma NoMergeWithFollowing()
    ensures var r := MapFree(OneExtentMap(), 5, 5 * SECT_SIZE);
      r.status == OK && Live(r.buf) == [Extent(5, 5), Extent(10, 5)]
  {
    var m := OneExtentMap();
    SectorsOfWholeSectors(5);
    assert FreeStopsAt(m, 5, 0);
    assert FreeStop(m, 5, 0) == 0;
    MapFreeInsert(m, 5, 5 * SECT_SIZE);
    InsertKeepsAllWhenAligned(m, 0, 5, 5);
  }

  // ---------------------------------------------------------------------------
  // Order of the free extents

  /** Free extents in ascending order of start sector: none empty, none running into a
      later one, and all inside the 24-bit sector range. */
  predicate Ordered(s: seq<Extent>) {
    && (forall k :: 0 <= k < |s| ==> 0 < s[k].len && s[k].start + s[k].len <= TWO24)
    && (forall i, k :: 0 <= i < k < |s| ==> s[i].start + s[i].len <= s[k].start)
  }

  /** The n sectors at `sector` overlap none of the extents. */
  predicate Clear(s: seq<Extent>, sector: nat, n: nat) {
    forall k :: 0 <= k < |s| ==> sector + n <= s[k].start || s[k].start + s[k].len <= sector
  }

  lemma OrderedPrefix(s: seq<Extent>, n: nat)
    requires Ordered(s) && n <= |s|
    ensures Ordered(s[..n])
  {
  }

  lemma {:induction false} OrderedRemove(s: seq<Extent>, r: seq<Extent>, j: nat)
    requires Ordered(s) && j < |s| && r == Remove(s, j)
    ensures Ordered(r)
  {
    forall k | 0 <= k < |r|
      ensures r[k] == s[if k < j then k else k + 1]
    {
    }
  }

  /** Putting x in at j keeps the order when it lies after everything before j and
      before everything from j on. */
  lemma {:induction false} OrderedInsert(s: seq<Extent>, j: nat, x: Extent)
    requires Ordered(s) && j <= |s|
    requires 0 < x.len && x.start + x.len <= TWO24
    requires forall i :: 0 <= i < j ==> s[i].start + s[i].len <= x.start
    requires forall k :: j <= k < |s| ==> x.start + x.len <= s[k].start
    ensures Ordered(Insert(s, j, x))
  {
    var r := Insert(s, j, x);
    forall k | 0 <= k < |r|
      ensures r[k] == if k < j then s[k] else if k == j then x else s[k - 1]
    {
      InsertAt(s, j, x, k);
    }
  }

  /** Replacing entry j by x keeps the order when x lies between its neighbours. */
  lemma {:induction false} OrderedUpdate(s: seq<Extent>, j: nat, x: Extent)
    requires Ordered(s) && j < |s|
    requires 0 < x.len && x.start + x.len <= TWO24
    requires forall i :: 0 <= i < j ==> s[i].start + s[i].len <= x.start
    requires forall k :: j < k < |s| ==> x.start + x.len <= s[k].start
    ensures Ordered(s[j := x])
  {
  }

  /** Where `map_free`'s loop stopped, in terms of the live entries. */
  lemma LiveFreeStop(m: seq<byte>, sector: nat)
    requires IsMap(m)
    ensures var s := Live(m); var j := FreeStop(m, sector, 0);
      && (forall i :: 0 <= i < j ==> s[i].start <= sector && !Coalesces(s[i], sector))
      && (j < |s| ==> Coalesces(s[j], sector) || s[j].start > sector)
  {
    var s := Live(m);
    var j := FreeStop(m, sector, 0);
    forall i | 0 <= i < j
      ensures s[i].start <= sector && !Coalesces(s[i], sector)
    {
      assert s[i] == EntryAt(m, i) && !FreeStopsAt(m, sector, i);
    }
    if j < |s| {
      assert s[j] == EntryAt(m, j) && FreeStopsAt(m, sector, j);
    }
  }

  /** Growing the entry the freed extent follows keeps the order. */
  lemma GrowOrdered(s: seq<Extent>, t: seq<Extent>, j: nat, sector: nat, n: nat)
    requires Ordered(s) && Clear(s, sector, n) && sector + n < TWO24
    requires j < |s| && Coalesces(s[j], sector)
    requires t == s[j := Extent(s[j].start, (s[j].len + n) % TWO24)]
    ensures Ordered(t)
  {
    SmallMod24(s[j].len + n);
    var x := Extent(s[j].start, s[j].len + n);
    forall k | j < k < |s|
      ensures x.start + x.len <= s[k].start
    {
      assert sector <= s[k].start;
    }
    OrderedUpdate(s, j, x);
  }

  /** Inserting the freed extent where `map_free`'s loop stopped keeps the order. */
  lemma InsertOrdered(s: seq<Extent>, t: seq<Extent>, j: nat, sector: nat, n: nat, keep: nat)
    requires Ordered(s) && Clear(s, sector, n) && 0 < n && sector + n < TWO24
    requires j <= |s| && keep <= |s| + 1
    requires forall i :: 0 <= i < j ==> s[i].start <= sector && !Coalesces(s[i], sector)
    requires j < |s| ==> s[j].start > sector
    requires t == Insert(s, j, Extent(sector % TWO24, n % TWO24))[..keep]
    ensures Ordered(t)
  {
    SmallMod24(sector);
    SmallMod24(n);
    forall i | 0 <= i < j
      ensures s[i].start + s[i].len <= sector
    {
      assert s[i].start <= sector;
    }
    forall k | j <= k < |s|
      ensures sector + n <= s[k].start
    {
      assert s[j].start <= s[k].start;
    }
    OrderedInsert(s, j, Extent(sector, n));
    OrderedPrefix(Insert(s, j, Extent(sector, n)), keep);
  }

  /** `map_free` of an extent that lies below sector 2^24 and overlaps no free extent
      keeps the live entries in order, whether it grows the entry the extent follows,
      inserts it, or finds the map full. */
  lemma MapFreeKeepsOrder(m: seq<byte>, sector: u32, length: u32)
    requires IsMap(m) && Count(m) <= FSMAP_MAX_ENT
    requires sector + Sectors(length) < TWO24
    requires Ordered(Live(m)) && Clear(Live(m), sector, Sectors(length))
    ensures Ordered(Live(MapFree(m, sector, length).buf))
  {
    var n := Sectors(length);
    var j := FreeStop(m, sector, 0);
    if j < |Live(m)| && Coalesces(Live(m)[j], sector) {
      MapFreeCoalesce(m, sector, length);
      GrowKeepsOrder(m, j, sector, n);
    } else if Count(m) >= FSMAP_MAX_ENT {
      MapFreeFull(m, sector, length);
    } else {
      MapFreeInsert(m, sector, length);
      InsertKeepsOrder(m, sector, n);
    }
  }

  lemma GrowKeepsOrder(m: seq<byte>, j: nat, sector: nat, n: nat)
    requires IsMap(m) && Count(m) <= FSMAP_MAX_ENT
    requires j < |Live(m)| && Coalesces(Live(m)[j], sector)
    requires Ordered(Live(m)) && Clear(Live(m), sector, n) && sector + n < TWO24
    ensures Ordered(Live(GrowBuf(m, j, n)))
  {
    LiveAfterGrow(m, j, n);
    assert Live(m)[j] == EntryAt(m, j);
    GrowOrdered(Live(m), Live(GrowBuf(m, j, n)), j, sector, n);
  }

  lemma InsertKeepsOrder(m: seq<byte>, sector: nat, n: nat)
    requires IsMap(m) && Count(m) < FSMAP_MAX_ENT
    requires var j := FreeStop(m, sector, 0); !(j < |Live(m)| && Coalesces(Live(m)[j], sector))
    requires Ordered(Live(m)) && Clear(Live(m), sector, n) && 0 < n && sector + n < TWO24
    ensures Ordered(Live(InsertBuf(m, FreeStop(m, sector, 0), sector, n)))
  {
    var s := Live(m);
    var j := FreeStop(m, sector, 0);
    LiveFreeStop(m, sector);
    LiveAfterInsert(m, j, sector, n);
    InsertOrdered(s, Live(InsertBuf(m, j, sector, n)), j, sector, n, Slots(Count(m) + 1));
  }

  /** `alloc_write` keeps the live entries in order when it shrinks the first fit, and
      when it removes an exact fit from a map whose count byte is one past a multiple of
      3. For other count bytes see `ExactFitListsExtentTwice`. */
  lemma AllocKeepsOrder(m: seq<byte>, n: nat)
    requires IsMap(m) && Count(m) <= FSMAP_MAX_ENT && Ordered(Live(m))
    requires var j := FitStop(m, n, 0); j < |Live(m)| && (Live(m)[j].len > n || Count(m) % 3 == 1)
    ensures AllocMap(m, n).Some? && Ordered(Live(AllocMap(m, n).value.buf))
  {
    var j := FitStop(m, n, 0);
    AllocTakes(m, n);
    assert Live(m)[j] == EntryAt(m, j);
    if EntryAt(m, j).len > n {
      ShrinkKeepsOrder(m, j, n);
    } else {
      RemoveKeepsOrder(m, j);
    }
  }

  /** When some live entry holds n sectors, `AllocMap` takes them from the first one. */
  lemma AllocTakes(m: seq<byte>, n: nat)
    requires IsMap(m) && Count(m) <= FSMAP_MAX_ENT && FitStop(m, n, 0) < Slots(Count(m))
    ensures var j := FitStop(m, n, 0);
      AllocMap(m, n) == Some(Placement(EntryAt(m, j).start, TakeBuf(m, j, n)))
  {
  }

  lemma ShrinkKeepsOrder(m: seq<byte>, j: nat, n: nat)
    requires IsMap(m) && j < Slots(Count(m)) && Count(m) <= FSMAP_MAX_ENT && EntryAt(m, j).len > n
    requires Ordered(Live(m))
    ensures Ordered(Live(ShrinkBuf(m, j, n)))
  {
    LiveAfterShrink(m, j, n);
    ShrinkOrdered(Live(m), Live(ShrinkBuf(m, j, n)), j, n);
  }

  lemma RemoveKeepsOrder(m: seq<byte>, j: nat)
    requires IsMap(m) && 0 < Count(m) <= FSMAP_MAX_ENT && j < Slots(Count(m)) && Count(m) % 3 == 1
    requires Ordered(Live(m))
    ensures Ordered(Live(RemoveBuf(m, j)))
  {
    RemoveCleanWhenCountIsOneMod3(m, j);
    OrderedRemove(Live(m), Live(RemoveBuf(m, j)), j);
  }

  /** Taking n sectors from the front of a longer entry keeps the order. */
  lemma ShrinkOrdered(s: seq<Extent>, t: seq<Extent>, j: nat, n: nat)
    requires Ordered(s) && j < |s| && s[j].len > n
    requires t == s[j := Extent((s[j].start + n) % TWO24, s[j].len - n)]
    ensures Ordered(t)
  {
    SmallMod24(s[j].start + n);
    OrderedUpdate(s, j, Extent(s[j].start + n, s[j].len - n));
  }

  /** A map with count byte 6: live extents of 1 sector at 10 and 5 sectors at 20, and
      the triple past them still holding the 5 sectors at 20, as an earlier exact-fit
      removal leaves it. */
  function StaleSlotMap(): (m: seq<byte>)
    ensures IsMap(m) && Count(m) == 6
    ensures Live(m) == [Extent(10, 1), Extent(20, 5)] && EntryAt(m, 2) == Extent(20, 5)
  {
    var m := seq(MAP_BYTES, i =>
      if i == 0 then 10 else if i == 3 || i == 6 then 20
      else if i == SIZES then 1 else if i == SIZES + 3 || i == SIZES + 6 then 5
      else if i == END then 6 else 0);
    assert Live(m)[0] == EntryAt(m, 0);
    assert Live(m)[1] == EntryAt(m, 1);
    m
  }

  /** With any other count byte an exact fit can list a free extent twice: allocating
      the sector at 10 leaves the 5 sectors at 20 in two live entries, so two later
      allocations can both be given them. */
  lemma ExactFitListsExtentTwice()
    ensures var m := StaleSlotMap(); var r := AllocMap(m, 1);
      && Ordered(Live(m))
      && r.Some? && r.value.start == 10
      && Live(r.value.buf) == [Extent(20, 5), Extent(20, 5)]
      && !Ordered(Live(r.value.buf))
  {
    var m := StaleSlotMap();
    StaleSlotFit();
    AllocTakes(m, 1);
    assert TakeBuf(m, 0, 1) == RemoveBuf(m, 0);
    StaleSlotRemoved(m, Live(RemoveBuf(m, 0)));
  }

  /** Removing the first entry of such a map brings the stale triple into the live range,
      next to the extent it repeats. */
  lemma StaleSlotRemoved(m: seq<byte>, t: seq<Extent>)
    requires IsMap(m) && Count(m) == 6
    requires Live(m) == [Extent(10, 1), Extent(20, 5)] && EntryAt(m, 2) == Extent(20, 5)
    requires t == Live(RemoveBuf(m, 0))
    ensures Ordered(Live(m))
    ensures t == [Extent(20, 5), Extent(20, 5)] && !Ordered(t)
  {
    RemoveExposesStaleSlot(m, 0);
    assert Remove(Live(m), 0) == [Extent(20, 5)];
    assert t[0].start + t[0].len > t[1].start;
  }

  /** In that map the first entry already holds one sector, exactly. */
  lemma StaleSlotFit()
    ensures var m := StaleSlotMap(); FitStop(m, 1, 0) == 0 && EntryAt(m, 0) == Extent(10, 1)
  {
    var m := StaleSlotMap();
    assert Live(m)[0] == EntryAt(m, 0);
    assert Fits(m, 1, 0);
  }
}

=== FILE: path.dfy ===
/**
  Path lookup: `find` resolves a '.'-separated ADFS path from the root directory,
  one `search` per component. "$" alone is the root itself; a leading "$." names the
  root and is dropped once.
 */
module Path {
  import opened Wrappers
  import opened Bytes
  import opened DiskImg
  import opened AcornFS
  import opened Directory

  const DOLLAR: byte := 0x24
  const DOT: byte := 0x2E

  /** `make_root`: the root directory of an old-map disc, 1280 bytes at sector 2, with
      every other field zero. */
  function MakeRoot(): (r: Object)
    ensures r.isDir && r.length == 1280 && r.sector == 2
    ensures CStr(r.name) == [] && r.data.None?
  {
    Object([], false, false, false, true, false, false, false, false, false, 0, 0, 1280, 2, None)
  }

  /** A C string's contents: no NUL inside. */
  predicate CString(p: seq<byte>) {
    forall i :: 0 <= i < |p| ==> p[i] != 0
  }

  /** `strchr(p, '.')`: the position of the first '.'. */
  function FirstDot(p: seq<byte>): (r: Option<nat>)
    ensures r.Some? ==> r.value < |p| && p[r.value] == DOT && forall i :: 0 <= i < r.value ==> p[i] != DOT
    ensures r.None? ==> forall i :: 0 <= i < |p| ==> p[i] != DOT
  {
    if |p| == 0 then None
    else if p[0] == DOT then Some(0)
    else match FirstDot(p[1..])
      case None => None
      case Some(i) => Some(i + 1)
  }

  datatype Lookup = Found(obj: Object) | Lost(status: Status)

  /** The loop of `find` from `parent`: search for the text before the first '.', descend
      into what it finds, and go on with the text after the '.'; the last component is
      searched by its full length. The first failing search ends the walk with its
      status. */
  function Walk(disk: Disk, parent: Object, p: seq<byte>): (r: Lookup)
    ensures r.Lost? ==> r.status in {NotFound, NameTooLong, NotADir, ReadErr, BrokenDir}
    decreases |p|
  {
    match FirstDot(p)
    case Some(i) =>
      (match Search(disk, parent, p[..i])
       case Hit(child, _, _) => Walk(disk, child, p[i + 1..])
       case Miss(_, _) => Lost(NotFound)
       case Failed(s) => Lost(s))
    case None =>
      (match Search(disk, parent, p)
       case Hit(child, _, _) => Found(child)
       case Miss(_, _) => Lost(NotFound)
       case Failed(s) => Lost(s))
  }

  /** `find`: "$" is the root without touching the disc; otherwise a leading "$." is
      dropped and the rest is walked from the root. */
  function Find(disk: Disk, path: seq<byte>): (r: Lookup)
    requires CString(path)
    ensures path == [DOLLAR] ==> r == Found(MakeRoot())
    ensures path != [DOLLAR] ==> r == Resolve(disk, MakeRoot(), Split(StripRoot(path)))
    ensures r.Lost? ==> r.status in {NotFound, NameTooLong, NotADir, ReadErr, BrokenDir}
  {
    if path == [DOLLAR] then Found(MakeRoot())
    else
      WalkResolvesParts(disk, MakeRoot(), StripRoot(path));
      Walk(disk, MakeRoot(), StripRoot(path))
  }

  /** The path with one leading "$." removed. */
  function StripRoot(path: seq<byte>): seq<byte> {
    if |path| >= 2 && path[0] == DOLLAR && path[1] == DOT then path[2..] else path
  }

  // ---------------------------------------------------------------------------
  // An independent reading of a path: split it at every '.', then resolve the parts

  /** The parts of a path between its dots. */
  function Split(p: seq<byte>): (r: seq<seq<byte>>)
    ensures |r| >= 1
    ensures forall k, i :: 0 <= k < |r| && 0 <= i < |r[k]| ==> r[k][i] != DOT
    decreases |p|
  {
    match FirstDot(p)
    case Some(i) => [p[..i]] + Split(p[i + 1..])
    case None => [p]
  }

  /** The parts put back together with dots between them. */
  function Join(parts: seq<seq<byte>>): seq<byte>
    requires |parts| >= 1
  {
    if |parts| == 1 then parts[0] else parts[0] + [DOT] + Join(parts[1..])
  }

  /** Splitting loses nothing: joining the parts gives the path back. */
  lemma {:induction false} JoinSplit(p: seq<byte>)
    ensures Join(Split(p)) == p
    decreases |p|
  {
    match FirstDot(p)
    case Some(i) =>
      JoinSplit(p[i + 1..]);
      assert Split(p)[1..] == Split(p[i + 1..]);
      assert p == p[..i] + [DOT] + p[i + 1..];
    case None =>
  }

  /** Splitting a join of dot-free parts gives the parts back. */
  lemma {:induction false} SplitJoin(parts: seq<seq<byte>>)
    requires |parts| >= 1
    requires forall k, i :: 0 <= k < |parts| && 0 <= i < |parts[k]| ==> parts[k][i] != DOT
    ensures Split(Join(parts)) == parts
    decreases |parts|
  {
    if |parts| > 1 {
      var p := Join(parts);
      var rest := Join(parts[1..]);
      assert p == parts[0] + [DOT] + rest;
      assert p[|parts[0]|] == DOT;
      assert FirstDot(p) == Some(|parts[0]|);
      assert p[..|parts[0]|] == parts[0];
      assert p[|parts[0]| + 1..] == rest;
      SplitJoin(parts[1..]);
    } else {
      assert FirstDot(parts[0]).None?;
    }
  }

  /** Search for each part in turn, descending into each directory found. */
  function Resolve(disk: Disk, parent: Object, parts: seq<seq<byte>>): Lookup
    requires |parts| >= 1
    decreases |parts|
  {
    match Search(disk, parent, parts[0])
    case Hit(child, _, _) => if |parts| == 1 then Found(child) else Resolve(disk, child, parts[1..])
    case Miss(_, _) => Lost(NotFound)
    case Failed(s) => Lost(s)
  }

  /** `find`'s walk resolves exactly the dot-separated parts of the path. */
  lemma {:induction false} WalkResolvesParts(disk: Disk, parent: Object, p: seq<byte>)
    ensures Walk(disk, parent, p) == Resolve(disk, parent, Split(p))
    decreases |p|
  {
    match FirstDot(p)
    case Some(i) =>
      assert Split(p)[0] == p[..i];
      assert Split(p)[1..] == Split(p[i + 1..]);
      if Search(disk, parent, p[..i]).Hit? {
        WalkResolvesParts(disk, Search(disk, parent, p[..i]).child, p[i + 1..]);
      }
    case None =>
  }

  /** Letter case does not matter: two paths with their dots in the same places whose
      other bytes fold alike resolve alike. */
  lemma {:induction false} WalkIgnoresCase(disk: Disk, parent: Object, a: seq<byte>, b: seq<byte>)
    requires |a| == |b|
    requires forall i :: 0 <= i < |a| ==> (a[i] == DOT <==> b[i] == DOT)
    requires forall i :: 0 <= i < |a| ==> FoldTarget(a[i]) == FoldTarget(b[i])
    ensures Walk(disk, parent, a) == Walk(disk, parent, b)
    decreases |a|
  {
    SameDots(a, b);
    match FirstDot(a)
    case Some(i) =>
      SearchIgnoresCase(disk, parent, a[..i], b[..i]);
      if Search(disk, parent, a[..i]).Hit? {
        WalkIgnoresCase(disk, Search(disk, parent, a[..i]).child, a[i + 1..], b[i + 1..]);
      }
    case None =>
      SearchIgnoresCase(disk, parent, a, b);
  }

  lemma {:induction false} SameDots(a: seq<byte>, b: seq<byte>)
    requires |a| == |b|
    requires forall i :: 0 <= i < |a| ==> (a[i] == DOT <==> b[i] == DOT)
    ensures FirstDot(a) == FirstDot(b)
    decreases |a|
  {
    if |a| > 0 && a[0] != DOT {
      SameDots(a[1..], b[1..]);
    }
  }
}

=== FILE: wrappers.dfy ===
/** The optional value used wherever the driver returns an address that may be NULL. */
module Wrappers {

  datatype Option<+T> = None | Some(value: T)
}
